=== FILE: README.md ===
# Toonie core, modelled in Dafny

Toonie is a p5.js animation studio. A chat asks a NestJS backend for p5.js code. The
browser dashboard edits that code, records the running sketch into video clips,
keeps the clips in IndexedDB, and arranges them on a timeline. This project models
the logic of that core as pure functions over immutable datatypes, and proves what
the code promises about each operation.

Modules (one file each):

- `wrappers.dfy` (`Wrappers`): `Option` and `Result`.
- `text.dfy` (`Text`): the JavaScript string operations the code relies on:
  - `toLowerCase`, `trim`, `indexOf`, `includes`, `startsWith`;
  - `replace` with a string pattern, `join`;
  - number-to-text, `padStart(2, '0')`, `parseInt`.
- `sequences.dfy` (`Sequences`): the order-preserving subsequence relation.
- `clock.dfy` (`Clock`): JavaScript rounding and the `m:ss` rendering. The rendering is
  shared by `formatDuration` in `ClipStorage.ts` and `formatTime` in
  `VideoControls.tsx`.
- `clip_store.dfy` (`ClipStore`): `ClipStorage` as two keyed stores, metadata and blobs.
  - Each IndexedDB request that can fail is chosen by an explicit `Fault` argument.
  - The clip id and the clock reading are parameters.
- `recording.dfy` (`Recording`): `useVideoRecording` as a state machine driven by the
  recorder's events: data available, stop, error, timer tick and stop request.
- `clip_preview.dfy` (`ClipPreview`): the dashboard's `CurrentClipPreview` flow on top
  of the recorder and the store: record, save, export, download, the duration field
  and the countdown.
- `code_extraction.dfy` (`CodeExtraction`): the backend's scanners that pull code and an
  explanation out of a model's reply.
- `ai_service.dfy` (`AiService`): the requests the backend sends, and how it maps
  answers and failures to results and HTTP errors.
- `dtos.dfy` (`Dtos`): the class-validator rules of the three request DTOs, written as
  validators over a JSON object.
- `timeline_ids.dfy` (`TimelineIds`): the dashboard video editor's id lists (selection
  and timeline), and the timeline's metadata lookup and total duration.
- `video_clip.dfy` (`VideoClips`): the `VideoClip` record.
- `track_packing.dfy` (`TrackPacking`): the editor timeline's greedy track packing, time
  marks and click-to-time conversion.
- `video_editor.dfy` (`VideoEditor`): the editor's total duration, time clamp,
  play/pause, zoom buttons, and the preview's active clips and render dispatch.
- `app_state.dfy` (`AppState`): `useApp`'s clip list and selection, and its file-update
  callback.
- `files_state.dfy` (`FilesState`): `useFiles`.
  - Both copies, `Pages/DashBoard/hooks/useFiles.ts` and `hooks/useFiles.ts`, have the
    same logic.
  - They differ only in the default files, which are a parameter here.
- `chat.dfy` (`Chat`): `useChat`'s message reducer and keyword test.
- `message_input.dfy` (`MessageInput`): both chat input boxes.
- `panels.dfy` (`Panels`):
  - the resizable file explorer and sidebar;
  - the two-pane layout;
  - the file search and the file icons.
- `code_display.dfy` (`CodeDisplay`): both copies of `getLanguage`.

## Model

| member | source | states |
|---|---|---|
| Clock.FormatMinSec | Frontend/src/utils/ClipStorage.ts:322-326 | For a non-negative time, the minutes are the whole seconds divided by 60, then a colon, then the remaining seconds padded to two digits. |
| Clock.SecondsPartBounds | Frontend/src/Pages/DashBoard/components1/video/VideoControls.tsx:25 | The seconds part lies in [-60, 60); it is never negative for a non-negative time. |
| Clock.FormatMinSecRoundTrip | Frontend/src/Pages/DashBoard/components1/video/VideoControls.tsx:23-27 | Reading a rendering back (minutes × 60 + seconds) gives the whole seconds of the time. So the rendering loses only the fraction. |
| Clock.WholeSecondsRoundTrip | Frontend/src/Pages/DashBoard/components1/video/VideoControls.tsx:23-27 | The `m:ss` text of any whole number of seconds reads back to that number. |
| ClipStore.NewMetadata | Frontend/src/utils/ClipStorage.ts:73-83 | The stored metadata carries the given id and clock reading, the request's name and duration, and the blob's size and type. Missing tags default to an empty list and a missing description to empty text. |
| ClipStore.SaveClip | Frontend/src/utils/ClipStorage.ts:58-102 | The id is returned only when both writes succeed. Metadata is written first and the blob second, with no rollback. The store is unchanged when the first write fails, and no other clip changes. |
| ClipStore.GetClip | Frontend/src/utils/ClipStorage.ts:104-125 | A record is returned iff the read succeeds and both stores hold the id. It holds exactly what the two stores hold. |
| ClipStore.SaveThenGet | Frontend/src/utils/ClipStorage.ts:90-124 | After a successful save, reading the id back gives the new metadata and the exact blob saved. |
| ClipStore.FailedBlobWriteLeavesOrphan | Frontend/src/utils/ClipStorage.ts:90-101 | When the blob write fails, the save reports an error but the metadata stays, and the clip can never be read. |
| ClipStore.SaveKeepsOtherClips | Frontend/src/utils/ClipStorage.ts:90-101 | A save, failed or not, leaves what every other id reads unchanged. |
| ClipStore.DeleteClip | Frontend/src/utils/ClipStorage.ts:142-156 | Deletes the id from the metadata store and then the blob store. Returns true iff both succeed, whether or not the id existed. Nothing else is touched. |
| ClipStore.DeleteThenGet | Frontend/src/utils/ClipStorage.ts:148-152 | After a delete the id reads as missing, and every other id reads as before. |
| ClipStore.DeleteIdempotent | Frontend/src/utils/ClipStorage.ts:142-156 | Deleting twice leaves the store as deleting once, and the second delete still reports success. |
| ClipStore.UpdateClipMetadata | Frontend/src/utils/ClipStorage.ts:158-177 | On an existing id with no failure, it returns true. Each supplied field is overwritten, every other field and clip is kept, the id never changes, and the blobs are never touched. A missing id or a failure returns false and changes nothing. |
| ClipStore.EmptyPatchChangesNothing | Frontend/src/utils/ClipStorage.ts:164-176 | An update that supplies no field leaves the store exactly as it was. |
| ClipStore.UpdateKeepsVisibility | Frontend/src/utils/ClipStorage.ts:158-177 | An update never makes a clip readable or unreadable, and never changes its blob. |
| ClipStore.Insert | Frontend/src/utils/ClipStorage.ts:135 | Inserting a clip into a newest-first list keeps it newest-first, adds exactly that clip, and keeps every other one. |
| ClipStore.GetAllClips | Frontend/src/utils/ClipStorage.ts:127-140 | Lists every stored metadata record exactly once, newest first. Equal creation times are ordered by id, following the stable sort over the store's key order. A failed read gives the empty list. |
| ClipStore.SumFileSizeOfListing | Frontend/src/utils/ClipStorage.ts:185-189 | Summing file sizes over any listing of the store, with each clip once, gives the store's total size. |
| ClipStore.GetStorageInfo | Frontend/src/utils/ClipStorage.ts:179-193 | The count is the number of clips and the size is the sum of their file sizes. The newest and oldest dates are the largest and smallest creation times, and both are absent iff the store is empty. A failed read gives zeros. |
| Recording.SelectMimeType | Frontend/src/Pages/DashBoard/hooks/useVideoRecording.ts:64-81 | The chosen type is the first supported one in the order vp9, vp8, webm, mp4. There is none iff no listed type is supported. |
| Recording.PreferredTypeWins | Frontend/src/Pages/DashBoard/hooks/useVideoRecording.ts:64-70 | When vp9 is supported it is chosen, whatever else is supported. |
| Recording.Start | Frontend/src/Pages/DashBoard/hooks/useVideoRecording.ts:20-58 | A null canvas is rejected with the `TypeError` raised when line 26 logs its dimensions, before the validity test can run. A canvas with zero width or height is rejected as invalid, then a canvas without a context. A session starts iff the canvas has a context, a stream with video tracks, and a supported type. It starts with no chunks, an active recorder, the flag and the timer on, and the default duration of 5000 ms. |
| Recording.Progress | Frontend/src/Pages/DashBoard/hooks/useVideoRecording.ts:155-158 | For a positive duration, progress lies in [0, 100] and reaches 100 exactly when the elapsed time reaches the duration. |
| Recording.ProgressMonotone | Frontend/src/Pages/DashBoard/hooks/useVideoRecording.ts:155-158 | Progress never decreases as time passes. |
| Recording.StopRecording | Frontend/src/Pages/DashBoard/hooks/useVideoRecording.ts:175-180 | A stop request acts only on a recorder that is not inactive. |
| Recording.FailureMessage | Frontend/src/Pages/DashBoard/hooks/useVideoRecording.ts:145 | The error message always starts with "Recording failed: ". A missing error message gives "undefined", because `+` binds before the fallback. |
| Recording.StopOutcome | Frontend/src/Pages/DashBoard/hooks/useVideoRecording.ts:108-134 | Stopping with no chunks rejects, without resetting the flag, the progress or the tracks. Otherwise it resolves with the chunks' bytes in order, typed with the chosen type, and resets all three. |
| Recording.FailureOutcome | Frontend/src/Pages/DashBoard/hooks/useVideoRecording.ts:137-146 | A recorder error rejects with a "Recording failed: " message (never "Unknown error"), clears the flag and the progress, and stops the tracks. |
| Recording.TickOutcome | Frontend/src/Pages/DashBoard/hooks/useVideoRecording.ts:155-165 | A tick sets progress within [0, 100]. At or past the duration it stops the timer and the recorder; before it, both keep running. |
| Recording.StepChunks | Frontend/src/Pages/DashBoard/hooks/useVideoRecording.ts:100-105 | Each event adds the chunk it delivers if that chunk is non-empty, and nothing otherwise. |
| Recording.RunChunks | Frontend/src/Pages/DashBoard/hooks/useVideoRecording.ts:100-105 | Over any run of events, the kept chunks are exactly the non-empty delivered chunks, in arrival order. |
| Recording.RunConsistent | Frontend/src/Pages/DashBoard/hooks/useVideoRecording.ts:100-134 | Every kept chunk is non-empty, and a resolved blob is non-empty and has the session's type, over any run of events. |
| Recording.SettledStaysSettled | Frontend/src/Pages/DashBoard/hooks/useVideoRecording.ts:108-146 | Once the promise is settled, no later event changes its outcome. |
| Recording.ResolvedBlobNonEmpty | Frontend/src/Pages/DashBoard/hooks/useVideoRecording.ts:111-133 | A recording that resolves, whatever events it saw, yields a non-empty blob of the type chosen at start. So the zero-size rejection can never fire. |
| ClipPreview.DurationInput | Frontend/src/Pages/DashBoard/components1/preview/CurrentClipPreview.tsx:175 | The field is always at least 1. Unparsable text or 0 gives 5, a negative number gives 1, and a positive number is kept. |
| ClipPreview.DurationInputStable | Frontend/src/Pages/DashBoard/components1/preview/CurrentClipPreview.tsx:175 | Re-entering the field's own value leaves it unchanged. |
| ClipPreview.NamesOfTsxFile | Frontend/src/Pages/DashBoard/components1/preview/CurrentClipPreview.tsx:90 | For `<stem>.tsx` the clip is named `<stem> Animation` and the download `<stem>_animation.webm`. |
| ClipPreview.OnlyFirstTsxRemoved | Frontend/src/Pages/DashBoard/components1/preview/CurrentClipPreview.tsx:90 | Only the first ".tsx" is removed: "a.tsx.tsx" gives the clip "a.tsx Animation". |
| ClipPreview.Countdown | Frontend/src/Pages/DashBoard/components1/preview/CurrentClipPreview.tsx:266 | The seconds shown are the ceiling of the remaining fraction of the duration. |
| ClipPreview.CountdownBounds | Frontend/src/Pages/DashBoard/components1/preview/CurrentClipPreview.tsx:266 | As progress grows from 0 to 100, the countdown falls from the duration to 0 and never goes outside that range. |
| ClipPreview.HandleRecord | Frontend/src/Pages/DashBoard/components1/preview/CurrentClipPreview.tsx:42-118 | A missing or zero-size canvas stops before anything is recorded or saved. An exported clip carries the clip name, the requested seconds and a non-empty blob, and the success alert names it. The store changes only when the first write succeeds, and saving is off whenever an alert shows. |
| ClipPreview.AfterRecording | Frontend/src/Pages/DashBoard/components1/preview/CurrentClipPreview.tsx:76-117 | A rejected recording alerts its message and saves nothing. Only a resolved blob is exported. |
| ClipPreview.SaveRecording | Frontend/src/Pages/DashBoard/components1/preview/CurrentClipPreview.tsx:86-117 | A non-empty blob is saved under the clip name with the requested seconds as its duration, and then exported. A store failure alerts the store's message and exports nothing. |
| ClipPreview.RecordRequest | Frontend/src/Pages/DashBoard/components1/preview/CurrentClipPreview.tsx:76-79 | The recorder is asked for the field's seconds × 1000 ms at 30 frames per second, and the session runs that long. |
| ClipPreview.RecordedClipIsSaved | Frontend/src/Pages/DashBoard/components1/preview/CurrentClipPreview.tsx:92-107 | With a working store, a recording that resolves is exported. The exported blob can be read back from the store under the clip name, with the requested seconds as its duration. |
| ClipPreview.ExportDownload | Frontend/src/Pages/DashBoard/components1/preview/CurrentClipPreview.tsx:124-158 | Nothing happens without a canvas, and a lost canvas fails the export. A download is named `<stem>_animation.webm`. |
| ClipPreview.DownloadMatchesExport | Frontend/src/Pages/DashBoard/components1/preview/CurrentClipPreview.tsx:124-158 | With the same recorder behaviour, the download succeeds iff the record flow exports, and both carry the same blob. |
| CodeExtraction.ExtractCode | backend/src/AI/ai.service.ts:185-211 | With a fenced block, the code is the trimmed body of the last block. Otherwise it is the `function setup` paragraph if there is one, and else the whole reply. |
| CodeExtraction.ExtractSingleBlock | backend/src/AI/ai.service.ts:189-197 | A reply that is one fenced block, with an optional `javascript` or `js` tag, yields the block's trimmed body. |
| CodeExtraction.ExtractLastBlock | backend/src/AI/ai.service.ts:192-197 | Of two fenced blocks, the second one's body is taken. |
| CodeExtraction.TwoBlocks | backend/src/AI/ai.service.ts:189-190 | Fences pair left to right, and each body ends at the next fence. |
| CodeExtraction.NoFences | backend/src/AI/ai.service.ts:189-192 | Text without a backtick has no fenced block. |
| CodeExtraction.FindSetup | backend/src/AI/ai.service.ts:201-206 | Returns the text from the leftmost `function setup(...) {` header (no header starts earlier) to the end of its body. It finds nothing iff no header occurs. |
| CodeExtraction.FirstSetupHeader | backend/src/AI/ai.service.ts:201-202 | `match` is leftmost: the position found holds a setup header and no earlier position does. It finds nothing iff no position holds one. |
| CodeExtraction.BodyEndAtBlankLine | backend/src/AI/ai.service.ts:201 | The setup match stops at the first blank line. |
| CodeExtraction.ExtractSetupParagraph | backend/src/AI/ai.service.ts:201-210 | Without fences, a reply starting with a setup function yields that paragraph up to the blank line. |
| CodeExtraction.FirstMarker | backend/src/AI/ai.service.ts:215 | Finds the first position where a fence or `function` followed by white space and `setup` starts. It finds none iff no such position exists. |
| CodeExtraction.ExtractExplanationAsWritten | backend/src/AI/ai.service.ts:213-233 | The code as written: a non-empty prefix before the first marker is trimmed, and a leading "Here's " and then "This is " are stripped. A marker at position 0, or none, gives the joined comments or the default sentence. |
| CodeExtraction.AsWrittenBlankIntro | backend/src/AI/ai.service.ts:218-219 | The code as written returns the empty explanation for a reply whose text before the fence is only white space. The corrected version returns the default sentence. |
| CodeExtraction.ExtractExplanation | backend/src/AI/ai.service.ts:213-233 | The corrected explanation: when the trimmed prefix before the first marker is non-empty, the explanation is that prefix with "Here's " and "This is " stripped. |
| CodeExtraction.ExplanationNonEmpty | backend/src/AI/ai.service.ts:213-233 | The corrected explanation is never empty. |
| CodeExtraction.ExplanationVersionsAgree | backend/src/AI/ai.service.ts:213-222 | The version as written and the corrected version differ exactly on a reply whose text before the first marker is non-empty and all white space. On that reply the version as written gives the empty string. |
| CodeExtraction.BlankIntroCode | backend/src/AI/ai.service.ts:189-197 | A newline and then one fenced block: the code is the trimmed body, and the text before the fence is blank. |
| CodeExtraction.Comments | backend/src/AI/ai.service.ts:225-226 | Each comment text found after `//` is non-empty and lies on one line. |
| CodeExtraction.ExplainBeforeFence | backend/src/AI/ai.service.ts:215-222 | Text before a fence, without `function`, is trimmed and has "Here's " and "This is " stripped. |
| CodeExtraction.StripHeresOf | backend/src/AI/ai.service.ts:221 | `/^Here's\s+/i` removes a leading "Here's " or "HERE'S " and leaves the rest. |
| CodeExtraction.StripThisIsOf | backend/src/AI/ai.service.ts:221 | `/^This\s+is\s+/i` removes a leading "This is " or "THIS IS " and leaves the rest. |
| CodeExtraction.ExplainComment | backend/src/AI/ai.service.ts:225-230 | A reply that is a single `//` comment is explained by the comment's text. |
| AiService.UpstreamText | backend/src/AI/ai.service.ts:132 | An absent or empty upstream message falls back to "Bad request". A non-empty one is kept. |
| AiService.MapFailure | backend/src/AI/ai.service.ts:113-141 | Upstream 401, 429 and 400 map to the same status with their own message; 400 carries the upstream text. Every other failure maps to 500 with the error's message, or "Unknown error occurred" for a thrown non-Error. |
| AiService.GenerateRequest | backend/src/AI/ai.service.ts:66-88 | The request holds the system prompt, then the user's prompt. The model and the temperature 0.7 are used when not given. |
| AiService.GenerateP5Code | backend/src/AI/ai.service.ts:90-143 | It succeeds iff the API answered with at least one choice. A failure is mapped by the catch block, and an empty answer gives the "No response" error. On success the code and the explanation are what the two extractors, the latter as written, read from the first choice. The result also carries the model and the usage. |
| AiService.NoChoicesLoseGatewayStatus | backend/src/AI/ai.service.ts:92-94 | The BAD_GATEWAY raised for an empty answer leaves as status 500 with the same message, because the catch block re-raises it. |
| AiService.GenerateFromFencedReply | backend/src/AI/ai.service.ts:96-98 | Only the first choice is read. A first choice that is one fenced block yields its trimmed body as the code. Its explanation is the corrected one, because nothing precedes the fence. |
| AiService.GenerateBlankExplanation | backend/src/AI/ai.service.ts:96-98 | A first choice made of a newline and then a fenced block succeeds with the block's trimmed body as the code and an empty explanation. |
| AiService.ChatMessages | backend/src/AI/ai.service.ts:258-265 | The chat list is the fixed system message, then the history in order, then the user's message. |
| AiService.ChatMessagesSplit | backend/src/AI/ai.service.ts:258-265 | The history and the message can be read back from the list, so different inputs never send the same list. |
| AiService.ChatRequest | backend/src/AI/ai.service.ts:267-271 | A chat uses the default model and temperature 0.8. |
| AiService.ChatWithAI | backend/src/AI/ai.service.ts:273-290 | The first choice is returned verbatim with the explanation "Chat response". Any failure, including an answer with no choices, is the single "Chat failed" 500. |
| AiService.ImprovePrompt | backend/src/AI/ai.service.ts:237-245 | The code and the feedback appear verbatim at fixed places in the prompt. |
| AiService.ImprovePromptInjective | backend/src/AI/ai.service.ts:237-245 | For code of equal length, different code or feedback gives a different prompt. |
| AiService.ImproveCode | backend/src/AI/ai.service.ts:235-254 | It succeeds exactly when generation with default options does, with the same result. Every error becomes "Failed to improve code" with status 500. |
| Dtos.TrimmedString | backend/src/AI/dto/improve-code.dto.ts:6-12 | A required string field is accepted iff it is present and a string, and its value is trimmed. A missing field is rejected, and a non-string one makes the trim transform throw. |
| Dtos.OptionalNumber | backend/src/AI/dto/generate-code.dto.ts:6-22 | An optional number is accepted iff it is absent, null, or a number within its bounds. Absent gives the default and null gives none. |
| Dtos.OptionalString | backend/src/AI/dto/generate-code.dto.ts:40-42 | An optional string is accepted iff it is absent, null, or a string. |
| Dtos.ValidateContext | backend/src/AI/dto/generate-code.dto.ts:5-28 | The context is accepted iff width, height and duration are within [100,1920], [100,1080] and [1,60], and the style is one of the five listed. The accepted value is in range, and a rejection names only context fields. |
| Dtos.ContextJson | backend/src/AI/dto/generate-code.dto.ts:5-28 | Any in-range context is accepted back from its JSON form unchanged, and only in-range contexts are. |
| Dtos.ContextDefaults | backend/src/AI/dto/generate-code.dto.ts:10-27 | An empty context takes the defaults 400, 300, 5 and "modern". |
| Dtos.NestedContext | backend/src/AI/dto/generate-code.dto.ts:35-38 | The nested instance holds every property of the given object as sent, and the class's initial value for each declared property the object lacks. |
| Dtos.NestedContextValidatesAlike | backend/src/AI/dto/generate-code.dto.ts:5-28 | Filling in the initial values does not change what the context rules accept, reject or produce. |
| Dtos.NestedContextIdempotent | backend/src/AI/dto/generate-code.dto.ts:5-28 | Filling in the initial values twice is filling them in once. |
| Dtos.ValidateGenerate | backend/src/AI/dto/generate-code.dto.ts:30-55 | The prompt must be a string and is trimmed; a non-string makes the transform throw. The context must be an object, the model a string, the temperature in [0,2] and the token limit in [100,4000]. A context object is kept as sent, over the context class's initial values, with none of its properties converted or checked. |
| Dtos.BlankPromptAccepted | backend/src/AI/dto/generate-code.dto.ts:31-33 | A white-space-only prompt passes validation as the empty prompt; no rule requires it to be non-empty. |
| Dtos.GenerateRoundTrip | backend/src/AI/dto/generate-code.dto.ts:30-55 | A DTO is accepted back from its JSON form iff its temperature and token limit are in range. A DTO of the shape a valid body yields comes back unchanged. |
| Dtos.GenerateValidInRange | backend/src/AI/dto/generate-code.dto.ts:30-55 | Every valid body yields a DTO with a trimmed prompt, in-range numbers, and a context holding every declared property. |
| Dtos.WrongTypedContextPasses | backend/src/AI/dto/generate-code.dto.ts:35-38 | A context `width` of "abc" fails the context rules on its own, but inside a generate body it is accepted and reaches the DTO unchanged. |
| Dtos.ValidateChatMessage | backend/src/AI/dto/chat.dto.ts:5-12 | A history entry is accepted iff its role is "user" or "assistant" and its content is a string. |
| Dtos.ValidateChat | backend/src/AI/dto/chat.dto.ts:14-23 | The message must be a string and is trimmed. The history is optional and must otherwise be an array, whose entries are passed through. |
| Dtos.SystemEntryPassesInsideChat | backend/src/AI/dto/chat.dto.ts:19-22 | A "system" entry fails on its own but passes inside a chat body, because nested entries are not validated. |
| Dtos.ValidateImprove | backend/src/AI/dto/improve-code.dto.ts:5-13 | Both fields are required strings and are trimmed. A rejection names exactly the missing fields. |
| Dtos.ImproveRoundTrip | backend/src/AI/dto/improve-code.dto.ts:5-13 | An accepted DTO sent back as JSON is accepted unchanged. |
| TimelineIds.Toggle | Frontend/src/Pages/DashBoard/components1/video/VideoEditor.tsx:13-19 | A selected id is removed, keeping every other id's count. An unselected id is appended. |
| TimelineIds.ToggleTwiceAbsent | Frontend/src/Pages/DashBoard/components1/video/VideoEditor.tsx:13-19 | Toggling an unselected id twice restores the selection. |
| TimelineIds.ToggleTwicePresent | Frontend/src/Pages/DashBoard/components1/video/VideoEditor.tsx:13-19 | Toggling a selected id twice moves it to the end, once. |
| TimelineIds.Add | Frontend/src/Pages/DashBoard/components1/video/VideoEditor.tsx:21-25 | Existing entries are kept in order. A missing id is appended last, and a present one changes nothing. |
| TimelineIds.AddIdempotent | Frontend/src/Pages/DashBoard/components1/video/VideoEditor.tsx:21-25 | Adding an id twice is adding it once. |
| TimelineIds.AddKeepsNoDuplicates | Frontend/src/Pages/DashBoard/components1/video/VideoEditor.tsx:22-23 | Adding never creates a duplicate. |
| TimelineIds.Without | Frontend/src/Pages/DashBoard/components1/video/VideoEditor.tsx:62-64 | Filtering an id out removes every occurrence of it and keeps every other id's count. |
| TimelineIds.WithoutAppend | Frontend/src/Pages/DashBoard/components1/video/VideoEditor.tsx:63 | The filter works piecewise, so the other ids keep their relative order. |
| TimelineIds.RemoveUndoesAdd | Frontend/src/Pages/DashBoard/components1/video/VideoEditor.tsx:21-64 | Removing a freshly added id restores the timeline. |
| TimelineIds.EditsKeepNoDuplicates | Frontend/src/Pages/DashBoard/components1/video/VideoEditor.tsx:21-64 | Any run of adds and removes keeps a timeline free of duplicates. |
| TimelineIds.Resolve | Frontend/src/Pages/DashBoard/components1/video/Timeline.tsx:23-30 | Every resolved clip is one whose id is listed and which the store returns. |
| TimelineIds.ResolveOne | Frontend/src/Pages/DashBoard/components1/video/Timeline.tsx:23-29 | One id gives its metadata when `getClip` finds it, and nothing when it returns null. |
| TimelineIds.ResolveAppend | Frontend/src/Pages/DashBoard/components1/video/Timeline.tsx:23-30 | Resolving splits over concatenation. With ResolveOne, the result is the found ids' metadata, in id order, for every id list. |
| TimelineIds.ResolveAll | Frontend/src/Pages/DashBoard/components1/video/Timeline.tsx:23-30 | When every id resolves, the result follows the id list one for one. |
| TimelineIds.ResolveNone | Frontend/src/Pages/DashBoard/components1/video/Timeline.tsx:29 | Ids that do not resolve give nothing. |
| TimelineIds.UnresolvedAddNothing | Frontend/src/Pages/DashBoard/components1/video/Timeline.tsx:29 | Appending ids that do not resolve leaves the result unchanged. |
| TimelineIds.LoadClipData | Frontend/src/Pages/DashBoard/components1/video/Timeline.tsx:14-40 | An empty id list gives no clip data. So does a `getClip` call that rejects, which sends `Promise.all` to the catch block. Otherwise the ids are resolved. |
| TimelineIds.SumDurationAppend | Frontend/src/Pages/DashBoard/components1/video/Timeline.tsx:126 | The duration sum splits over concatenation. |
| TimelineIds.TotalSeconds | Frontend/src/Pages/DashBoard/components1/video/Timeline.tsx:126 | The shown total is the sum of the resolved durations, rounded to the nearest second. |
| TrackPacking.OverlapsSymmetric | Frontend/src/components1/video/Timeline.tsx:91-93 | The half-open overlap test is symmetric. |
| TrackPacking.FirstFit | Frontend/src/components1/video/Timeline.tsx:89-99 | Finds the lowest-index track with no overlapping clip. It finds none iff no track fits. |
| TrackPacking.Place | Frontend/src/components1/video/Timeline.tsx:87-102 | A clip goes at the end of the first fitting track. Only when none fits is a new track opened. |
| TrackPacking.PackFromPacked | Frontend/src/components1/video/Timeline.tsx:86-103 | Packing the remaining clips keeps the packing invariant. Each clip sits in exactly one track, in input order, with no overlapping pair in a track. |
| TrackPacking.PackIsPacking | Frontend/src/components1/video/Timeline.tsx:86-103 | The packing places every clip exactly once, so the track sizes sum to the clip count. No two clips in one track overlap, and each track keeps input order. |
| TrackPacking.TouchingClipsShareTrack | Frontend/src/components1/video/Timeline.tsx:91-93 | A clip that starts where the previous one ends shares its track. |
| TrackPacking.OverlappingClipsSplit | Frontend/src/components1/video/Timeline.tsx:91-101 | Two overlapping clips go to two tracks. |
| TrackPacking.TrackClips | Frontend/src/components1/video/Timeline.tsx:148-149 | A track's clips are the listed clips at the track's positions, in order. |
| TrackPacking.MarkInterval | Frontend/src/components1/video/Timeline.tsx:38 | The interval is 1 iff zoom > 2 and 10 iff zoom ≤ 1, and 5 otherwise. It divides 60. |
| TrackPacking.Marks | Frontend/src/components1/video/Timeline.tsx:36-53 | The marks are the multiples of the interval from 0 to 60 inclusive. |
| TrackPacking.MarksStopAtEnd | Frontend/src/components1/video/Timeline.tsx:40 | One more mark would pass the 60-second end. |
| TrackPacking.MarkLabel | Frontend/src/components1/video/Timeline.tsx:48 | The mark at 0 has no label. Every later mark is labelled with the same `m:ss` text the controls show for that time. |
| TrackPacking.ClickTime | Frontend/src/components1/video/Timeline.tsx:27-34 | The time is never negative. Right of the labels it is the offset divided by 50 × zoom; otherwise it is 0. |
| TrackPacking.ClickAtDrawnTime | Frontend/src/components1/video/Timeline.tsx:24-32 | Clicking where a time is drawn gives that time back. |
| VideoEditor.LatestEnd | Frontend/src/components1/video/VideoEditor.tsx:28 | The reduce result is at least the start value and every end time. It is the start value or some clip's end time. |
| VideoEditor.TotalDuration | Frontend/src/components1/video/VideoEditor.tsx:28 | The total is at least 30 and every end time, and is 30 or some clip's end time. |
| VideoEditor.ClampTime | Frontend/src/components1/video/VideoEditor.tsx:34-36 | The clamped time lies in [0, total]. It equals the request iff the request lies there, and otherwise it is the nearer end. |
| VideoEditor.TimeUpdate | Frontend/src/components1/video/VideoEditor.tsx:34-36 | The current time is clamped into [0, total duration], and nothing else in the editor changes. |
| VideoEditor.TimeUpdateIdempotent | Frontend/src/components1/video/VideoEditor.tsx:34-36 | Repeating an update changes nothing, and an in-range current time is already fixed. |
| VideoEditor.PlayPause | Frontend/src/components1/video/VideoEditor.tsx:30-32 | Only the playing flag changes, and it flips. |
| VideoEditor.PlayPauseTwice | Frontend/src/components1/video/VideoEditor.tsx:30-32 | Two presses restore the editor. |
| VideoEditor.ClipSelect | Frontend/src/components1/video/VideoEditor.tsx:38-41 | The clip is stored as selected and the same clip is forwarded; nothing else changes. |
| VideoEditor.ZoomOut | Frontend/src/Pages/DashBoard/components1/video/VideoControls.tsx:69 | Zoom out steps down by 0.25 but never below 0.25. |
| VideoEditor.ZoomIn | Frontend/src/Pages/DashBoard/components1/video/VideoControls.tsx:78 | Zoom in steps up by 0.25 but never above 4. |
| VideoEditor.ZoomsStayInRange | Frontend/src/Pages/DashBoard/components1/video/VideoControls.tsx:69-78 | From inside [0.25, 4], any run of clicks stays inside. |
| VideoEditor.ZoomOutUndoesZoomIn | Frontend/src/Pages/DashBoard/components1/video/VideoControls.tsx:69-78 | Below the top step, zooming in and then out returns to the same zoom. |
| VideoEditor.ZoomPercent | Frontend/src/Pages/DashBoard/components1/video/VideoControls.tsx:75 | The percentage is zoom × 100 rounded to the nearest integer, which is 25 to 400 in range. |
| VideoEditor.ActiveClips | Frontend/src/Pages/DashBoard/components1/video/VideoPreview.tsx:53-55 | A clip is active iff the time lies between its start and end, both inclusive. |
| VideoEditor.ActiveClipsInOrder | Frontend/src/Pages/DashBoard/components1/video/VideoPreview.tsx:53-55 | The active clips are a subsequence of the clip list, in the same order. |
| VideoEditor.LocalTime | Frontend/src/Pages/DashBoard/components1/video/VideoPreview.tsx:60 | The local time is measured from the clip's start, and for an active clip it lies within the clip. |
| VideoEditor.Draw | Frontend/src/Pages/DashBoard/components1/video/VideoPreview.tsx:58-64 | Audio clips draw nothing. Animation clips draw a box with their list position, name and local time, and text clips draw their content. |
| VideoEditor.DrawAll | Frontend/src/Pages/DashBoard/components1/video/VideoPreview.tsx:58-64 | Each drawing is that of the active clip at its position. |
| VideoEditor.DrawAllOrdered | Frontend/src/Pages/DashBoard/components1/video/VideoPreview.tsx:58-64 | Drawings come in list order. |
| VideoEditor.DrawAllComplete | Frontend/src/Pages/DashBoard/components1/video/VideoPreview.tsx:58-64 | Every active clip that is not audio is drawn. |
| VideoEditor.Render | Frontend/src/Pages/DashBoard/components1/video/VideoPreview.tsx:53-75 | The placeholder with the time shows iff no clip is active. Otherwise the active clips are drawn. |
| VideoEditor.AudioOnlyIsBlank | Frontend/src/Pages/DashBoard/components1/video/VideoPreview.tsx:58-64 | When only audio clips are active, nothing is drawn. |
| AppState.WithEnd | Frontend/src/Pages/DashBoard/hooks/useApp.ts:58 | The stored clip's end time is its start plus its duration; every other field is the update's. |
| AppState.SelectClip | Frontend/src/Pages/DashBoard/hooks/useApp.ts:52-54 | The clip becomes the selection and the list is untouched. |
| AppState.UpdateClip | Frontend/src/Pages/DashBoard/hooks/useApp.ts:56-63 | Every clip with the update's id is replaced by the update with its end time recomputed, and every other clip is kept in place. The selection is replaced the same way iff its id matches. |
| AppState.UpdateUnknownClip | Frontend/src/Pages/DashBoard/hooks/useApp.ts:57-62 | An update for an unknown id changes nothing; it never inserts. |
| AppState.UpdateKeepsEndRule | Frontend/src/Pages/DashBoard/hooks/useApp.ts:57-59 | Updating keeps every clip's end time equal to its start plus its duration. |
| AppState.UpdateClipIdempotent | Frontend/src/Pages/DashBoard/hooks/useApp.ts:56-63 | Applying an update twice is applying it once. |
| AppState.MockClipBreaksEndRule | Frontend/src/Pages/DashBoard/hooks/useApp.ts:7-35 | Mock clip "1" is 10 seconds long but ends at 5 until it is updated. The other two mock clips keep the rule. |
| AppState.HandleFileUpdate | Frontend/src/Pages/DashBoard/hooks/useApp.ts:48-50 | Only the edited file's content reaches the file list. Names and languages stay. |
| AppState.FileUpdateIgnoresNameAndLanguage | Frontend/src/Pages/DashBoard/hooks/useApp.ts:48-50 | Two edits that differ only in name or language have the same effect. |
| FilesState.Initial | Frontend/src/Pages/DashBoard/hooks/useFiles.ts:70-71 | The files start as the defaults, with the first one active. |
| FilesState.WithContent | Frontend/src/Pages/DashBoard/hooks/useFiles.ts:76 | Only the content changes. |
| FilesState.UpdateFile | Frontend/src/Pages/DashBoard/hooks/useFiles.ts:73-85 | Files with the id get the new content and keep every other field. Other files are unchanged, and the active file is updated iff its id matches. |
| FilesState.UpdateFileOverwrites | Frontend/src/hooks/useFiles.ts:72-84 | A second update of the same file overrides the first. |
| FilesState.UpdateMissingId | Frontend/src/hooks/useFiles.ts:72-84 | An update for an unknown id changes nothing. |
| FilesState.AddFile | Frontend/src/Pages/DashBoard/hooks/useFiles.ts:87-94 | One file is appended, with the clock reading as its id. Existing files and the active file are untouched. |
| FilesState.AddSameMillisecond | Frontend/src/hooks/useFiles.ts:86-93 | Two files added in the same millisecond share an id. |
| FilesState.Remaining | Frontend/src/Pages/DashBoard/hooks/useFiles.ts:97 | The remaining files are exactly those without the id. |
| FilesState.DeleteFile | Frontend/src/Pages/DashBoard/hooks/useFiles.ts:96-102 | Every file with the id goes. Deleting the active file when there were several makes the first remaining file active, and otherwise the active file is kept. The active file is left undefined iff nothing remains. |
| FilesState.DeleteKeepsActiveDefined | Frontend/src/hooks/useFiles.ts:95-101 | With distinct ids and several files, a delete always leaves an active file, which no longer carries the deleted id. |
| FilesState.DeleteDuplicatesLosesActive | Frontend/src/hooks/useFiles.ts:97-100 | When two files share the active id, deleting it leaves no active file. |
| FilesState.DeleteOnlyFileKeepsActive | Frontend/src/hooks/useFiles.ts:97 | Deleting the only file empties the list but keeps the deleted file active. |
| Chat.Initial | Frontend/src/Pages/DashBoard/hooks/UseChat.ts:7-13 | The chat starts with the single system greeting, not loading. |
| Chat.AnyIncluded | Frontend/src/Pages/DashBoard/hooks/UseChat.ts:83 | True iff some keyword occurs in the text. |
| Chat.RelatedIgnoresCase | Frontend/src/Pages/DashBoard/hooks/UseChat.ts:82-83 | The keyword test ignores case. |
| Chat.RelatedInContext | Frontend/src/Pages/DashBoard/hooks/UseChat.ts:74-84 | Text around a related message keeps it related. |
| Chat.SubstringMatch | Frontend/src/Pages/DashBoard/hooks/UseChat.ts:74-84 | The test matches inside words: "Start" is related through "art". |
| Chat.AddMessage | Frontend/src/Pages/DashBoard/hooks/UseChat.ts:18-26 | The message goes last, with the clock reading as its id. |
| Chat.Begin | Frontend/src/Pages/DashBoard/hooks/UseChat.ts:30-32 | The user's message is appended first and loading is raised. |
| Chat.Finish | Frontend/src/Pages/DashBoard/hooks/UseChat.ts:34-70 | Loading is lowered on every path. |
| Chat.SendMessage | Frontend/src/Pages/DashBoard/hooks/UseChat.ts:28-71 | The user's message comes before any reply, earlier messages are kept, and loading ends false. |
| Chat.ReplyCount | Frontend/src/Pages/DashBoard/hooks/UseChat.ts:35-68 | Every path appends one reply, except a successful command, which appends two. |
| Chat.CommandSuccess | Frontend/src/Pages/DashBoard/hooks/UseChat.ts:39-48 | A successful command stores the code and explanation, then adds the system notice and the assistant's explanation, in that order. |
| Chat.ChatSuccess | Frontend/src/Pages/DashBoard/hooks/UseChat.ts:54-57 | A successful chat call on a related message adds one assistant message: the answer, or "I couldn't process that request." when it is absent or empty. The code store is unchanged. |
| Chat.FailureApologises | Frontend/src/Pages/DashBoard/hooks/UseChat.ts:49-68 | A failed or throwing call adds exactly one apology from the assistant and leaves the code store alone. |
| Chat.OffTopicRefused | Frontend/src/Pages/DashBoard/hooks/UseChat.ts:61-63 | An unrelated plain message gets the fixed refusal whatever the chat call would answer, because the call is never made. |
| Chat.SameMillisecondSameId | Frontend/src/Pages/DashBoard/hooks/UseChat.ts:19-23 | The user's message and a reply in the same millisecond share an id. |
| MessageInput.SendDashboard | Frontend/src/Pages/DashBoard/components1/chat/MessageInput.tsx:15-23 | Blank input sends nothing and stays. Otherwise the untrimmed text is sent with its command flag, and the box is cleared. |
| MessageInput.SendPlain | Frontend/src/components/chat/MessageInput.tsx:15-19 | A send happens iff the input is not blank and the box is not disabled, and it clears the box. |
| MessageInput.KeyDown | Frontend/src/Pages/DashBoard/components1/chat/MessageInput.tsx:25-30 | Enter without Shift sends, and every other key leaves the box alone. |
| MessageInput.ButtonAgreesWithHandlers | Frontend/src/Pages/DashBoard/components1/chat/MessageInput.tsx:51 | Whenever the button is enabled, a click sends. In the older box the button is enabled exactly when a click sends. |
| MessageInput.CommandIgnoresPadding | Frontend/src/Pages/DashBoard/components1/chat/MessageInput.tsx:16-18 | Surrounding white space changes neither the send nor the command flag. |
| MessageInput.CommandIsPrefixTest | Frontend/src/Pages/DashBoard/components1/chat/MessageInput.tsx:18 | The command test is a prefix test, so "/animated" counts. |
| MessageInput.SendThenBlank | Frontend/src/Pages/DashBoard/components1/chat/MessageInput.tsx:20-21 | After a send the box is blank, so a second send does nothing. |
| Panels.Clamp | Frontend/src/Pages/DashBoard/components1/editor/FileExplorer.tsx:51 | `max(lo, min(hi, v))` is at least lo, and at most hi when lo ≤ hi. It keeps values in range and moves others to the nearer bound. |
| Panels.ClampIdempotent | Frontend/src/components1/video/CollapsibleSidebar.tsx:53 | Clamping twice is clamping once. |
| Panels.NewPanel | Frontend/src/Pages/DashBoard/components1/editor/FileExplorer.tsx:21-24 | A panel starts at its default width, not dragging, with the given collapse state. |
| Panels.Step | Frontend/src/components1/video/CollapsibleSidebar.tsx:30-61 | Mouse down records the start. A move while dragging sets the clamped dragged width and changes nothing else, and a move otherwise does nothing. Mouse up ends the drag. |
| Panels.DraggedWidth | Frontend/src/components1/video/CollapsibleSidebar.tsx:46-50 | On the left the width grows with the pointer, and on the right it shrinks. |
| Panels.SidesMirror | Frontend/src/components1/video/CollapsibleSidebar.tsx:46-50 | The right side's drag is the left side's drag mirrored. |
| Panels.StepsKeepWidth | Frontend/src/Pages/DashBoard/components1/editor/FileExplorer.tsx:34-59 | Any run of pointer events keeps the width within its bounds. |
| Panels.DragBackRestores | Frontend/src/Pages/DashBoard/components1/editor/FileExplorer.tsx:44-53 | Pressing and moving back to the same x leaves the width unchanged. |
| Panels.ToggleTwice | Frontend/src/Pages/DashBoard/components1/editor/FileExplorer.tsx:73-75 | Toggling collapse twice restores the panel. |
| Panels.LeftPercent | Frontend/src/components/layout/ResizableLayout.tsx:27-36 | The left pane's percent is the pointer's clamped share of the container. A zero-width container gives infinity (clamped to a bound) or NaN. |
| Panels.NewLayout | Frontend/src/components/layout/ResizableLayout.tsx:14-18 | The layout starts at the initial left width, not dragging. |
| Panels.LayoutMove | Frontend/src/components/layout/ResizableLayout.tsx:27-36 | A move while dragging sets the clamped percent, and a move otherwise does nothing. |
| Panels.RightPercent | Frontend/src/components/layout/ResizableLayout.tsx:84 | The right width is finite iff the left one is, and the two sum to 100. |
| Panels.LayoutMoveInBounds | Frontend/src/components/layout/ResizableLayout.tsx:32-35 | After a drag the left width lies within its bounds, and the right width within the matching complement. |
| Panels.InitialNotClamped | Frontend/src/components/layout/ResizableLayout.tsx:18 | The initial width is not clamped: 90 stays 90 with bounds 20 and 80. |
| Panels.FilterFiles | Frontend/src/Pages/DashBoard/components1/editor/FileExplorer.tsx:93-95 | A file is kept iff its lower-cased name contains the lower-cased term, and the list never grows. |
| Panels.FilterInOrder | Frontend/src/Pages/DashBoard/components1/editor/FileExplorer.tsx:93-95 | The filtered list is a subsequence of the files, in order. |
| Panels.EmptyTermKeepsAll | Frontend/src/Pages/DashBoard/components1/editor/FileExplorer.tsx:93-95 | An empty search keeps every file. |
| Panels.Extension | Frontend/src/Pages/DashBoard/components1/editor/FileExplorer.tsx:78 | The extension is the dot-free tail after the last dot, or the whole name if it has no dot. |
| Panels.ExtensionAfterDot | Frontend/src/Pages/DashBoard/components1/editor/FileExplorer.tsx:78 | `stem.ext` has extension `ext`. |
| Panels.FileIcon | Frontend/src/Pages/DashBoard/components1/editor/FileExplorer.tsx:77-91 | The TypeScript icon is shown iff the extension is ts or tsx in any case, and the document icon otherwise. |
| Panels.IconByExtension | Frontend/src/Pages/DashBoard/components1/editor/FileExplorer.tsx:77-91 | The icon depends only on the extension. |
| Panels.DotlessName | Frontend/src/Pages/DashBoard/components1/editor/FileExplorer.tsx:78 | A name without a dot is its own extension, so a file named "TS" gets the TypeScript icon. |
| CodeDisplay.Language | Frontend/src/Pages/DashBoard/components1/editor/CodeDisplay.tsx:30-49 | typescript/tsx map to typescript and javascript/jsx to javascript; css, html and json map to themselves. txt maps to plaintext in the dashboard copy only, and anything else maps to typescript. |
| CodeDisplay.LanguageIgnoresCase | Frontend/src/components/editor/CodeDisplay.tsx:11-28 | The mapping ignores case. |
| CodeDisplay.CopiesDifferOnlyOnText | Frontend/src/Pages/DashBoard/components1/editor/CodeDisplay.tsx:44-45 | The two copies differ exactly on txt, and the older one never answers plaintext. |
| CodeDisplay.UpperCaseText | Frontend/src/Pages/DashBoard/components1/editor/CodeDisplay.tsx:44-45 | "TXT" is plain text in the dashboard copy. |

## Left out

- IndexedDB plumbing (opening the database, the request callbacks) is not modelled. Each operation is a function on two maps, and whether a request fails is an argument.
- Clip id generation from the clock and a random number is a parameter of `saveClip`.
- `generateThumbnail` and `formatFileSize` are left out. The first drives a DOM video and canvas. The second uses floating-point logarithms and `toFixed`.
- The MediaRecorder fallback constructor and the `captureStream` and `getImageData` diagnostics in `useVideoRecording` are left out. Capture is modelled only as "a stream with this many video tracks, or a failure".
- The clock in the recorder is modelled as integer milliseconds carried by each tick.
- The network is out of scope. Each completion-API call is a parameter: what it answered, or how it failed.
- `createSystemPrompt` only builds prompt text from the context, so the system prompt is a parameter of `AiService.GenerateRequest`.
- `getAvailableModels` is left out; it only lists models over the network.
- The controller takes `body: any`, so the DTO rules are not enforced on its routes. The validators are modelled standalone.
- Nested DTO entries are not validated by the parent DTO, because there is no nested-validation rule. The model follows that.
- Async interleaving and React state batching are not modelled. Every handler is a sequential state transition.
- Handlers that read a stale `files` closure are not modelled. `deleteFile` filters the current list, and the model uses one list.
- The canvas drawing in the preview (colours, the sine offset, fonts) is left out. A frame is the list of what is drawn and where in the order.
- `useFiles`' default file contents are a parameter.
- Playback ticking through `requestAnimationFrame` is left out, as is `exportVideo`, which only logs and shows an alert.
- The Dashboard MediaLibrary reads fields that `getAllClips` does not return. That mismatch is outside this model.
- JavaScript numbers are IEEE doubles; the model computes with exact `real`s. Results can differ from the browser's at rounding boundaries. This affects the `reduce` sum behind `TimelineIds.SumDuration` and `TimelineIds.TotalSeconds`, the divisions in `TrackPacking.ClickTime`, `Panels.LeftPercent` and `Recording.Progress`, and the floor and round in `Clock.FormatMinSec`.
- A `Partial<StoredClip>` key that is present but holds `undefined` is not modelled. `ClipStore.ClipPatch` marks each required field only as absent or present with a value, and the spread in `updateClipMetadata` would copy such an `undefined` over the stored field.
- JavaScript strings: only ASCII case folding is modelled. White space is the JavaScript set minus the Unicode space-separator category. `ClipStore.StrLess` compares Unicode scalar values, whereas IndexedDB and JavaScript compare UTF-16 code units; the two orders differ only between characters above U+FFFF and those in U+E000 to U+FFFF, which generated clip ids never contain.
- The global validation pipe's `whitelist` and `forbidNonWhitelisted` options are not modelled: the standalone validators ignore undeclared top-level properties.
- `parseInt` is modelled with an optional sign, a `0x` or `0X` prefix that selects radix 16, and exact integers with no precision limit.
- Clock.FormatMinSec: the contract states the text only for non-negative times. The body follows JavaScript's flooring and remainder for negative times too, but nothing is proved about them.
- Recording.Concat: states only the total length of the concatenation. The byte order is fixed by its definition.
- Recording.Progress: for a zero duration, the contract says only when the result is NaN (no time elapsed).
- CodeExtraction.StripHeres: its own contract bounds only the length. The stripping of "Here's" followed by a space, in either letter case, is stated by CodeExtraction.StripHeresOf.
- CodeExtraction.StripThisIs: its own contract bounds only the length. The stripping of "This is" followed by a space, in either letter case, is stated by CodeExtraction.StripThisIsOf.
- CodeExtraction.Comments: states that each comment text is non-empty and on one line, not where in the reply each one sits.
- TrackPacking.ClickTime: requires a positive zoom. The controls keep the zoom at 0.25 or more, and the division has no meaning at 0.
- Panels.LeftPercent: requires a non-negative container width, which the browser guarantees.
- FilesState.Initial: requires a non-empty default list. Both copies always pass a fixed, non-empty list.
- VideoEditor.ClampTime: requires a non-negative total. The total duration is always at least 30.

## Findings

| source | as written | input that shows it | evidently intended | confidence | as-written member | corrected member |
|---|---|---|---|---|---|---|
| backend/src/AI/ai.service.ts:218-222 | The test `match && match[1]` accepts any non-empty text before the first marker, including text that is only white space. The trimmed result is then the empty string. | the reply "\n\`\`\`x\`\`\`" (a newline, then a fenced block) | A blank intro should fall through to the comment texts or the default sentence, so the explanation is never empty. | not executed | CodeExtraction.ExtractExplanationAsWritten (shown by CodeExtraction.AsWrittenBlankIntro; AiService.GenerateBlankExplanation shows the empty text reaching the service's answer) | CodeExtraction.ExtractExplanation (proved by CodeExtraction.ExplanationNonEmpty) |

=== FILE: ai_service.dfy ===
/** The AI service of the backend: the requests it sends to the completion API and
    how it turns the answer, or the failure, into a result or an HTTP error. The
    HTTP round trip itself is a parameter: what the completion API answered, or how
    the call failed. */
module AiService {
  import opened Wrappers
  import opened Text
  import opened CodeExtraction

  datatype Role = SystemRole | UserRole | AssistantRole

  /** `AIMessage`. */
  datatype Message = Message(role: Role, content: string)

  /** The body posted to `/chat/completions`. */
  datatype Request = Request(model: string, messages: seq<Message>, temperature: real)

  /** The token counts the API reports; passed through untouched. */
  datatype Usage = Usage(promptTokens: int, completionTokens: int, totalTokens: int)

  /** The part of the API's answer the service reads: the content of each choice, in
      order, and the usage report. */
  datatype Completion = Completion(choices: seq<string>, usage: Option<Usage>)

  /** How a call can fail before an answer is read:
      - `HttpFailure`: an axios error, with the HTTP status of the response (absent
        when no response arrived), the `error.message` field of the response body,
        and the error's own message;
      - `ErrorThrown`: any other `Error` with its message;
      - `ValueThrown`: a thrown value that is not an `Error`. */
  datatype Failure =
    | HttpFailure(status: Option<int>, upstreamMessage: Option<string>, message: string)
    | ErrorThrown(message: string)
    | ValueThrown

  /** What the completion API call produced. */
  datatype Call = Answered(completion: Completion) | Failed(failure: Failure)

  /** An `HttpException`: message and status code. */
  datatype HttpError = HttpError(message: string, status: int)

  /** The `data` of a successful `AIResponse`. */
  datatype Generated = Generated(code: string, explanation: string, model: string, usage: Option<Usage>)

  /** `GenerateCodeOptions` (the context only shapes the system prompt). */
  datatype Options = Options(model: Option<string>, temperature: Option<real>)

  const BadRequest := 400
  const Unauthorized := 401
  const TooManyRequests := 429
  const InternalServerError := 500
  const BadGateway := 502

  const DefaultModel: string := "deepseek/deepseek-chat-v3-0324:free"
  const DefaultTemperature: real := 0.7
  const ChatTemperature: real := 0.8

  const InvalidKeyMessage: string := "Invalid API key. Please check your OpenRouter configuration."
  const RateLimitMessage: string := "Rate limit exceeded. Please try again later."
  const NoResponseMessage: string := "No response generated from AI"
  const UnknownErrorMessage: string := "Unknown error occurred"
  const ChatFailedMessage: string := "Chat failed"
  const ImproveFailedMessage: string := "Failed to improve code"
  const ChatSystemPrompt: string := "You are a helpful AI assistant specialized in p5.js creative coding and web development. Help users with their coding questions, provide explanations, and offer creative suggestions."
  const ChatExplanation: string := "Chat response"

  /** `errorData?.error?.message || 'Bad request'`: an absent or empty message falls
      back to the fixed text. */
  function UpstreamText(m: Option<string>): (r: string)
    ensures r != []
    ensures m.Some? && m.value != [] ==> r == m.value
  {
    if m.Some? && m.value != [] then m.value else "Bad request"
  }

  /** The catch block of `generateP5Code`: 401, 429 and 400 responses get their own
      status and message; every other failure becomes a 500 carrying the error's
      message. */
  function MapFailure(f: Failure): (e: HttpError)
    ensures e.status == Unauthorized <==> f.HttpFailure? && f.status == Some(401)
    ensures e.status == TooManyRequests <==> f.HttpFailure? && f.status == Some(429)
    ensures e.status == BadRequest <==> f.HttpFailure? && f.status == Some(400)
    ensures e.status == InternalServerError <==>
              !(f.HttpFailure? && f.status.Some? && f.status.value in {400, 401, 429})
    ensures e.status == Unauthorized ==> e.message == InvalidKeyMessage
    ensures e.status == TooManyRequests ==> e.message == RateLimitMessage
    ensures e.status == BadRequest ==> e.message == "Invalid request: " + UpstreamText(f.upstreamMessage)
    ensures e.status == InternalServerError ==>
              e.message == (if f.ValueThrown? then UnknownErrorMessage else f.message)
  {
    match f
    case HttpFailure(status, upstream, message) =>
      if status == Some(401) then HttpError(InvalidKeyMessage, Unauthorized)
      else if status == Some(429) then HttpError(RateLimitMessage, TooManyRequests)
      else if status == Some(400) then HttpError("Invalid request: " + UpstreamText(upstream), BadRequest)
      else HttpError(message, InternalServerError)
    case ErrorThrown(message) => HttpError(message, InternalServerError)
    case ValueThrown => HttpError(UnknownErrorMessage, InternalServerError)
  }

  /** The request `generateP5Code` sends: the system prompt (built from the context,
      see README) and the user's prompt, with the model and temperature defaulted. */
  function GenerateRequest(systemPrompt: string, prompt: string, options: Options): (r: Request)
    ensures r.messages == [Message(SystemRole, systemPrompt), Message(UserRole, prompt)]
    ensures r.model == options.model.GetOr(DefaultModel)
    ensures r.temperature == options.temperature.GetOr(DefaultTemperature)
  {
    Request(options.model.GetOr(DefaultModel),
            [Message(SystemRole, systemPrompt), Message(UserRole, prompt)],
            options.temperature.GetOr(DefaultTemperature))
  }

  /** `generateP5Code` after the call: an answer without choices raises the
      "No response" exception inside the `try`, so it leaves through the same catch
      block as every other failure; otherwise the first choice is read for its code
      and, with `extractExplanation` as written, its explanation. */
  function GenerateP5Code(options: Options, call: Call): (r: Result<Generated, HttpError>)
    ensures call.Failed? ==> r == Err(MapFailure(call.failure))
    ensures call.Answered? && call.completion.choices == [] ==>
              r == Err(HttpError(NoResponseMessage, InternalServerError))
    ensures call.Answered? && call.completion.choices != [] ==>
              r.Ok? && r.value.model == options.model.GetOr(DefaultModel)
              && r.value.usage == call.completion.usage
    ensures r.Ok? ==> r.value.code == ExtractCode(call.completion.choices[0])
                      && r.value.explanation == ExtractExplanationAsWritten(call.completion.choices[0])
    ensures r.Ok? <==> call.Answered? && call.completion.choices != []
  {
    match call
    case Failed(f) => Err(MapFailure(f))
    case Answered(c) =>
      if c.choices == [] then Err(MapFailure(ErrorThrown(NoResponseMessage)))
      else
        var content := c.choices[0];
        Ok(Generated(ExtractCode(content), ExtractExplanationAsWritten(content),
                     options.model.GetOr(DefaultModel), c.usage))
  }

  /** The exception raised for an empty answer is thrown with status 502 but is
      re-raised by the catch block with status 500 and the same message. */
  lemma NoChoicesLoseGatewayStatus(options: Options, usage: Option<Usage>)
    ensures GenerateP5Code(options, Answered(Completion([], usage))).Err?
    ensures GenerateP5Code(options, Answered(Completion([], usage))).error.status != BadGateway
    ensures GenerateP5Code(options, Answered(Completion([], usage))).error.message == NoResponseMessage
  {
  }

  /** An answer whose first choice is one fenced block yields that block's body as
      the code and the intended explanation (nothing precedes the fence); later
      choices are never read. */
  lemma GenerateFromFencedReply(options: Options, tag: string, body: string, others: seq<string>, usage: Option<Usage>)
    requires IsTag(tag) && NoBacktick(body)
    ensures GenerateP5Code(options, Answered(Completion([Fenced(tag, body)] + others, usage)))
              == Ok(Generated(Trim(body), ExtractExplanation(Fenced(tag, body)),
                              options.model.GetOr(DefaultModel), usage))
  {
    ExtractSingleBlock(tag, body);
    FencedHasNoIntro(tag, body);
    ExplanationVersionsAgree(Fenced(tag, body));
  }

  /** When the first choice opens with a newline and then a fenced block, the code
      is found but the explanation sent back is empty. */
  lemma GenerateBlankExplanation(options: Options, tag: string, body: string, others: seq<string>, usage: Option<Usage>)
    requires IsTag(tag) && NoBacktick(body)
    ensures GenerateP5Code(options, Answered(Completion(["\n" + Fenced(tag, body)] + others, usage)))
              == Ok(Generated(Trim(body), [], options.model.GetOr(DefaultModel), usage))
  {
    BlankIntroCode(tag, body);
    ExplanationVersionsAgree("\n" + Fenced(tag, body));
  }

  /** The message list of `chatWithAI`: the fixed system message, the history in
      order, and the user's message last. */
  function ChatMessages(message: string, history: seq<Message>): (ms: seq<Message>)
    ensures |ms| == |history| + 2
    ensures ms[0] == Message(SystemRole, ChatSystemPrompt)
    ensures ms[1..|ms| - 1] == history
    ensures ms[|ms| - 1] == Message(UserRole, message)
  {
    [Message(SystemRole, ChatSystemPrompt)] + history + [Message(UserRole, message)]
  }

  /** The history and the user's message can be read back from the list sent. */
  lemma ChatMessagesSplit(message: string, history: seq<Message>, message': string, history': seq<Message>)
    requires ChatMessages(message, history) == ChatMessages(message', history')
    ensures message == message' && history == history'
  {
    var ms := ChatMessages(message, history);
    assert history == ms[1..|ms| - 1] == history';
  }

  function ChatRequest(message: string, history: seq<Message>): (r: Request)
    ensures r.model == DefaultModel && r.temperature == ChatTemperature
    ensures r.messages == ChatMessages(message, history)
  {
    Request(DefaultModel, ChatMessages(message, history), ChatTemperature)
  }

  /** `chatWithAI` after the call: the first choice is returned verbatim as the
      "code"; any failure, including an answer without choices (reading
      `choices[0]` throws), becomes the one "Chat failed" error. */
  function ChatWithAI(call: Call): (r: Result<Generated, HttpError>)
    ensures r.Ok? <==> call.Answered? && call.completion.choices != []
    ensures r.Ok? ==> r.value == Generated(call.completion.choices[0], ChatExplanation,
                                           DefaultModel, call.completion.usage)
    ensures r.Err? ==> r.error == HttpError(ChatFailedMessage, InternalServerError)
  {
    match call
    case Answered(c) =>
      if c.choices == [] then Err(HttpError(ChatFailedMessage, InternalServerError))
      else Ok(Generated(c.choices[0], ChatExplanation, DefaultModel, c.usage))
    case Failed(_) => Err(HttpError(ChatFailedMessage, InternalServerError))
  }

  const ImproveIntro: string := "Please improve this p5.js code based on the feedback:\n\nCURRENT CODE:\n"
  const ImproveMiddle: string := "\n\nFEEDBACK:\n"
  const ImproveOutro: string := "\n\nPlease provide the improved version with explanations of the changes made."

  /** The prompt `improveCode` sends on to `generateP5Code`. */
  function ImprovePrompt(code: string, feedback: string): (p: string)
    ensures |p| == |ImproveIntro| + |code| + |ImproveMiddle| + |feedback| + |ImproveOutro|
    ensures p[|ImproveIntro|..|ImproveIntro| + |code|] == code
    ensures p[|ImproveIntro| + |code| + |ImproveMiddle|..|p| - |ImproveOutro|] == feedback
  {
    var p := ImproveIntro + code + ImproveMiddle + feedback + ImproveOutro;
    assert p[|ImproveIntro|..|ImproveIntro| + |code|] == code;
    assert p[|ImproveIntro| + |code| + |ImproveMiddle|..|p| - |ImproveOutro|] == feedback;
    p
  }

  /** For code of equal length, different code or different feedback gives a
      different prompt. */
  lemma ImprovePromptInjective(code: string, feedback: string, code': string, feedback': string)
    requires |code| == |code'|
    requires ImprovePrompt(code, feedback) == ImprovePrompt(code', feedback')
    ensures code == code' && feedback == feedback'
  {
  }

  /** `improveCode` after the call: `generateP5Code` with default options, and every
      error it raises replaced by "Failed to improve code". */
  function ImproveCode(call: Call): (r: Result<Generated, HttpError>)
    ensures r.Ok? <==> GenerateP5Code(Options(None, None), call).Ok?
    ensures r.Ok? ==> r == GenerateP5Code(Options(None, None), call) && r.value.model == DefaultModel
    ensures r.Err? ==> r.error == HttpError(ImproveFailedMessage, InternalServerError)
  {
    match GenerateP5Code(Options(None, None), call)
    case Ok(g) => Ok(g)
    case Err(_) => Err(HttpError(ImproveFailedMessage, InternalServerError))
  }
}

=== FILE: app_state.dfy ===
/** The dashboard's clip list and selected clip (`useApp`), and how its file-update
    callback reaches the file hook. */
module AppState {
  import opened Wrappers
  import opened VideoClips
  import FilesState

  /** The three clips the dashboard starts with. */
  const MockClips: seq<VideoClip> := [
    VideoClip("1", "Cat Flying Animation", 10.0, 0.0, 5.0, Animation,
              "function setup() {\n  createCanvas(800, 600);\n}\n\nfunction draw() {\n  background(135, 206, 235);\n  // Cat flying animation\n}",
              None),
    VideoClip("2", "Background Music", 15.0, 0.0, 15.0, Audio, "background-music.mp3", None),
    VideoClip("3", "Title Text", 3.0, 1.0, 4.0, TextClip, "Amazing Cat Adventure!", None)
  ]

  /** The clip state: the list and the selected clip (`null` is `None`). */
  datatype Clips = Clips(clips: seq<VideoClip>, selected: Option<VideoClip>)

  const InitialClips := Clips(MockClips, None)

  /** The stored form of an update: the end time is recomputed from the start time
      and the duration, whatever end time the update carried. */
  function WithEnd(u: VideoClip): (c: VideoClip)
    ensures EndMatches(c)
    ensures c.(endTime := u.endTime) == u
  {
    u.(endTime := u.startTime + u.duration)
  }

  /** `selectClip`. */
  function SelectClip(s: Clips, clip: VideoClip): (r: Clips)
    ensures r.selected == Some(clip) && r.clips == s.clips
  {
    s.(selected := Some(clip))
  }

  /** `updateClip`: every clip with the update's id is replaced by the update with
      its end time recomputed; the selection is replaced the same way exactly when
      its id matches. No clip is ever inserted. */
  function UpdateClip(s: Clips, u: VideoClip): (r: Clips)
    ensures |r.clips| == |s.clips|
    ensures forall i :: 0 <= i < |s.clips| && s.clips[i].id != u.id ==> r.clips[i] == s.clips[i]
    ensures forall i :: 0 <= i < |s.clips| && s.clips[i].id == u.id ==> r.clips[i] == WithEnd(u)
    ensures s.selected.Some? && s.selected.value.id == u.id ==> r.selected == Some(WithEnd(u))
    ensures !(s.selected.Some? && s.selected.value.id == u.id) ==> r.selected == s.selected
  {
    Clips(seq(|s.clips|, i requires 0 <= i < |s.clips| => if s.clips[i].id == u.id then WithEnd(u) else s.clips[i]),
          if s.selected.Some? && s.selected.value.id == u.id then Some(WithEnd(u)) else s.selected)
  }

  /** An update for an id that is neither listed nor selected changes nothing. */
  lemma UpdateUnknownClip(s: Clips, u: VideoClip)
    requires forall i :: 0 <= i < |s.clips| ==> s.clips[i].id != u.id
    requires s.selected.None? || s.selected.value.id != u.id
    ensures UpdateClip(s, u) == s
  {
    assert UpdateClip(s, u).clips == s.clips;
  }

  /** Updating keeps the end-time rule for every clip that already kept it, and
      every updated clip keeps it from then on. */
  lemma UpdateKeepsEndRule(s: Clips, u: VideoClip)
    requires forall i :: 0 <= i < |s.clips| ==> EndMatches(s.clips[i])
    ensures forall i :: 0 <= i < |s.clips| ==> EndMatches(UpdateClip(s, u).clips[i])
  {
  }

  /** Applying the same update twice is applying it once. */
  lemma UpdateClipIdempotent(s: Clips, u: VideoClip)
    ensures UpdateClip(UpdateClip(s, u), u) == UpdateClip(s, u)
  {
    assert UpdateClip(UpdateClip(s, u), u).clips == UpdateClip(s, u).clips;
  }

  /** The first mock clip breaks the end-time rule (10 seconds long, ending at 5)
      until it is updated; an update that resends it unchanged repairs it. */
  lemma MockClipBreaksEndRule()
    ensures !EndMatches(MockClips[0])
    ensures EndMatches(MockClips[1]) && EndMatches(MockClips[2])
    ensures UpdateClip(InitialClips, MockClips[0]).clips[0].endTime == 10.0
  {
  }

  /** `handleFileUpdate`: of the edited file only the id and the content reach
      `updateFile`. */
  function HandleFileUpdate(s: FilesState.Files, updated: FilesState.CodeFile): (r: FilesState.Files)
    ensures |r.files| == |s.files|
    ensures forall i :: 0 <= i < |s.files| ==>
              r.files[i] == if s.files[i].id == updated.id then s.files[i].(content := updated.content) else s.files[i]
    ensures r.active.name == s.active.name && r.active.language == s.active.language
  {
    FilesState.UpdateFile(s, updated.id, updated.content)
  }

  /** Two edited files that differ only in name or language give the same state. */
  lemma FileUpdateIgnoresNameAndLanguage(s: FilesState.Files, f: FilesState.CodeFile, g: FilesState.CodeFile)
    requires f.id == g.id && f.content == g.content
    ensures HandleFileUpdate(s, f) == HandleFileUpdate(s, g)
  {
  }
}

=== FILE: chat.dfy ===
/** The dashboard chat (`useChat`): the message list, the loading flag, the code store
    it fills, and the keyword test that decides whether a plain message is answered.
    The two backend calls are parameters: what each answered, or that it threw. */
module Chat {
  import opened Wrappers
  import opened Text

  datatype Role = User | System | Assistant

  /** `Message`; the id is the clock reading when it was added. */
  datatype Message = Message(id: string, role: Role, content: string)

  /** The `data` of a backend answer, each field absent or present. */
  datatype Data = Data(code: Option<string>, explanation: Option<string>, response: Option<string>)

  /** What a backend call gave back: a JSON body (its `success` flag and `data`, which
      may be missing or `null`), or an exception. */
  datatype Reply = Responded(success: bool, data: Option<Data>) | Threw

  /** The hook's state together with the code store it writes to. */
  datatype State = State(messages: seq<Message>, isLoading: bool, code: string, explanation: string)

  const Greeting: string := "Hi! I'm your AI assistant. I can help you with p5.js animations and coding questions. Type /animate or /generate followed by your idea to create animations!"
  const EditorUpdated: string := "Code editor updated with new animation!"
  const AnimationDone: string := "Animation generated successfully!"
  const AnimationTrouble: string := "I had trouble creating that animation. Please try again with a different prompt."
  const CouldNotProcess: string := "I couldn't process that request."
  const ChatError: string := "Sorry, I encountered an error processing your request."
  const OffTopic: string := "Sorry, I can only help with p5.js animations and coding questions. Please ask something related to animations or creative coding!"
  const ThrewApology: string := "Sorry, there was an error processing your request. Please try again."

  /** The words `isAnimationRelated` looks for ("creative" is listed twice). */
  const Keywords: seq<string> := [
    "animation", "animate", "p5", "p5.js", "javascript", "js", "code", "canvas",
    "draw", "setup", "sketch", "creative", "coding", "function", "programming",
    "loop", "framerate", "color", "shape", "motion", "preload", "particle",
    "interactive", "visual", "2d", "graphics", "art", "creative"]

  /** The greeting the chat opens with, and the empty code store. */
  function Initial(code: string, explanation: string): (s: State)
    ensures |s.messages| == 1 && s.messages[0] == Message("0", System, Greeting)
    ensures !s.isLoading
  {
    State([Message("0", System, Greeting)], false, code, explanation)
  }

  /** `keywords.some(keyword => s.includes(keyword))`. */
  function AnyIncluded(s: string, keywords: seq<string>): (r: bool)
    ensures r <==> exists i :: 0 <= i < |keywords| && Includes(s, keywords[i])
    decreases |keywords|
  {
    if keywords == [] then false
    else
      var rest := AnyIncluded(s, keywords[1..]);
      assert forall i :: 1 <= i < |keywords| ==> keywords[i] == keywords[1..][i - 1];
      assert rest ==> exists i :: 1 <= i < |keywords| && Includes(s, keywords[i]);
      Includes(s, keywords[0]) || rest
  }

  /** `isAnimationRelated`: some keyword occurs anywhere in the lower-cased message,
      inside a word as well as on its own. */
  predicate IsAnimationRelated(message: string) {
    AnyIncluded(ToLower(message), Keywords)
  }

  /** The test ignores case. */
  lemma RelatedIgnoresCase(message: string)
    ensures IsAnimationRelated(ToLower(message)) == IsAnimationRelated(message)
  {
    ToLowerIdempotent(message);
  }

  /** Text around a related message keeps it related. */
  lemma RelatedInContext(a: string, message: string, b: string)
    requires IsAnimationRelated(message)
    ensures IsAnimationRelated(a + message + b)
  {
    var low := ToLower(message);
    var i :| 0 <= i < |Keywords| && Includes(low, Keywords[i]);
    var k :| At(low, Keywords[i], k);
    ToLowerAppend(a, message);
    ToLowerAppend(a + message, b);
    AtShift(ToLower(a), low, Keywords[i], k);
    AtPrefix(ToLower(a) + low, ToLower(b), Keywords[i], |ToLower(a)| + k);
    assert Includes(ToLower(a + message + b), Keywords[i]);
  }

  /** The match is on substrings: "Start" is related because it holds "art". */
  lemma SubstringMatch()
    ensures IsAnimationRelated("Start")
  {
    var low := ToLower("Start");
    assert low == "start";
    assert Keywords[26] == "art";
    assert At(low, "art", 2) by { assert low[2..5] == "art"; }
    assert Includes(low, Keywords[26]);
  }

  /** `addMessage`: the message goes to the end with the clock reading as its id. */
  function AddMessage(s: State, role: Role, content: string, now: nat): (r: State)
    ensures r.messages == s.messages + [Message(NatToString(now), role, content)]
    ensures r.isLoading == s.isLoading && r.code == s.code && r.explanation == s.explanation
  {
    s.(messages := s.messages + [Message(NatToString(now), role, content)])
  }

  /** `x || fallback` on an optional string: absent or empty gives the fallback. */
  function OrElse(x: Option<string>, fallback: string): (r: string)
    ensures x.Some? && x.value != [] ==> r == x.value
    ensures x.None? || x.value == [] ==> r == fallback
  {
    if x.Some? && x.value != [] then x.value else fallback
  }

  /** The first part of `sendMessage`, before it waits for the backend: the user's
      message is appended and the loading flag is raised. */
  function Begin(s: State, content: string, now: nat): (r: State)
    ensures r.isLoading
    ensures r.messages == s.messages + [Message(NatToString(now), User, content)]
  {
    AddMessage(s, User, content, now).(isLoading := true)
  }

  /** The rest of `sendMessage`, given what the backend call answered (`command` for
      `generateAnimation`, `chat` for `chatWithAI`) and the clock readings of the
      replies. The loading flag is lowered on every path. */
  function Finish(s: State, content: string, isCommand: bool, command: Reply, chat: Reply,
                  first: nat, second: nat): (r: State)
    ensures !r.isLoading
  {
    var r :=
      if isCommand then
        match command
        case Threw => AddMessage(s, Assistant, ThrewApology, first)
        case Responded(ok, data) =>
          if ok && data.Some? then
            var d := data.value;
            var stored := s.(code := OrElse(d.code, []), explanation := OrElse(d.explanation, []));
            AddMessage(AddMessage(stored, System, EditorUpdated, first), Assistant, OrElse(d.explanation, AnimationDone), second)
          else AddMessage(s, Assistant, AnimationTrouble, first)
      else if IsAnimationRelated(content) then
        match chat
        case Threw => AddMessage(s, Assistant, ThrewApology, first)
        case Responded(ok, data) =>
          if ok && data.Some? then AddMessage(s, Assistant, OrElse(data.value.response, CouldNotProcess), first)
          else AddMessage(s, Assistant, ChatError, first)
      else AddMessage(s, Assistant, OffTopic, first);
    r.(isLoading := false)
  }

  /** `sendMessage` from start to end. */
  function SendMessage(s: State, content: string, isCommand: bool, command: Reply, chat: Reply,
                       now: nat, first: nat, second: nat): (r: State)
    ensures !r.isLoading
    ensures |r.messages| > |s.messages| && r.messages[..|s.messages| + 1] == Begin(s, content, now).messages
  {
    var b := Begin(s, content, now);
    var r := Finish(b, content, isCommand, command, chat, first, second);
    ReplyCount(b, content, isCommand, command, chat, first, second);
    r
  }

  /** A successful command: the code store is filled and a system notice and the
      assistant's explanation follow the user's message, in that order. */
  predicate CommandSucceeded(isCommand: bool, command: Reply) {
    isCommand && command.Responded? && command.success && command.data.Some?
  }

  /** Every path of `Finish` appends exactly one message, except a successful
      command, which appends two; earlier messages are kept. */
  lemma ReplyCount(s: State, content: string, isCommand: bool, command: Reply, chat: Reply,
                   first: nat, second: nat)
    ensures var r := Finish(s, content, isCommand, command, chat, first, second);
      && |r.messages| == |s.messages| + (if CommandSucceeded(isCommand, command) then 2 else 1)
      && r.messages[..|s.messages|] == s.messages
  {
    var r := Finish(s, content, isCommand, command, chat, first, second);
    if CommandSucceeded(isCommand, command) {
      assert r.messages == s.messages + [r.messages[|s.messages|], r.messages[|s.messages| + 1]];
    } else {
      assert r.messages == s.messages + [r.messages[|s.messages|]];
    }
  }

  /** What a successful command leaves behind. */
  lemma CommandSuccess(s: State, content: string, command: Reply, chat: Reply, first: nat, second: nat)
    requires CommandSucceeded(true, command)
    ensures var r := Finish(s, content, true, command, chat, first, second);
            var d := command.data.value;
      && r.code == OrElse(d.code, []) && r.explanation == OrElse(d.explanation, [])
      && r.messages == s.messages + [Message(NatToString(first), System, EditorUpdated),
                                     Message(NatToString(second), Assistant, OrElse(d.explanation, AnimationDone))]
  {
  }

  /** A failed call, of either kind, adds one apology from the assistant and leaves
      the code store alone. */
  lemma FailureApologises(s: State, content: string, isCommand: bool, command: Reply, chat: Reply, first: nat, second: nat)
    requires isCommand ==> !CommandSucceeded(isCommand, command)
    requires !isCommand ==> IsAnimationRelated(content) && !(chat.Responded? && chat.success && chat.data.Some?)
    ensures var r := Finish(s, content, isCommand, command, chat, first, second);
      && r.code == s.code && r.explanation == s.explanation
      && |r.messages| == |s.messages| + 1
      && r.messages[|s.messages|].role == Assistant
      && r.messages[|s.messages|].content in {ThrewApology, AnimationTrouble, ChatError}
  {
  }

  /** A successful chat call on a related message adds the assistant's answer, or
      the fixed text when the answer is absent or empty, and leaves the code store
      alone. */
  lemma ChatSuccess(s: State, content: string, command: Reply, chat: Reply, first: nat, second: nat)
    requires IsAnimationRelated(content)
    requires chat.Responded? && chat.success && chat.data.Some?
    ensures var r := Finish(s, content, false, command, chat, first, second);
      && r.code == s.code && r.explanation == s.explanation
      && r.messages == s.messages + [Message(NatToString(first), Assistant,
                                             OrElse(chat.data.value.response, CouldNotProcess))]
  {
  }

  /** A plain message without any keyword gets the fixed refusal whatever the chat
      call would have answered: the call is never made. */
  lemma OffTopicRefused(s: State, content: string, command: Reply, chat: Reply, chat': Reply, first: nat, second: nat)
    requires !IsAnimationRelated(content)
    ensures Finish(s, content, false, command, chat, first, second)
         == Finish(s, content, false, command, chat', first, second)
    ensures Finish(s, content, false, command, chat, first, second).messages
         == s.messages + [Message(NatToString(first), Assistant, OffTopic)]
  {
  }

  /** The user's message and a reply added within the same millisecond share an id. */
  lemma SameMillisecondSameId(s: State, content: string, isCommand: bool, command: Reply, chat: Reply, now: nat)
    ensures var r := SendMessage(s, content, isCommand, command, chat, now, now, now);
            r.messages[|s.messages|].id == r.messages[|s.messages| + 1].id
  {
    var b := Begin(s, content, now);
    ReplyCount(b, content, isCommand, command, chat, now, now);
  }
}

=== FILE: clip_preview.dfy ===
/** The dashboard's clip preview: the duration field, recording a clip and saving
    it to the clip library, downloading a recording, and the REC countdown.

    The canvas before and after the animation restart, the browser's recording
    events, the clip id, the clock and the store's fault are all arguments. */
module ClipPreview {
  import opened Wrappers
  import opened Text
  import Clock
  import ClipStore
  import Recording

  /** Recording length used before the field is edited, in seconds. */
  const InitialDuration: int := 5

  /** Frame rate asked of the recorder. */
  const FrameRate: int := 30

  // ---------------------------------------------------------------------------
  // Duration field
  // ---------------------------------------------------------------------------

  /** `Math.max(1, parseInt(v) || 5)`: unparsable text and 0 fall back to 5, any
      other value is raised to at least 1. */
  function DurationInput(v: string): (r: int)
    ensures r >= 1
    ensures (ParseInt(v).None? || ParseInt(v) == Some(0)) ==> r == 5
    ensures ParseInt(v).Some? && ParseInt(v).value < 0 ==> r == 1
    ensures ParseInt(v).Some? && ParseInt(v).value > 0 ==> r == ParseInt(v).value
  {
    var n := match ParseInt(v) case None => 0 case Some(x) => x;
    var orDefault := if n == 0 then 5 else n;
    if orDefault < 1 then 1 else orDefault
  }

  /** Typing a positive whole number sets exactly that duration. */
  lemma DurationInputExact(n: nat)
    requires n >= 1
    ensures DurationInput(NatToString(n)) == n
  {
    ParseNatToString(n);
  }

  /** The field's value, written back as text and read again, does not change. */
  lemma DurationInputStable(v: string)
    ensures DurationInput(NatToString(DurationInput(v))) == DurationInput(v)
  {
    DurationInputExact(DurationInput(v));
  }

  // ---------------------------------------------------------------------------
  // Names
  // ---------------------------------------------------------------------------

  /** The file name with its first ".tsx" removed. */
  function Stem(fileName: string): string {
    ReplaceFirst(fileName, ".tsx", "")
  }

  /** Name of a saved clip. */
  function ClipName(fileName: string): string {
    Stem(fileName) + " Animation"
  }

  /** Name of a downloaded recording. */
  function DownloadName(fileName: string): string {
    Stem(fileName) + "_animation.webm"
  }

  /** A `.tsx` file whose stem holds no ".tsx" gets the stem, then the suffix. */
  lemma NamesOfTsxFile(stem: string)
    requires forall k :: !At(stem + ".tsx", ".tsx", k) || k == |stem|
    ensures ClipName(stem + ".tsx") == stem + " Animation"
    ensures DownloadName(stem + ".tsx") == stem + "_animation.webm"
  {
    ReplaceFirstSplit(stem, ".tsx", [], "");
    assert stem + ".tsx" + [] == stem + ".tsx";
    assert stem + "" + [] == stem;
  }

  /** Only the first ".tsx" goes: "a.tsx.tsx" becomes the clip "a.tsx Animation". */
  lemma OnlyFirstTsxRemoved()
    ensures ClipName("a.tsx.tsx") == "a.tsx Animation"
  {
    var s := "a.tsx.tsx";
    assert At(s, ".tsx", 1) by {
      assert s[1..5] == ".tsx";
    }
    assert !At(s, ".tsx", 0) by {
      assert s[0] != '.';
    }
    assert IndexOf(s, ".tsx", 0) == Some(1);
    assert s[..1] + "" + s[5..] == "a.tsx";
  }

  /** A name without ".tsx" is kept whole. */
  lemma NamesWithoutTsx(fileName: string)
    requires !Includes(fileName, ".tsx")
    ensures ClipName(fileName) == fileName + " Animation"
    ensures DownloadName(fileName) == fileName + "_animation.webm"
  {
    ReplaceFirstAbsent(fileName, ".tsx", "");
  }

  // ---------------------------------------------------------------------------
  // Countdown
  // ---------------------------------------------------------------------------

  /** `Math.ceil((100 - progress) * duration / 100)`: whole seconds left. */
  function Countdown(progress: real, durationSecs: int): (r: int)
    ensures (100.0 - progress) * durationSecs as real / 100.0 <= r as real
    ensures r as real < (100.0 - progress) * durationSecs as real / 100.0 + 1.0
  {
    Clock.Ceil((100.0 - progress) * durationSecs as real / 100.0)
  }

  /** The countdown starts at the full duration and ends at 0. */
  lemma CountdownEnds(durationSecs: int)
    ensures Countdown(0.0, durationSecs) == durationSecs
    ensures Countdown(100.0, durationSecs) == 0
  {
    assert (100.0 - 0.0) * durationSecs as real / 100.0 == durationSecs as real;
    assert (100.0 - 100.0) * durationSecs as real / 100.0 == 0.0;
  }

  /** During a recording it stays between 0 and the duration and never goes up. */
  lemma CountdownBounds(p1: real, p2: real, durationSecs: int)
    requires 0.0 <= p1 <= p2 <= 100.0 && durationSecs >= 0
    ensures 0 <= Countdown(p2, durationSecs) <= Countdown(p1, durationSecs) <= durationSecs
  {
    var d := durationSecs as real;
    var x1 := (100.0 - p1) * d / 100.0;
    var x2 := (100.0 - p2) * d / 100.0;
    assert (100.0 - p2) * d <= (100.0 - p1) * d;
    assert (100.0 - p1) * d <= 100.0 * d;
    assert 0.0 <= (100.0 - p2) * d;
    assert 0.0 <= x2 <= x1 <= d;
    assert Countdown(p1, durationSecs) as real >= x1;
    assert Countdown(p2, durationSecs) as real < x2 + 1.0;
  }

  // ---------------------------------------------------------------------------
  // Recording and saving
  // ---------------------------------------------------------------------------

  /** The alert the user sees. `Completed` carries the clip name and blob size;
      `Failed` carries the error message shown after "Recording failed: ". */
  datatype Alert = CanvasNotReady | InvalidDimensions | Completed(clipName: string, size: nat) | Failed(message: string)

  /** What `onExportClip` receives. */
  datatype ExportedClip = ExportedClip(blob: Recording.Blob, name: string, duration: int)

  /** The state after `handleRecord`: the clip library, the alert (none while the
      recording is still running), the export callback's argument, `isSaving`,
      and the options passed to `startRecording` (none when it is not called). */
  datatype RecordResult = RecordResult(
    store: ClipStore.Store,
    alert: Option<Alert>,
    exported: Option<ExportedClip>,
    isSaving: bool,
    requested: Option<Recording.Options>)

  /** The environment of one click: the canvas before and after the restart, the
      browser's supported types and recording events, the hook's last progress, the
      new clip's id and time, the store's fault and its error message. */
  datatype Environment = Environment(
    canvas: Option<Recording.Canvas>,
    freshCanvas: Option<Recording.Canvas>,
    supported: set<string>,
    lastProgress: Recording.Num,
    events: seq<Recording.Event>,
    clipId: string,
    now: int,
    fault: ClipStore.Fault,
    storeErrorMessage: string)

  function RecordOptions(durationSecs: int): Recording.Options {
    Recording.Options(Some(durationSecs * 1000), Some(FrameRate))
  }

  /** `handleRecord`. */
  function HandleRecord(store: ClipStore.Store, fileName: string, durationSecs: int,
                        isSaving: bool, env: Environment): (r: RecordResult)
    ensures (env.canvas.None? || env.canvas.value.width == 0 || env.canvas.value.height == 0)
            ==> r.requested.None? && r.store == store && r.exported.None? && r.isSaving == isSaving
    ensures r.exported.Some? ==>
      && r.exported.value.name == ClipName(fileName)
      && r.exported.value.duration == durationSecs
      && r.exported.value.blob.Size() > 0
      && r.alert == Some(Completed(ClipName(fileName), r.exported.value.blob.Size()))
    ensures r.store != store ==> env.fault != ClipStore.FirstRequestFails
    ensures r.alert.Some? && r.requested.Some? ==> !r.isSaving
  {
    match env.canvas
    case None => RecordResult(store, Some(CanvasNotReady), None, isSaving, None)
    case Some(c) =>
      if c.width == 0 || c.height == 0 then
        RecordResult(store, Some(InvalidDimensions), None, isSaving, None)
      else if env.freshCanvas.None? then
        RecordResult(store, Some(Failed("Canvas lost after restart")), None, false, None)
      else
        var opts := RecordOptions(durationSecs);
        match Recording.Start(env.freshCanvas, opts, env.supported, env.lastProgress)
        case Err(e) =>
          RecordResult(store, Some(Failed(Recording.StartErrorMessage(e))), None, false, Some(opts))
        case Ok(session) =>
          AfterRecording(store, fileName, durationSecs, isSaving, Recording.Run(session, env.events).outcome, env)
  }

  /** `handleRecord` once `startRecording` has begun: wait for the promise. */
  function AfterRecording(store: ClipStore.Store, fileName: string, durationSecs: int,
                          isSaving: bool, outcome: Recording.Settlement, env: Environment)
    : (r: RecordResult)
    ensures r.requested == Some(RecordOptions(durationSecs))
    ensures outcome.Pending? ==> r == RecordResult(store, None, None, isSaving, r.requested)
    ensures outcome.Rejected? ==> r == RecordResult(store, Some(Failed(outcome.message)), None, false, r.requested)
    ensures r.exported.Some? ==> outcome.Resolved? && r.exported.value.blob == outcome.blob
    ensures r.store != store ==> env.fault != ClipStore.FirstRequestFails
    ensures r.alert.Some? ==> !r.isSaving
  {
    var opts := RecordOptions(durationSecs);
    match outcome
    case Pending => RecordResult(store, None, None, isSaving, Some(opts))
    case Rejected(m) => RecordResult(store, Some(Failed(m)), None, false, Some(opts))
    case Resolved(blob) =>
      if blob.Size() == 0 then
        RecordResult(store, Some(Failed("Recorded video has no content")), None, false, Some(opts))
      else
        SaveRecording(store, fileName, durationSecs, blob, env, opts)
  }

  /** The part of `handleRecord` after a non-empty recording: save, then export. */
  function SaveRecording(store: ClipStore.Store, fileName: string, durationSecs: int,
                         blob: Recording.Blob, env: Environment, opts: Recording.Options)
    : (r: RecordResult)
    requires blob.Size() > 0
    ensures r.requested == Some(opts) && !r.isSaving
    ensures r.exported.Some? <==> env.fault.NoFault?
    ensures r.exported.Some? ==> r.exported.value == ExportedClip(blob, ClipName(fileName), durationSecs)
    ensures env.fault.NoFault? ==>
      ClipStore.GetClip(r.store, env.clipId, false)
        == Some(ClipStore.ClipRecord(
             ClipStore.NewMetadata(SaveRequestFor(fileName, durationSecs, blob), env.clipId, env.now), blob))
    ensures !env.fault.NoFault? ==> r.alert == Some(Failed(env.storeErrorMessage))
  {
    var name := ClipName(fileName);
    var saved := ClipStore.SaveClip(store, SaveRequestFor(fileName, durationSecs, blob), env.clipId, env.now, env.fault);
    if saved.result.Err? then
      RecordResult(saved.store, Some(Failed(env.storeErrorMessage)), None, false, Some(opts))
    else
      RecordResult(saved.store, Some(Completed(name, blob.Size())),
                   Some(ExportedClip(blob, name, durationSecs)), false, Some(opts))
  }

  /** The clip saved for a recording: the requested seconds, not a measured length;
      the `type` and `content` fields passed along are not stored. */
  function SaveRequestFor(fileName: string, durationSecs: int, blob: Recording.Blob): ClipStore.SaveRequest {
    ClipStore.SaveRequest(ClipName(fileName), durationSecs as real, blob, None, None, None)
  }

  /** Past the canvas checks the recorder is asked for the field's seconds in
      milliseconds at 30 frames per second, and the recording session runs that long. */
  lemma RecordRequest(store: ClipStore.Store, fileName: string, durationSecs: int,
                      isSaving: bool, env: Environment)
    requires env.canvas.Some? && env.canvas.value.width != 0 && env.canvas.value.height != 0
    requires env.freshCanvas.Some?
    ensures HandleRecord(store, fileName, durationSecs, isSaving, env).requested
            == Some(Recording.Options(Some(durationSecs * 1000), Some(30)))
    ensures var s := Recording.Start(env.freshCanvas, RecordOptions(durationSecs), env.supported, env.lastProgress);
            s.Ok? ==> s.value.duration == durationSecs * 1000
  {
  }

  /** A recording that resolves is never rejected as empty: past the canvas checks,
      a resolved recording is always exported, and a store without faults then
      holds the new clip under its id. */
  lemma RecordedClipIsSaved(store: ClipStore.Store, fileName: string, durationSecs: int,
                            isSaving: bool, env: Environment)
    requires env.canvas.Some? && env.canvas.value.width != 0 && env.canvas.value.height != 0
    requires env.fault.NoFault?
    ensures var started := Recording.Start(env.freshCanvas, RecordOptions(durationSecs), env.supported, env.lastProgress);
            var r := HandleRecord(store, fileName, durationSecs, isSaving, env);
      (env.freshCanvas.Some? && started.Ok? && Recording.Run(started.value, env.events).outcome.Resolved?)
      ==> r.exported.Some?
    ensures var r := HandleRecord(store, fileName, durationSecs, isSaving, env);
      r.exported.Some? ==>
        var got := ClipStore.GetClip(r.store, env.clipId, false);
        && got.Some? && got.value.blob == r.exported.value.blob
        && got.value.metadata.name == ClipName(fileName)
        && got.value.metadata.duration == durationSecs as real
  {
    var opts := RecordOptions(durationSecs);
    var started := Recording.Start(env.freshCanvas, opts, env.supported, env.lastProgress);
    Recording.ResolvedBlobNonEmpty(env.freshCanvas, opts, env.supported, env.lastProgress, env.events);
    if env.freshCanvas.Some? && started.Ok? {
      var outcome := Recording.Run(started.value, env.events).outcome;
      if outcome.Resolved? {
        assert outcome.blob.Size() > 0;
        var r := SaveRecording(store, fileName, durationSecs, outcome.blob, env, opts);
        assert HandleRecord(store, fileName, durationSecs, isSaving, env) == r;
      }
    }
  }

  // ---------------------------------------------------------------------------
  // Download
  // ---------------------------------------------------------------------------

  /** The outcome of `handleExportDownload`. */
  datatype Download = NotReady | StillRecording | Downloaded(fileName: string, blob: Recording.Blob) | ExportFailed

  /** `handleExportDownload`: only a missing canvas is checked up front; every
      failure after that is reported the same way, and nothing is saved. */
  function ExportDownload(fileName: string, durationSecs: int, env: Environment): (r: Download)
    ensures env.canvas.None? <==> r == NotReady
    ensures r.Downloaded? ==> r.fileName == DownloadName(fileName)
    ensures env.canvas.Some? && env.freshCanvas.None? ==> r == ExportFailed
  {
    if env.canvas.None? then NotReady
    else if env.freshCanvas.None? then ExportFailed
    else
      match Recording.Start(env.freshCanvas, RecordOptions(durationSecs), env.supported, env.lastProgress)
      case Err(_) => ExportFailed
      case Ok(session) =>
        match Recording.Run(session, env.events).outcome
        case Pending => StillRecording
        case Rejected(_) => ExportFailed
        case Resolved(blob) => Downloaded(DownloadName(fileName), blob)
  }

  /** Download and record-and-save share the recording: under the same events, one
      downloads exactly the blob the other exports. */
  lemma DownloadMatchesExport(store: ClipStore.Store, fileName: string, durationSecs: int,
                              isSaving: bool, env: Environment)
    requires env.canvas.Some? && env.canvas.value.width != 0 && env.canvas.value.height != 0
    requires env.fault.NoFault?
    ensures var d := ExportDownload(fileName, durationSecs, env);
            var r := HandleRecord(store, fileName, durationSecs, isSaving, env);
            r.exported.Some? <==> d.Downloaded?
    ensures var d := ExportDownload(fileName, durationSecs, env);
            var r := HandleRecord(store, fileName, durationSecs, isSaving, env);
            r.exported.Some? ==> d.blob == r.exported.value.blob
  {
    Recording.ResolvedBlobNonEmpty(env.freshCanvas, RecordOptions(durationSecs), env.supported,
                                   env.lastProgress, env.events);
  }
}

=== FILE: clip_store.dfy ===
/** The clip library: two keyed object stores, `clips` (metadata) and `clipBlobs`
    (video payloads), with save, get, list, update, delete and statistics.

    Every object-store request may fail; which request of an operation fails is an
    explicit `Fault` argument. The clip id (built from the clock and a random number)
    and the creation time are arguments too. */
module ClipStore {
  import opened Wrappers

  newtype byte = x: int | 0 <= x < 256

  /** A `Blob`: its bytes and its MIME type (`blob.type`). */
  datatype Blob = Blob(bytes: seq<byte>, mimeType: string) {
    /** `blob.size`. */
    function Size(): nat {
      |bytes|
    }
  }

  /** `StoredClip`: one record of the `clips` store. `createdAt` is in milliseconds. */
  datatype StoredClip = StoredClip(
    id: string,
    name: string,
    duration: real,
    createdAt: int,
    fileSize: int,
    mimeType: string,
    thumbnail: Option<string>,
    tags: Option<seq<string>>,
    description: Option<string>)

  /** The `clips` store uses `id` as its key path: every record sits under its own id. */
  type ClipMap = m: map<string, StoredClip> | forall k :: k in m ==> m[k].id == k
    witness map[]

  /** Both object stores. */
  datatype Store = Store(clips: ClipMap, blobs: map<string, Blob>)

  const EmptyStore: Store := Store(map[], map[])

  /** Which object-store request of an operation fails: none, the first, or the
      second. */
  datatype Fault = NoFault | FirstRequestFails | SecondRequestFails

  /** The error a failed request rejects with. */
  datatype StorageError = StorageError

  /** The argument of `saveClip`. */
  datatype SaveRequest = SaveRequest(
    name: string,
    duration: real,
    blob: Blob,
    thumbnail: Option<string>,
    tags: Option<seq<string>>,
    description: Option<string>)

  /** What `getClip` resolves with when it finds a clip. */
  datatype ClipRecord = ClipRecord(metadata: StoredClip, blob: Blob)

  /** A store after an operation, with the operation's result. */
  datatype Outcome<R> = Outcome(store: Store, result: R)

  // ---------------------------------------------------------------------------
  // saveClip
  // ---------------------------------------------------------------------------

  /** The metadata record `saveClip` builds: sizes and type come from the blob,
      tags default to `[]` and the description to `''`. */
  function NewMetadata(req: SaveRequest, id: string, now: int): (c: StoredClip)
    ensures c.id == id && c.name == req.name && c.duration == req.duration
    ensures c.createdAt == now
    ensures c.fileSize == req.blob.Size() && c.mimeType == req.blob.mimeType
    ensures c.thumbnail == req.thumbnail
    ensures c.tags == Some(req.tags.GetOr([]))
    ensures c.description == Some(req.description.GetOr(""))
  {
    StoredClip(id, req.name, req.duration, now, req.blob.Size(), req.blob.mimeType,
               req.thumbnail, Some(req.tags.GetOr([])), Some(req.description.GetOr("")))
  }

  /** `saveClip`: write the metadata, then the blob. There is no rollback: when the
      blob write fails, the metadata stays and the error is passed on. */
  function SaveClip(s: Store, req: SaveRequest, id: string, now: int, fault: Fault)
    : (out: Outcome<Result<string, StorageError>>)
    ensures out.result.Ok? <==> fault.NoFault?
    ensures out.result.Ok? ==> out.result.value == id
    ensures fault.FirstRequestFails? ==> out.store == s
    ensures !fault.FirstRequestFails? ==>
      && out.store.clips.Keys == s.clips.Keys + {id}
      && out.store.clips[id] == NewMetadata(req, id, now)
      && forall k :: k in s.clips && k != id ==> out.store.clips[k] == s.clips[k]
    ensures fault.NoFault? ==>
      && out.store.blobs.Keys == s.blobs.Keys + {id}
      && out.store.blobs[id] == req.blob
      && forall k :: k in s.blobs && k != id ==> out.store.blobs[k] == s.blobs[k]
    ensures fault.SecondRequestFails? ==> out.store.blobs == s.blobs
  {
    var meta := NewMetadata(req, id, now);
    match fault
    case FirstRequestFails => Outcome(s, Err(StorageError))
    case SecondRequestFails => Outcome(s.(clips := s.clips[id := meta]), Err(StorageError))
    case NoFault => Outcome(Store(s.clips[id := meta], s.blobs[id := req.blob]), Ok(id))
  }

  // ---------------------------------------------------------------------------
  // getClip
  // ---------------------------------------------------------------------------

  /** `getClip`: a clip is returned only when both stores hold its id; a failed read
      (`readFails`) is reported as `null` too. */
  function GetClip(s: Store, id: string, readFails: bool): (r: Option<ClipRecord>)
    ensures r.Some? <==> !readFails && id in s.clips && id in s.blobs
    ensures r.Some? ==> r.value.metadata == s.clips[id] && r.value.blob == s.blobs[id]
    ensures r.Some? ==> r.value.metadata.id == id
  {
    if readFails || id !in s.clips || id !in s.blobs then None
    else Some(ClipRecord(s.clips[id], s.blobs[id]))
  }

  /** Round trip: after a successful save, reading the returned id gives back the
      exact blob and metadata built from the request under that id. */
  lemma SaveThenGet(s: Store, req: SaveRequest, id: string, now: int)
    ensures var out := SaveClip(s, req, id, now, NoFault);
            && out.result == Ok(id)
            && GetClip(out.store, id, false) == Some(ClipRecord(NewMetadata(req, id, now), req.blob))
  {
  }

  /** A save whose blob write fails leaves a metadata-only record under a fresh id:
      `getClip` cannot see it, but the metadata store (and so the listing) holds it. */
  lemma FailedBlobWriteLeavesOrphan(s: Store, req: SaveRequest, id: string, now: int)
    requires id !in s.blobs
    ensures var out := SaveClip(s, req, id, now, SecondRequestFails);
            && out.result.Err?
            && id in out.store.clips
            && forall readFails :: GetClip(out.store, id, readFails).None?
  {
  }

  /** Saving under one id does not change what `getClip` returns for any other id. */
  lemma SaveKeepsOtherClips(s: Store, req: SaveRequest, id: string, now: int, fault: Fault,
                            other: string, readFails: bool)
    requires other != id
    ensures GetClip(SaveClip(s, req, id, now, fault).store, other, readFails)
            == GetClip(s, other, readFails)
  {
  }

  // ---------------------------------------------------------------------------
  // deleteClip
  // ---------------------------------------------------------------------------

  /** `deleteClip`: delete the metadata, then the blob; `true` once both requests
      succeed, whether or not the id existed. */
  function DeleteClip(s: Store, id: string, fault: Fault): (out: Outcome<bool>)
    ensures out.result <==> fault.NoFault?
    ensures fault.FirstRequestFails? ==> out.store == s
    ensures !fault.FirstRequestFails? ==>
      out.store.clips.Keys == s.clips.Keys - {id}
      && forall k :: k in out.store.clips ==> out.store.clips[k] == s.clips[k]
    ensures fault.NoFault? ==>
      out.store.blobs.Keys == s.blobs.Keys - {id}
      && forall k :: k in out.store.blobs ==> out.store.blobs[k] == s.blobs[k]
    ensures fault.SecondRequestFails? ==> out.store.blobs == s.blobs
  {
    match fault
    case FirstRequestFails => Outcome(s, false)
    case SecondRequestFails => Outcome(s.(clips := s.clips - {id}), false)
    case NoFault => Outcome(Store(s.clips - {id}, s.blobs - {id}), true)
  }

  /** After a successful delete, `getClip` finds nothing under the id; other ids are
      unaffected. */
  lemma DeleteThenGet(s: Store, id: string, other: string, readFails: bool)
    ensures GetClip(DeleteClip(s, id, NoFault).store, id, readFails).None?
    ensures other != id ==>
      GetClip(DeleteClip(s, id, NoFault).store, other, readFails) == GetClip(s, other, readFails)
  {
  }

  /** Deleting twice is the same as deleting once, and both report success. */
  lemma DeleteIdempotent(s: Store, id: string)
    ensures var once := DeleteClip(s, id, NoFault);
            var twice := DeleteClip(once.store, id, NoFault);
            twice.store == once.store && twice.result
  {
  }

  // ---------------------------------------------------------------------------
  // updateClipMetadata
  // ---------------------------------------------------------------------------

  /** A `Partial<StoredClip>`: `Some` marks a field present in the update object.
      For the optional fields, a present field may itself be `undefined`. */
  datatype ClipPatch = ClipPatch(
    id: Option<string>,
    name: Option<string>,
    duration: Option<real>,
    createdAt: Option<int>,
    fileSize: Option<int>,
    mimeType: Option<string>,
    thumbnail: Option<Option<string>>,
    tags: Option<Option<seq<string>>>,
    description: Option<Option<string>>)

  /** `{ ...existing, ...updates, id }`. */
  function ApplyPatch(c: StoredClip, p: ClipPatch, id: string): StoredClip {
    StoredClip(
      id,
      p.name.GetOr(c.name),
      p.duration.GetOr(c.duration),
      p.createdAt.GetOr(c.createdAt),
      p.fileSize.GetOr(c.fileSize),
      p.mimeType.GetOr(c.mimeType),
      p.thumbnail.GetOr(c.thumbnail),
      p.tags.GetOr(c.tags),
      p.description.GetOr(c.description))
  }

  /** `updateClipMetadata`: read the record (first request), merge, write it back
      (second request). A missing id or a failed request gives `false` and changes
      nothing. The blob store is never touched and the id never changes. */
  function UpdateClipMetadata(s: Store, id: string, p: ClipPatch, fault: Fault)
    : (out: Outcome<bool>)
    ensures out.store.blobs == s.blobs
    ensures out.result <==> fault.NoFault? && id in s.clips
    ensures !out.result ==> out.store == s
    ensures out.result ==>
      && out.store.clips.Keys == s.clips.Keys
      && (forall k :: k in s.clips && k != id ==> out.store.clips[k] == s.clips[k])
      && var c, n := s.clips[id], out.store.clips[id];
         && n.id == id
         && (p.name.Some? ==> n.name == p.name.value) && (p.name.None? ==> n.name == c.name)
         && (p.duration.Some? ==> n.duration == p.duration.value)
         && (p.duration.None? ==> n.duration == c.duration)
         && (p.createdAt.Some? ==> n.createdAt == p.createdAt.value)
         && (p.createdAt.None? ==> n.createdAt == c.createdAt)
         && (p.fileSize.Some? ==> n.fileSize == p.fileSize.value)
         && (p.fileSize.None? ==> n.fileSize == c.fileSize)
         && (p.mimeType.Some? ==> n.mimeType == p.mimeType.value)
         && (p.mimeType.None? ==> n.mimeType == c.mimeType)
         && (p.thumbnail.Some? ==> n.thumbnail == p.thumbnail.value)
         && (p.thumbnail.None? ==> n.thumbnail == c.thumbnail)
         && (p.tags.Some? ==> n.tags == p.tags.value) && (p.tags.None? ==> n.tags == c.tags)
         && (p.description.Some? ==> n.description == p.description.value)
         && (p.description.None? ==> n.description == c.description)
  {
    if fault.FirstRequestFails? || id !in s.clips || fault.SecondRequestFails? then
      Outcome(s, false)
    else
      Outcome(s.(clips := s.clips[id := ApplyPatch(s.clips[id], p, id)]), true)
  }

  /** An empty update rewrites the record unchanged. */
  lemma EmptyPatchChangesNothing(s: Store, id: string, fault: Fault)
    ensures UpdateClipMetadata(s, id, ClipPatch(None, None, None, None, None, None, None, None, None), fault).store == s
  {
    if fault.NoFault? && id in s.clips {
      assert ApplyPatch(s.clips[id], ClipPatch(None, None, None, None, None, None, None, None, None), id) == s.clips[id];
      assert s.clips[id := s.clips[id]] == s.clips;
    }
  }

  /** An update leaves `getClip`'s blob for the id as it was, and keeps the clip
      visible exactly when it was visible before. */
  lemma UpdateKeepsVisibility(s: Store, id: string, p: ClipPatch, fault: Fault, readFails: bool)
    ensures var after := GetClip(UpdateClipMetadata(s, id, p, fault).store, id, readFails);
            var before := GetClip(s, id, readFails);
            after.Some? == before.Some? && (after.Some? ==> after.value.blob == before.value.blob)
  {
  }

  // ---------------------------------------------------------------------------
  // getAllClips and getStorageInfo
  // ---------------------------------------------------------------------------

  /** Lexicographic order of strings by character code: the order of IndexedDB keys,
      in which `getAll` returns records. */
  predicate StrLess(a: string, b: string) {
    if a == [] then b != []
    else if b == [] then false
    else a[0] < b[0] || (a[0] == b[0] && StrLess(a[1..], b[1..]))
  }

  lemma {:induction false} StrLessIrreflexive(a: string)
    ensures !StrLess(a, a)
  {
    if a != [] { StrLessIrreflexive(a[1..]); }
  }

  lemma {:induction false} StrLessTransitive(a: string, b: string, c: string)
    requires StrLess(a, b) && StrLess(b, c)
    ensures StrLess(a, c)
  {
    if a != [] && b != [] && c != [] && a[0] == b[0] && b[0] == c[0] {
      StrLessTransitive(a[1..], b[1..], c[1..]);
    }
  }

  lemma {:induction false} StrLessTotal(a: string, b: string)
    requires a != b
    ensures StrLess(a, b) || StrLess(b, a)
  {
    if a != [] && b != [] && a[0] == b[0] {
      assert a == [a[0]] + a[1..] && b == [b[0]] + b[1..];
      StrLessTotal(a[1..], b[1..]);
    }
  }

  /** The listing order: newer first (the sort comparator), and among equal
      creation times, ascending id (the store's key order, which the stable sort
      keeps). */
  predicate Before(a: StoredClip, b: StoredClip) {
    a.createdAt > b.createdAt || (a.createdAt == b.createdAt && StrLess(a.id, b.id))
  }

  predicate NewestFirst(r: seq<StoredClip>) {
    forall i, j :: 0 <= i < j < |r| ==> Before(r[i], r[j])
  }

  lemma BeforeTransitive(a: StoredClip, b: StoredClip, c: StoredClip)
    requires Before(a, b) && Before(b, c)
    ensures Before(a, c)
  {
    if a.createdAt == b.createdAt == c.createdAt {
      StrLessTransitive(a.id, b.id, c.id);
    }
  }

  lemma BeforeTotal(a: StoredClip, b: StoredClip)
    requires a.id != b.id
    ensures Before(a, b) || Before(b, a)
  {
    StrLessTotal(a.id, b.id);
  }

  /** Insertion of one record into a newest-first list that does not hold its id. */
  function Insert(r: seq<StoredClip>, c: StoredClip): (out: seq<StoredClip>)
    requires NewestFirst(r)
    requires forall i :: 0 <= i < |r| ==> r[i].id != c.id
    ensures NewestFirst(out)
    ensures |out| == |r| + 1
    ensures forall x :: x in out <==> x in r || x == c
  {
    if r == [] then [c]
    else if Before(c, r[0]) then
      forall j | 0 < j < |r| ensures Before(c, r[j]) {
        BeforeTransitive(c, r[0], r[j]);
      }
      [c] + r
    else
      BeforeTotal(c, r[0]);
      var rest := Insert(r[1..], c);
      assert forall x :: x in rest ==> Before(r[0], x) by {
        forall x | x in rest ensures Before(r[0], x) {
          if x != c {
            var j :| 0 <= j < |r[1..]| && r[1..][j] == x;
            assert r[j + 1] == x;
          }
        }
      }
      [r[0]] + rest
  }

  /** `getAllClips`: every metadata record, newest first; `[]` when the read fails.
      The blob store is not read. */
  method GetAllClips(s: Store, readFails: bool) returns (r: seq<StoredClip>)
    ensures readFails ==> r == []
    ensures NewestFirst(r)
    ensures forall x :: x in r ==> x.id in s.clips && s.clips[x.id] == x
    ensures !readFails ==> forall k :: k in s.clips ==> s.clips[k] in r
    ensures !readFails ==> |r| == |s.clips|
  {
    r := [];
    if readFails {
      return;
    }
    var keys := s.clips.Keys;
    ghost var done: set<string> := {};
    while keys != {}
      invariant keys !! done && keys + done == s.clips.Keys
      invariant NewestFirst(r)
      invariant forall x :: x in r ==> x.id in done && s.clips[x.id] == x
      invariant forall k :: k in done ==> s.clips[k] in r
      invariant |r| == |done|
      decreases keys
    {
      var k :| k in keys;
      forall i | 0 <= i < |r| ensures r[i].id != k {
        assert r[i] in r;
      }
      InsertKeeps(s.clips, r, done, k);
      r := Insert(r, s.clips[k]);
      keys := keys - {k};
      done := done + {k};
    }
  }

  /** Inserting the record of a key not yet listed keeps the listing in step with
      the set of keys read so far. */
  lemma {:induction false} InsertKeeps(m: ClipMap, r: seq<StoredClip>, done: set<string>, k: string)
    requires k in m && k !in done && NewestFirst(r)
    requires forall i :: 0 <= i < |r| ==> r[i].id != k
    requires forall x :: x in r ==> x.id in done && x.id in m && m[x.id] == x
    requires forall j :: j in done ==> j in m && m[j] in r
    requires |r| == |done|
    ensures forall x :: x in Insert(r, m[k]) ==> x.id in done + {k} && x.id in m && m[x.id] == x
    ensures forall j :: j in done + {k} ==> j in m && m[j] in Insert(r, m[k])
    ensures |Insert(r, m[k])| == |done + {k}|
  {
    assert |done + {k}| == |done| + 1;
  }

  /** Sum of `fileSize` over a list of records (`reduce` starting from 0). */
  function SumFileSize(r: seq<StoredClip>): int {
    if r == [] then 0 else r[0].fileSize + SumFileSize(r[1..])
  }

  /** Sum of `fileSize` over a whole store, independent of any listing order. */
  ghost function StoreFileSize(m: map<string, StoredClip>): int
    decreases |m|
  {
    if m == map[] then 0
    else
      var k :| k in m;
      m[k].fileSize + StoreFileSize(m - {k})
  }

  lemma {:induction false} StoreFileSizeRemove(m: map<string, StoredClip>, k: string)
    requires k in m
    ensures StoreFileSize(m) == m[k].fileSize + StoreFileSize(m - {k})
    decreases |m|
  {
    var j :| j in m && StoreFileSize(m) == m[j].fileSize + StoreFileSize(m - {j});
    if j != k {
      StoreFileSizeRemove(m - {j}, k);
      StoreFileSizeRemove(m - {k}, j);
      assert m - {j} - {k} == m - {k} - {j};
    }
  }

  /** Summing any list that enumerates a store, one record per key, gives the store's
      total size. */
  lemma {:induction false} SumFileSizeOfListing(r: seq<StoredClip>, m: ClipMap)
    requires forall i :: 0 <= i < |r| ==> r[i].id in m && m[r[i].id] == r[i]
    requires forall i, j :: 0 <= i < j < |r| ==> r[i].id != r[j].id
    requires forall k :: k in m ==> m[k] in r
    ensures SumFileSize(r) == StoreFileSize(m)
    decreases |r|
  {
    if r == [] {
      assert m.Keys == {};
    } else {
      var k := r[0].id;
      var m' := m - {k};
      forall k' | k' in m' ensures m'[k'] in r[1..] {
        var i :| 0 <= i < |r| && r[i] == m[k'];
        assert i != 0;
        assert r[1..][i - 1] == m[k'];
      }
      forall i | 0 <= i < |r[1..]| ensures r[1..][i].id in m' && m'[r[1..][i].id] == r[1..][i] {
        assert r[1..][i] == r[i + 1];
      }
      SumFileSizeOfListing(r[1..], m');
      StoreFileSizeRemove(m, k);
    }
  }

  /** The result of `getStorageInfo`. */
  datatype StorageInfo = StorageInfo(
    totalClips: nat, totalSize: int, oldestClip: Option<int>, newestClip: Option<int>)

  /** `getStorageInfo`: count and total size of all clips, with the creation times of
      the newest (first listed) and oldest (last listed) clip. A failed listing counts
      as an empty store. */
  method GetStorageInfo(s: Store, readFails: bool) returns (info: StorageInfo)
    ensures readFails ==> info == StorageInfo(0, 0, None, None)
    ensures !readFails ==> info.totalClips == |s.clips| && info.totalSize == StoreFileSize(s.clips)
    ensures info.newestClip.Some? <==> info.totalClips > 0
    ensures info.oldestClip.Some? <==> info.totalClips > 0
    ensures info.newestClip.Some? ==>
      (exists k :: k in s.clips && s.clips[k].createdAt == info.newestClip.value)
      && forall k :: k in s.clips ==> s.clips[k].createdAt <= info.newestClip.value
    ensures info.oldestClip.Some? ==>
      (exists k :: k in s.clips && s.clips[k].createdAt == info.oldestClip.value)
      && forall k :: k in s.clips ==> info.oldestClip.value <= s.clips[k].createdAt
  {
    var clips := GetAllClips(s, readFails);
    if readFails {
      return StorageInfo(0, 0, None, None);
    }
    forall i, j | 0 <= i < j < |clips| ensures clips[i].id != clips[j].id {
      assert Before(clips[i], clips[j]);
      StrLessIrreflexive(clips[i].id);
    }
    forall i | 0 <= i < |clips| ensures clips[i].id in s.clips && s.clips[clips[i].id] == clips[i] {
      assert clips[i] in clips;
    }
    SumFileSizeOfListing(clips, s.clips);
    if |clips| == 0 {
      return StorageInfo(0, SumFileSize(clips), None, None);
    }
    var newest := clips[0].createdAt;
    var oldest := clips[|clips| - 1].createdAt;
    forall k | k in s.clips ensures s.clips[k].createdAt <= newest && oldest <= s.clips[k].createdAt {
      var i :| 0 <= i < |clips| && clips[i] == s.clips[k];
      if i > 0 { assert Before(clips[0], clips[i]); }
      if i < |clips| - 1 { assert Before(clips[i], clips[|clips| - 1]); }
    }
    assert clips[0].id in s.clips && s.clips[clips[0].id].createdAt == newest;
    assert clips[|clips| - 1].id in s.clips && s.clips[clips[|clips| - 1].id].createdAt == oldest;
    info := StorageInfo(|clips|, SumFileSize(clips), Some(oldest), Some(newest));
  }
}

=== FILE: clock.dfy ===
/** JavaScript number helpers on `real` (`Math.trunc`, `%`, `Math.round`, `Math.ceil`)
    and the `m:ss` clock rendering used by the clip library and the video controls. */
module Clock {
  import opened Wrappers
  import opened Text

  /** `Math.trunc`: rounds toward zero. */
  function Trunc(x: real): (r: int)
    ensures x >= 0.0 ==> r == x.Floor
    ensures x < 0.0 ==> r as real <= 0.0 && x <= r as real < x + 1.0
  {
    if x >= 0.0 then x.Floor else -((-x).Floor)
  }

  /** JavaScript's `%` on numbers: `a - b * trunc(a / b)`, so the remainder has the
      sign of the dividend (unlike Dafny's Euclidean `%`). */
  function JsRem(a: real, b: real): real
    requires b != 0.0
  {
    a - b * Trunc(a / b) as real
  }

  /** `Math.round`: the nearest integer, halves rounded up. */
  function Round(x: real): (r: int)
    ensures x - 0.5 < r as real <= x + 0.5
  {
    (x + 0.5).Floor
  }

  /** `Math.ceil`. */
  function Ceil(x: real): (r: int)
    ensures x <= r as real < x + 1.0
  {
    -((-x).Floor)
  }

  /** For a non-negative time, the minutes and seconds parts of the rendering are the
      whole minutes and the remaining whole seconds of `floor(t)`. */
  lemma WholeMinutes(t: real)
    ensures t >= 0.0 ==> (t / 60.0).Floor == t.Floor / 60
    ensures t >= 0.0 ==> JsRem(t, 60.0).Floor == t.Floor % 60
  {
    if t < 0.0 { return; }
    var n := t.Floor;
    var q := n / 60;
    var m := n % 60;
    assert n == 60 * q + m;
    assert 60.0 * q as real <= t < 60.0 * (q + 1) as real;
    assert q as real <= t / 60.0 < (q + 1) as real;
    assert Trunc(t / 60.0) == q;
    assert JsRem(t, 60.0) == t - 60.0 * q as real;
    assert m as real <= t - 60.0 * q as real < (m + 1) as real;
  }

  /** The seconds part `Math.floor(t % 60)` is at most 59 for any time, at least -60,
      and never negative for a non-negative time. */
  lemma SecondsPartBounds(t: real)
    ensures -60 <= JsRem(t, 60.0).Floor < 60
    ensures t >= 0.0 ==> 0 <= JsRem(t, 60.0).Floor
  {
    var q := Trunc(t / 60.0);
    if t >= 0.0 {
      WholeMinutes(t);
    } else {
      assert t / 60.0 <= q as real < t / 60.0 + 1.0;
      assert t <= 60.0 * q as real < t + 60.0;
    }
  }

  /** `m:ss` rendering of a time in seconds: `Math.floor(t / 60)`, a colon, then
      `Math.floor(t % 60)` padded to two digits with `0`. */
  function FormatMinSec(t: real): (r: string)
    ensures t >= 0.0 ==> r == NatToString(t.Floor / 60) + ":" + PadStart2(NatToString(t.Floor % 60))
  {
    WholeMinutes(t);
    IntToString((t / 60.0).Floor) + ":" + PadStart2(IntToString(JsRem(t, 60.0).Floor))
  }

  /** Reading an `m:ss` rendering back as a number of whole seconds: the minutes
      before the first colon times 60 plus the seconds after it. */
  function ParseMinSec(s: string): Option<int> {
    match IndexOf(s, ":", 0)
    case None => None
    case Some(k) => CombineMinSec(ParseInt(s[..k]), ParseInt(s[k + 1..]))
  }

  function CombineMinSec(mins: Option<int>, secs: Option<int>): Option<int> {
    if mins.Some? && secs.Some? then Some(60 * mins.value + secs.value) else None
  }

  lemma ParseTwoDigits(m: nat)
    requires m < 60
    ensures ParseInt(PadStart2(NatToString(m))) == Some(m)
  {
    var ds := NatToString(m);
    if m < 10 {
      var p := PadStart2(ds);
      assert p == ['0'] + ds;
      assert p[..1] == "0";
      assert DigitsValue(p[..1], 10) == 0 by {
        assert p[..1][..0] == [];
      }
      NatToStringValue(m);
      assert DigitsValue(p, 10) == m;
      assert forall i :: 0 <= i < |p| ==> IsDigit(p[i]) && DigitValue(p[i], 10) >= 0;
      ParseDigits(p);
    } else {
      ParseNatToString(m);
    }
  }

  /** Splitting at the first colon: a run of digits before it is the minutes part. */
  lemma ParseMinSecSplit(mins: string, secs: string)
    requires forall i :: 0 <= i < |mins| ==> IsDigit(mins[i])
    ensures ParseMinSec(mins + ":" + secs) == CombineMinSec(ParseInt(mins), ParseInt(secs))
  {
    var s := mins + ":" + secs;
    assert At(s, ":", |mins|) by {
      assert s[|mins|..|mins| + 1] == ":";
    }
    forall k | 0 <= k < |mins| ensures !At(s, ":", k) {
      assert s[k] == mins[k];
    }
    IndexOfAt(s, ":", 0, |mins|);
    assert s[..|mins|] == mins;
    assert s[|mins| + 1..] == secs;
  }

  lemma CombineWhole(n: nat)
    ensures CombineMinSec(Some(n / 60), Some(n % 60)) == Some(n)
  {
  }

  /** Reading back the rendering of a whole number of seconds. */
  lemma {:induction false} WholeSecondsRoundTrip(n: nat)
    ensures ParseMinSec(NatToString(n / 60) + ":" + PadStart2(NatToString(n % 60))) == Some(n)
  {
    var mins := NatToString(n / 60);
    var secs := PadStart2(NatToString(n % 60));
    ParseMinSecSplit(mins, secs);
    ParseNatToString(n / 60);
    ParseTwoDigits(n % 60);
    var a := ParseInt(mins);
    var b := ParseInt(secs);
    assert a == Some(n / 60);
    assert b == Some(n % 60);
    CombineWhole(n);
  }

  /** The `m:ss` rendering of a non-negative time reads back as its whole seconds:
      no information but the fraction of a second is lost. */
  lemma FormatMinSecRoundTrip(t: real)
    requires t >= 0.0
    ensures ParseMinSec(FormatMinSec(t)) == Some(t.Floor)
  {
    WholeSecondsRoundTrip(t.Floor);
  }
}

=== FILE: code_display.dfy ===
/** The editor's choice of syntax highlighting for a file's `language` field. The
    dashboard's copy knows plain text files; the older copy shows them as
    TypeScript. */
module CodeDisplay {
  import opened Text

  /** The highlighting modes the editor is ever asked for. */
  const Modes: set<string> := {"typescript", "javascript", "css", "html", "json", "plaintext"}

  /** `getLanguage`, with `knowsText` choosing the dashboard's copy (which adds the
      `txt` case). The language is lower-cased first; anything unknown is shown as
      TypeScript. */
  function Language(fileLanguage: string, knowsText: bool): (mode: string)
    ensures mode in Modes
    ensures ToLower(fileLanguage) in {"typescript", "tsx"} ==> mode == "typescript"
    ensures ToLower(fileLanguage) in {"javascript", "jsx"} ==> mode == "javascript"
    ensures ToLower(fileLanguage) in {"css", "html", "json"} ==> mode == ToLower(fileLanguage)
    ensures ToLower(fileLanguage) == "txt" ==> mode == (if knowsText then "plaintext" else "typescript")
    ensures ToLower(fileLanguage) !in {"typescript", "tsx", "javascript", "jsx", "css", "html", "json", "txt"} ==>
              mode == "typescript"
  {
    var l := ToLower(fileLanguage);
    if l == "typescript" || l == "tsx" then "typescript"
    else if l == "javascript" || l == "jsx" then "javascript"
    else if l == "css" then "css"
    else if l == "html" then "html"
    else if l == "json" then "json"
    else if l == "txt" && knowsText then "plaintext"
    else "typescript"
  }

  /** The mapping ignores case. */
  lemma LanguageIgnoresCase(fileLanguage: string, knowsText: bool)
    ensures Language(ToLower(fileLanguage), knowsText) == Language(fileLanguage, knowsText)
  {
    ToLowerIdempotent(fileLanguage);
  }

  /** The two copies differ on `txt` (in any case) and nowhere else, and only the
      dashboard's ever answers "plaintext". */
  lemma CopiesDifferOnlyOnText(fileLanguage: string)
    ensures Language(fileLanguage, true) != Language(fileLanguage, false) <==> ToLower(fileLanguage) == "txt"
    ensures Language(fileLanguage, false) != "plaintext"
  {
  }

  /** "TXT" is plain text in the dashboard's copy. */
  lemma UpperCaseText()
    ensures Language("TXT", true) == "plaintext"
  {
    assert ToLower("TXT") == "txt";
  }
}

=== FILE: code_extraction.dfy ===
/** Reading a language model's reply: the code it contains and a one-line
    explanation. Each regular expression of the service is written out as a
    scanner that finds the same match the JavaScript engine finds. */
module CodeExtraction {
  import opened Wrappers
  import opened Text

  // ---------------------------------------------------------------------------
  // Fenced code blocks
  // ---------------------------------------------------------------------------

  /** Where a fenced block's body starts, given the position just after the opening
      fence: an optional `javascript` or `js` tag (the longer one tried first) and
      one optional newline are skipped. */
  function BodyStart(s: string, p: nat): (q: nat)
    requires p <= |s|
    ensures p <= q <= |s|
  {
    var t := if At(s, "javascript", p) then p + 10 else if At(s, "js", p) then p + 2 else p;
    if t < |s| && s[t] == '\n' then t + 1 else t
  }

  /** The bodies of the fenced blocks from `from` on, left to right: each opening
      fence is the next one in the text and its body runs to the first closing
      fence after it. With no closing fence the scan ends. */
  function Fences(s: string, from: nat): seq<string>
    requires from <= |s|
    decreases |s| - from, 1
  {
    FencesFound(s, IndexOf(s, "```", from))
  }

  /** The blocks from an opening fence found at `open` (none when there is none). */
  function FencesFound(s: string, open: Option<nat>): seq<string>
    requires open.Some? ==> At(s, "```", open.value)
    decreases if open.Some? then |s| - open.value else 0, 0
  {
    match open
    case None => []
    case Some(i) =>
      var q := BodyStart(s, i + 3);
      match IndexOf(s, "```", q)
      case None => []
      case Some(k) => [s[q..k]] + Fences(s, k + 3)
  }

  /** No body the scan returns contains a fence. */
  lemma {:induction false} FencesHaveNoFence(s: string, from: nat)
    requires from <= |s|
    ensures forall i :: 0 <= i < |Fences(s, from)| ==> !Includes(Fences(s, from)[i], "```")
    decreases |s| - from, 1
  {
    FoundHaveNoFence(s, IndexOf(s, "```", from));
  }

  lemma {:induction false} FoundHaveNoFence(s: string, open: Option<nat>)
    requires open.Some? ==> At(s, "```", open.value)
    ensures forall i :: 0 <= i < |FencesFound(s, open)| ==> !Includes(FencesFound(s, open)[i], "```")
    decreases if open.Some? then |s| - open.value else 0, 0
  {
    match open
    case None =>
    case Some(p) =>
      var q := BodyStart(s, p + 3);
      match IndexOf(s, "```", q)
      case None =>
      case Some(k) =>
        IndexOfFirst(s, "```", q);
        NoFenceInside(s, q, k);
        FencesHaveNoFence(s, k + 3);
        NoFenceCons(s[q..k], Fences(s, k + 3));
  }

  /** A list of fence-free bodies stays fence-free with one more in front. */
  lemma {:induction false} NoFenceCons(b: string, rest: seq<string>)
    requires !Includes(b, "```")
    requires forall i :: 0 <= i < |rest| ==> !Includes(rest[i], "```")
    ensures forall i :: 0 <= i < |[b] + rest| ==> !Includes(([b] + rest)[i], "```")
  {
    forall i | 0 <= i < |[b] + rest| ensures !Includes(([b] + rest)[i], "```") {
      if i > 0 {
        assert ([b] + rest)[i] == rest[i - 1];
      }
    }
  }

  /** A slice that ends at the first fence after its start holds no fence. */
  lemma {:induction false} NoFenceInside(s: string, q: nat, k: nat)
    requires q <= k <= |s|
    requires forall m :: q <= m < k ==> !At(s, "```", m)
    ensures !Includes(s[q..k], "```")
  {
    forall m | 0 <= m && m + 3 <= k - q ensures !At(s[q..k], "```", m) {
      if At(s[q..k], "```", m) {
        AtSlice(s, "```", q, k, m);
      }
    }
  }

  /** The text of one fenced block: a fence, a tag, a newline, the body, a fence. */
  function Fenced(tag: string, body: string): string {
    "```" + tag + "\n" + body + "```"
  }

  predicate NoBacktick(b: string) {
    forall i :: 0 <= i < |b| ==> b[i] != '`'
  }

  predicate IsTag(tag: string) {
    tag == "" || tag == "js" || tag == "javascript"
  }

  lemma {:induction false} FencedChars(tag: string, body: string)
    ensures var f := Fenced(tag, body);
      && |f| == |tag| + |body| + 7
      && f[0] == '`' && f[1] == '`' && f[2] == '`'
      && (forall t :: 0 <= t < |tag| ==> f[3 + t] == tag[t])
      && f[3 + |tag|] == '\n'
      && (forall t :: 0 <= t < |body| ==> f[4 + |tag| + t] == body[t])
      && f[4 + |tag| + |body|] == '`' && f[5 + |tag| + |body|] == '`' && f[6 + |tag| + |body|] == '`'
  {
  }

  /** Searching for fences from `from` or from `p` gives the same blocks when no
      fence starts in between. */
  lemma {:induction false} FencesSkip(s: string, from: nat, p: nat)
    requires from <= p <= |s|
    requires forall m :: from <= m < p ==> !At(s, "```", m)
    ensures Fences(s, from) == Fences(s, p)
  {
    IndexOfSkip(s, "```", from, p);
  }

  /** After an opening fence, a tag and a newline, the body starts past the newline. */
  lemma {:induction false} BodyStartAfterTag(s: string, p: nat, tag: string)
    requires IsTag(tag) && p + |tag| < |s| && s[p + |tag|] == '\n'
    requires forall t :: 0 <= t < |tag| ==> s[p + t] == tag[t]
    ensures BodyStart(s, p) == p + |tag| + 1
  {
    if tag == "" {
      NotAtByChar(s, "javascript", p, 0);
      NotAtByChar(s, "js", p, 0);
    } else if tag == "js" {
      AtByChars(s, "js", p);
      NotAtByChar(s, "javascript", p, 2);
    } else {
      AtByChars(s, "javascript", p);
    }
  }

  /** A body without backticks runs up to the fence that follows it. */
  lemma {:induction false} CloseFenceAfter(s: string, q: nat, k: nat)
    requires q <= k && k + 3 <= |s|
    requires forall m :: q <= m < k ==> s[m] != '`'
    requires s[k] == '`' && s[k + 1] == '`' && s[k + 2] == '`'
    ensures IndexOf(s, "```", q) == Some(k)
  {
    forall m | q <= m < k ensures !At(s, "```", m) {
      NotAtByChar(s, "```", m, 0);
    }
    AtByChars(s, "```", k);
    IndexOfAt(s, "```", q, k);
  }

  /** The characters of a block written with `Fenced` at `p`. */
  lemma {:induction false} FencedCharsAt(s: string, p: nat, tag: string, body: string)
    requires p + |tag| + |body| + 7 <= |s| && s[p..p + |tag| + |body| + 7] == Fenced(tag, body)
    ensures s[p] == '`' && s[p + 1] == '`' && s[p + 2] == '`'
    ensures forall t :: 0 <= t < |tag| ==> s[p + 3 + t] == tag[t]
    ensures s[p + 3 + |tag|] == '\n'
    ensures forall m :: p + |tag| + 4 <= m < p + |tag| + |body| + 4 ==> s[m] == body[m - (p + |tag| + 4)]
    ensures s[p + |tag| + |body| + 4] == '`' && s[p + |tag| + |body| + 5] == '`'
    ensures s[p + |tag| + |body| + 6] == '`'
  {
    FencedChars(tag, body);
    forall j | 0 <= j < |tag| + |body| + 7 ensures s[p + j] == Fenced(tag, body)[j] {
      assert s[p..p + |tag| + |body| + 7][j] == s[p + j];
    }
    forall t | 0 <= t < |tag| ensures s[p + 3 + t] == tag[t] {
      assert s[p + (3 + t)] == Fenced(tag, body)[3 + t];
    }
    forall m | p + |tag| + 4 <= m < p + |tag| + |body| + 4 ensures s[m] == body[m - (p + |tag| + 4)] {
      assert s[p + (m - p)] == Fenced(tag, body)[m - p];
    }
  }

  /** A slice that agrees with `body` character by character is `body`. */
  lemma {:induction false} SliceByChars(s: string, q: nat, body: string)
    requires q + |body| <= |s|
    requires forall m :: q <= m < q + |body| ==> s[m] == body[m - q]
    ensures s[q..q + |body|] == body
  {
    forall t | 0 <= t < |body| ensures s[q..q + |body|][t] == body[t] {
      assert s[q + t] == body[(q + t) - q];
    }
  }

  /** Where the parts of a block written with `Fenced` at `p` are found by the scan. */
  lemma {:induction false} FencedLayout(s: string, p: nat, tag: string, body: string)
    requires IsTag(tag) && NoBacktick(body)
    requires p + |tag| + |body| + 7 <= |s| && s[p..p + |tag| + |body| + 7] == Fenced(tag, body)
    ensures IndexOf(s, "```", p) == Some(p)
    ensures BodyStart(s, p + 3) == p + |tag| + 4
    ensures IndexOf(s, "```", p + |tag| + 4) == Some(p + |tag| + |body| + 4)
    ensures s[p + |tag| + 4..p + |tag| + |body| + 4] == body
  {
    OpenFenceOf(s, p, tag, body);
    TagOf(s, p, tag, body);
    CloseFenceOf(s, p, tag, body);
    BodyOf(s, p, tag, body);
  }

  lemma {:induction false} OpenFenceOf(s: string, p: nat, tag: string, body: string)
    requires p + |tag| + |body| + 7 <= |s| && s[p..p + |tag| + |body| + 7] == Fenced(tag, body)
    ensures IndexOf(s, "```", p) == Some(p)
  {
    FencedCharsAt(s, p, tag, body);
    AtByChars(s, "```", p);
    IndexOfAt(s, "```", p, p);
  }

  lemma {:induction false} TagOf(s: string, p: nat, tag: string, body: string)
    requires IsTag(tag)
    requires p + |tag| + |body| + 7 <= |s| && s[p..p + |tag| + |body| + 7] == Fenced(tag, body)
    ensures BodyStart(s, p + 3) == p + |tag| + 4
  {
    FencedCharsAt(s, p, tag, body);
    BodyStartAfterTag(s, p + 3, tag);
  }

  lemma {:induction false} CloseFenceOf(s: string, p: nat, tag: string, body: string)
    requires NoBacktick(body)
    requires p + |tag| + |body| + 7 <= |s| && s[p..p + |tag| + |body| + 7] == Fenced(tag, body)
    ensures IndexOf(s, "```", p + |tag| + 4) == Some(p + |tag| + |body| + 4)
  {
    FencedCharsAt(s, p, tag, body);
    forall m | p + |tag| + 4 <= m < p + |tag| + |body| + 4 ensures s[m] != '`' {
      assert s[m] == body[m - (p + |tag| + 4)];
    }
    CloseFenceAfter(s, p + |tag| + 4, p + |tag| + |body| + 4);
  }

  lemma {:induction false} BodyOf(s: string, p: nat, tag: string, body: string)
    requires p + |tag| + |body| + 7 <= |s| && s[p..p + |tag| + |body| + 7] == Fenced(tag, body)
    ensures s[p + |tag| + 4..p + |tag| + |body| + 4] == body
  {
    FencedCharsAt(s, p, tag, body);
    SliceByChars(s, p + |tag| + 4, body);
  }

  /** A block written with `Fenced` at position `p` is read back with exactly its
      body, and the scan carries on right after it. */
  lemma {:induction false} FencesAt(s: string, p: nat, tag: string, body: string, e: nat)
    requires IsTag(tag) && NoBacktick(body)
    requires p + |tag| + |body| + 7 <= e <= |s| && s[p..p + |tag| + |body| + 7] == Fenced(tag, body)
    requires forall m :: p + |tag| + |body| + 7 <= m < e ==> s[m] != '`'
    ensures Fences(s, p) == [body] + Fences(s, e)
  {
    FencedLayout(s, p, tag, body);
    NoFenceIn(s, p + |tag| + |body| + 7, e);
    FencesStep(s, p, p + |tag| + 4, p + |tag| + |body| + 4, e, body);
  }

  /** One step of the fence scan: the block found at `i`, then the scan from `e`,
      where no fence starts between the closing fence and `e`. */
  lemma {:induction false} FencesStep(s: string, i: nat, q: nat, k: nat, e: nat, body: string)
    requires i + 3 <= |s| && IndexOf(s, "```", i) == Some(i)
    requires BodyStart(s, i + 3) == q && IndexOf(s, "```", q) == Some(k)
    requires q <= k && s[q..k] == body
    requires k + 3 <= e <= |s| && forall m :: k + 3 <= m < e ==> !At(s, "```", m)
    ensures Fences(s, i) == [body] + Fences(s, e)
  {
    FencesUnfold(s, i, q, k, body);
    FencesSkip(s, k + 3, e);
    PrependSame(Fences(s, i), body, Fences(s, k + 3), Fences(s, e));
  }

  lemma {:induction false} PrependSame(all: seq<string>, body: string, tail: seq<string>, tail': seq<string>)
    requires all == [body] + tail && tail == tail'
    ensures all == [body] + tail'
  {
  }

  lemma {:induction false} FencesUnfold(s: string, i: nat, q: nat, k: nat, body: string)
    requires i + 3 <= |s| && IndexOf(s, "```", i) == Some(i)
    requires BodyStart(s, i + 3) == q && IndexOf(s, "```", q) == Some(k)
    requires q <= k && s[q..k] == body
    ensures k + 3 <= |s|
    ensures Fences(s, i) == [body] + Fences(s, k + 3)
  {
  }

  // ---------------------------------------------------------------------------
  // The `function setup(...) {` fallback
  // ---------------------------------------------------------------------------

  /** `function\s+setup\s*\([^)]*\)\s*{` at position `i`: the position after the
      brace, if it matches there. Every quantifier here is forced: the greedy runs
      are followed by characters they cannot contain. */
  function SetupHeaderEnd(s: string, i: nat): (r: Option<nat>)
    requires i <= |s|
    ensures r.Some? ==> i + 1 <= r.value <= |s| && At(s, "function", i) && s[r.value - 1] == '{'
  {
    if !At(s, "function", i) then None
    else
      var j := SkipSpace(s, i + 8);
      if j == i + 8 || !At(s, "setup", j) then None
      else ParamsEnd(s, SkipSpace(s, j + 5))
  }

  /** `\([^)]*\)\s*{` at position `k`: the position after the brace, if it matches
      there. */
  function ParamsEnd(s: string, k: nat): (r: Option<nat>)
    requires k <= |s|
    ensures r.Some? ==> k + 1 <= r.value <= |s| && s[r.value - 1] == '{'
  {
    if !At(s, "(", k) then None
    else match IndexOf(s, ")", k + 1)
      case None => None
      case Some(m) =>
        var n := SkipSpace(s, m + 1);
        if At(s, "{", n) then (assert s[n..n + 1][0] == s[n]; Some(n + 1)) else None
  }

  /** The first position at or after `from` where a blank line, a newline followed by
      `//`, or the end of the text begins (the lazy body and its lookahead). */
  function BodyEnd(s: string, from: nat): (e: nat)
    requires from <= |s|
    ensures from <= e <= |s|
    ensures e < |s| ==> At(s, "\n\n", e) || At(s, "\n//", e)
    ensures forall m :: from <= m < e ==> !At(s, "\n\n", m) && !At(s, "\n//", m)
    decreases |s| - from
  {
    if from == |s| || At(s, "\n\n", from) || At(s, "\n//", from) then from
    else BodyEnd(s, from + 1)
  }

  /** Where the leftmost match of the setup-function header at or after `from`
      starts, if any. */
  function FirstSetupHeader(s: string, from: nat): (i: Option<nat>)
    requires from <= |s|
    ensures i.Some? ==> from <= i.value <= |s| && SetupHeaderEnd(s, i.value).Some?
    ensures i.Some? ==> forall j :: from <= j < i.value ==> SetupHeaderEnd(s, j).None?
    ensures i.None? <==> forall j :: from <= j <= |s| ==> SetupHeaderEnd(s, j).None?
    decreases |s| - from
  {
    if SetupHeaderEnd(s, from).Some? then Some(from)
    else if from == |s| then None
    else FirstSetupHeader(s, from + 1)
  }

  /** The leftmost match of the setup-function pattern at or after `from`: from the
      first header to the end of its lazy body. */
  function FindSetup(s: string, from: nat): (r: Option<string>)
    requires from <= |s|
    ensures r.Some? ==> exists i :: from <= i <= |s| && SetupHeaderEnd(s, i).Some?
                                    && (forall j :: from <= j < i ==> SetupHeaderEnd(s, j).None?)
                                    && r.value == s[i..BodyEnd(s, SetupHeaderEnd(s, i).value)]
    ensures r.None? <==> forall i :: from <= i <= |s| ==> SetupHeaderEnd(s, i).None?
  {
    match FirstSetupHeader(s, from)
    case None => None
    case Some(i) => Some(s[i..BodyEnd(s, SetupHeaderEnd(s, i).value)])
  }

  // ---------------------------------------------------------------------------
  // extractCodeFromResponse
  // ---------------------------------------------------------------------------

  /** `extractCodeFromResponse`: the trimmed body of the last fenced block; failing
      that, the setup function up to the first blank line or comment line; failing
      that, the whole reply. */
  function ExtractCode(reply: string): (code: string)
    ensures Fences(reply, 0) != [] ==> code == Trim(Fences(reply, 0)[|Fences(reply, 0)| - 1])
    ensures Fences(reply, 0) == [] && FindSetup(reply, 0).Some? ==> code == FindSetup(reply, 0).value
    ensures Fences(reply, 0) == [] && FindSetup(reply, 0).None? ==> code == reply
  {
    var bodies := Fences(reply, 0);
    if bodies != [] then Trim(bodies[|bodies| - 1])
    else match FindSetup(reply, 0)
      case Some(m) => m
      case None => reply
  }

  /** A reply that is one fenced block gives back its body, trimmed. */
  lemma {:induction false} ExtractSingleBlock(tag: string, body: string)
    requires IsTag(tag) && NoBacktick(body)
    ensures ExtractCode(Fenced(tag, body)) == Trim(body)
  {
    var s := Fenced(tag, body);
    assert s[0..|s|] == s;
    FencesAt(s, 0, tag, body, |s|);
    FencesAtEnd(s);
  }

  /** With two blocks and no fence between them, the second one wins. */
  lemma {:induction false} ExtractLastBlock(tag1: string, body1: string, between: string, tag2: string, body2: string)
    requires IsTag(tag1) && NoBacktick(body1) && NoBacktick(between)
    requires IsTag(tag2) && NoBacktick(body2)
    ensures ExtractCode(Fenced(tag1, body1) + between + Fenced(tag2, body2)) == Trim(body2)
  {
    LastBlockOf(Fenced(tag1, body1) + between + Fenced(tag2, body2), tag1, body1, between, tag2, body2);
  }

  lemma {:induction false} LastBlockOf(s: string, tag1: string, body1: string, between: string, tag2: string, body2: string)
    requires IsTag(tag1) && NoBacktick(body1) && NoBacktick(between)
    requires IsTag(tag2) && NoBacktick(body2)
    requires s == Fenced(tag1, body1) + between + Fenced(tag2, body2)
    ensures ExtractCode(s) == Trim(body2)
  {
    FencedChars(tag1, body1);
    FencedChars(tag2, body2);
    assert s[0..|tag1| + |body1| + 7] == Fenced(tag1, body1);
    forall m | |tag1| + |body1| + 7 <= m < |tag1| + |body1| + 7 + |between| ensures s[m] != '`' {
      assert s[m] == between[m - (|tag1| + |body1| + 7)];
    }
    assert s[|tag1| + |body1| + 7 + |between|..|s|] == Fenced(tag2, body2);
    TwoBlocks(s, tag1, body1, |tag1| + |body1| + 7 + |between|, tag2, body2);
  }

  /** Two blocks with only backtick-free text between them, the second ending the
      text: the scan finds exactly their two bodies. */
  lemma {:induction false} TwoBlocks(s: string, tag1: string, body1: string, p: nat, tag2: string, body2: string)
    requires IsTag(tag1) && NoBacktick(body1) && IsTag(tag2) && NoBacktick(body2)
    requires |tag1| + |body1| + 7 <= p && p + |tag2| + |body2| + 7 == |s|
    requires s[0..|tag1| + |body1| + 7] == Fenced(tag1, body1)
    requires forall m :: |tag1| + |body1| + 7 <= m < p ==> s[m] != '`'
    requires s[p..|s|] == Fenced(tag2, body2)
    ensures Fences(s, 0) == [body1, body2]
  {
    FencesAt(s, 0, tag1, body1, p);
    FencesAt(s, p, tag2, body2, |s|);
    FencesAtEnd(s);
    ghost var second := Fences(s, p);
    assert second == [body2];
    assert Fences(s, 0) == [body1] + second;
  }

  /** No fence starts inside a run without backticks. */
  lemma {:induction false} NoFenceIn(s: string, lo: nat, hi: nat)
    requires hi <= |s|
    requires forall m :: lo <= m < hi ==> s[m] != '`'
    ensures forall m :: lo <= m < hi ==> !At(s, "```", m)
  {
    forall m | lo <= m < hi ensures !At(s, "```", m) {
      NotAtByChar(s, "```", m, 0);
    }
  }

  /** No block starts at the end of the text. */
  lemma {:induction false} FencesAtEnd(s: string)
    ensures Fences(s, |s|) == []
  {
    assert IndexOf(s, "```", |s|) == None;
  }

  /** A text without backticks has no fenced block. */
  lemma {:induction false} NoFences(s: string)
    requires NoBacktick(s)
    ensures Fences(s, 0) == []
  {
    forall m | 0 <= m < |s| ensures !At(s, "```", m) {
      NotAtByChar(s, "```", m, 0);
    }
  }

  /** The header text `function setup(params) {`. */
  function SetupHead(params: string): string {
    "function setup(" + params + ") {"
  }

  lemma {:induction false} SetupHeadChars(params: string)
    ensures var h := SetupHead(params);
      && |h| == |params| + 18
      && (forall t :: 0 <= t < 15 ==> h[t] == "function setup("[t])
      && (forall t :: 0 <= t < |params| ==> h[15 + t] == params[t])
      && h[15 + |params|] == ')' && h[16 + |params|] == ' ' && h[17 + |params|] == '{'
  {
  }

  /** A text that starts with a setup header matches the header pattern at 0. */
  lemma {:induction false} SetupHeaderAtStart(s: string, params: string)
    requires forall i :: 0 <= i < |params| ==> params[i] != ')'
    requires |SetupHead(params)| <= |s| && s[..|SetupHead(params)|] == SetupHead(params)
    ensures SetupHeaderEnd(s, 0) == Some(|SetupHead(params)|)
  {
    HeaderKeywords(s, params);
    HeaderParams(s, params);
    HeaderBrace(s, params);
    HeaderEndFrom(s, 0, 9, 14, 15 + |params|, 17 + |params|);
  }

  /** The characters of a text that starts with a setup header. */
  lemma {:induction false} SetupHeadAt(s: string, params: string)
    requires |SetupHead(params)| <= |s| && s[..|SetupHead(params)|] == SetupHead(params)
    ensures |params| + 18 <= |s|
    ensures forall t :: 0 <= t < 15 ==> s[t] == "function setup("[t]
    ensures forall t :: 15 <= t < 15 + |params| ==> s[t] == params[t - 15]
    ensures s[15 + |params|] == ')' && s[16 + |params|] == ' ' && s[17 + |params|] == '{'
  {
    SetupHeadChars(params);
    forall j | 0 <= j < |SetupHead(params)| ensures s[j] == SetupHead(params)[j] {
      assert s[..|SetupHead(params)|][j] == s[j];
    }
    forall t | 15 <= t < 15 + |params| ensures s[t] == params[t - 15] {
      assert s[15 + (t - 15)] == SetupHead(params)[15 + (t - 15)];
    }
  }

  lemma {:induction false} HeaderKeywords(s: string, params: string)
    requires |SetupHead(params)| <= |s| && s[..|SetupHead(params)|] == SetupHead(params)
    ensures At(s, "function", 0) && SkipSpace(s, 8) == 9 && At(s, "setup", 9)
    ensures SkipSpace(s, 14) == 14 && At(s, "(", 14)
  {
    SetupHeadAt(s, params);
    AtByChars(s, "function", 0);
    assert !IsSpace(s[9]);
    assert SkipSpace(s, 9) == 9;
    AtByChars(s, "setup", 9);
    AtByChars(s, "(", 14);
  }

  lemma {:induction false} HeaderParams(s: string, params: string)
    requires forall i :: 0 <= i < |params| ==> params[i] != ')'
    requires |SetupHead(params)| <= |s| && s[..|SetupHead(params)|] == SetupHead(params)
    ensures IndexOf(s, ")", 15) == Some(15 + |params|)
  {
    SetupHeadAt(s, params);
    forall t | 15 <= t < 15 + |params| ensures !At(s, ")", t) {
      NotAtByChar(s, ")", t, 0);
    }
    AtByChars(s, ")", 15 + |params|);
    IndexOfAt(s, ")", 15, 15 + |params|);
  }

  lemma {:induction false} HeaderBrace(s: string, params: string)
    requires |SetupHead(params)| <= |s| && s[..|SetupHead(params)|] == SetupHead(params)
    ensures SkipSpace(s, 16 + |params|) == 17 + |params| && At(s, "{", 17 + |params|)
  {
    SetupHeadAt(s, params);
    assert SkipSpace(s, 17 + |params|) == 17 + |params|;
    AtByChars(s, "{", 17 + |params|);
  }

  /** The header pattern matches at `i` when each of its parts is found in turn. */
  lemma {:induction false} HeaderEndFrom(s: string, i: nat, j: nat, k: nat, m: nat, n: nat)
    requires i <= |s| && At(s, "function", i)
    requires SkipSpace(s, i + 8) == j && j > i + 8 && At(s, "setup", j)
    requires SkipSpace(s, j + 5) == k && At(s, "(", k)
    requires IndexOf(s, ")", k + 1) == Some(m)
    requires SkipSpace(s, m + 1) == n && At(s, "{", n)
    ensures SetupHeaderEnd(s, i) == Some(n + 1)
  {
    assert ParamsEnd(s, k) == Some(n + 1);
  }

  /** The lazy body stops at the first blank line. */
  lemma {:induction false} BodyEndAtBlankLine(s: string, from: nat, e: nat)
    requires from <= e && e + 2 <= |s| && s[e] == '\n' && s[e + 1] == '\n'
    requires forall t :: from <= t < e ==> s[t] != '\n'
    ensures BodyEnd(s, from) == e
    decreases e - from
  {
    if from == e {
      AtByChars(s, "\n\n", e);
    } else {
      NotAtByChar(s, "\n\n", from, 0);
      NotAtByChar(s, "\n//", from, 0);
      BodyEndAtBlankLine(s, from + 1, e);
    }
  }

  /** Without fences, a reply that starts with a setup function followed by a blank
      line gives exactly the function's first paragraph. */
  lemma {:induction false} ExtractSetupParagraph(params: string, body: string, rest: string)
    requires forall i :: 0 <= i < |params| ==> params[i] != ')' && params[i] != '`'
    requires forall i :: 0 <= i < |body| ==> body[i] != '\n' && body[i] != '`'
    requires NoBacktick(rest)
    ensures ExtractCode(SetupHead(params) + body + "\n\n" + rest) == SetupHead(params) + body
  {
    SetupParagraphOf(SetupHead(params) + body + "\n\n" + rest, params, body, rest);
  }

  lemma {:induction false} SetupParagraphOf(s: string, params: string, body: string, rest: string)
    requires forall i :: 0 <= i < |params| ==> params[i] != ')' && params[i] != '`'
    requires forall i :: 0 <= i < |body| ==> body[i] != '\n' && body[i] != '`'
    requires NoBacktick(rest)
    requires s == SetupHead(params) + body + "\n\n" + rest
    ensures ExtractCode(s) == SetupHead(params) + body
  {
    SetupTextNoBacktick(s, params, body, rest);
    NoFences(s);
    SetupTextHead(s, params, body, rest);
    SetupHeaderAtStart(s, params);
    SetupTextBody(s, params, body, rest);
    BodyEndAtBlankLine(s, |params| + 18, |params| + 18 + |body|);
    FindSetupAtStart(s, |params| + 18, |params| + 18 + |body|);
  }

  lemma {:induction false} SetupTextNoBacktick(s: string, params: string, body: string, rest: string)
    requires forall i :: 0 <= i < |params| ==> params[i] != '`'
    requires forall i :: 0 <= i < |body| ==> body[i] != '`'
    requires NoBacktick(rest)
    requires s == SetupHead(params) + body + "\n\n" + rest
    ensures NoBacktick(s)
  {
    SetupHeadChars(params);
    forall i | 0 <= i < |s| ensures s[i] != '`' {
      if i < |params| + 18 {
        assert s[i] == SetupHead(params)[i];
        if 15 <= i < 15 + |params| {
          assert s[i] == params[i - 15];
        }
      } else if i < |params| + 18 + |body| {
        assert s[i] == body[i - (|params| + 18)];
      } else if i >= |params| + 20 + |body| {
        assert s[i] == rest[i - (|params| + 20 + |body|)];
      }
    }
  }

  lemma {:induction false} SetupTextHead(s: string, params: string, body: string, rest: string)
    requires s == SetupHead(params) + body + "\n\n" + rest
    ensures |SetupHead(params)| <= |s| && s[..|SetupHead(params)|] == SetupHead(params)
    ensures s[0..|SetupHead(params)| + |body|] == SetupHead(params) + body
  {
    assert s[..|SetupHead(params)|] == SetupHead(params);
    assert s[0..|SetupHead(params)| + |body|] == SetupHead(params) + body;
  }

  lemma {:induction false} SetupTextBody(s: string, params: string, body: string, rest: string)
    requires forall i :: 0 <= i < |body| ==> body[i] != '\n'
    requires s == SetupHead(params) + body + "\n\n" + rest
    ensures |params| + 20 + |body| <= |s|
    ensures s[|params| + 18 + |body|] == '\n' && s[|params| + 19 + |body|] == '\n'
    ensures forall t :: |params| + 18 <= t < |params| + 18 + |body| ==> s[t] != '\n'
  {
    SetupHeadChars(params);
    forall t | |params| + 18 <= t < |params| + 18 + |body| ensures s[t] != '\n' {
      assert s[t] == body[t - (|params| + 18)];
    }
  }

  /** A match at the very start is the leftmost one. */
  lemma {:induction false} FindSetupAtStart(s: string, h: nat, e: nat)
    requires h <= |s| && SetupHeaderEnd(s, 0) == Some(h) && e <= |s| && BodyEnd(s, h) == e
    ensures FindSetup(s, 0) == Some(s[0..e])
  {
  }

  // ---------------------------------------------------------------------------
  // extractExplanation
  // ---------------------------------------------------------------------------

  /** "function", white space, "setup" at position `p`. */
  predicate SetupKeywordAt(s: string, p: nat) {
    At(s, "function", p) && SkipSpace(s, p + 8) > p + 8 && At(s, "setup", SkipSpace(s, p + 8))
  }

  /** A fence or the setup keyword at position `p`. */
  predicate MarkerAt(s: string, p: nat) {
    At(s, "```", p) || SetupKeywordAt(s, p)
  }

  /** The lazy prefix of `^([\s\S]*?)(?:```|function\s+setup)`: the first marker
      position at or after `from`. */
  function FirstMarker(s: string, from: nat): (r: Option<nat>)
    requires from <= |s|
    ensures r.Some? ==> from <= r.value < |s| && MarkerAt(s, r.value)
    ensures r.Some? ==> forall p :: from <= p < r.value ==> !MarkerAt(s, p)
    ensures r.None? ==> forall p :: from <= p <= |s| ==> !MarkerAt(s, p)
    decreases |s| - from
  {
    if MarkerAt(s, from) then Some(from)
    else if from == |s| then None
    else FirstMarker(s, from + 1)
  }

  /** The first marker is the one at `n` when none comes before it. */
  lemma {:induction false} FirstMarkerIs(s: string, from: nat, n: nat)
    requires from <= n < |s| && MarkerAt(s, n)
    requires forall p :: from <= p < n ==> !MarkerAt(s, p)
    ensures FirstMarker(s, from) == Some(n)
  {
  }

  /** `/^Here's\s+/i`: "here's" in any letter case, then white space. */
  function StripHeres(t: string): (r: string)
    ensures |r| <= |t|
  {
    if |t| > 6 && ToLower(t[..6]) == "here's" && IsSpace(t[6]) then t[SkipSpace(t, 6)..] else t
  }

  /** `/^This\s+is\s+/i`. */
  function StripThisIs(t: string): (r: string)
    ensures |r| <= |t|
  {
    if |t| > 4 && ToLower(t[..4]) == "this" && IsSpace(t[4]) then
      var j := SkipSpace(t, 4);
      if j + 2 < |t| && ToLower(t[j..j + 2]) == "is" && IsSpace(t[j + 2]) then t[SkipSpace(t, j + 2)..]
      else t
    else t
  }

  /** `/\/\/\s*(.+)/` at a position holding "//": the captured text and where the
      match ends. The white space run is greedy and may cross lines; when it runs to
      the end of the text, the engine backs off to the last character that is not a
      line terminator, and the capture is that single character. */
  function CommentAt(s: string, i: nat): (r: Option<(string, nat)>)
    requires At(s, "//", i)
    ensures r.Some? ==> i + 2 < r.value.1 <= |s| && r.value.0 != []
    ensures r.Some? ==> forall k :: 0 <= k < |r.value.0| ==> !IsLineTerminator(r.value.0[k])
  {
    var j := SkipSpace(s, i + 2);
    if j < |s| then
      var e := LineEnd(s, j);
      Some((s[j..e], e))
    else
      match LastNonTerminator(s, i + 2, |s|)
      case None => None
      case Some(t) => Some((s[t..t + 1], t + 1))
  }

  /** The end of the line holding position `from` (`.+` stops at a line terminator). */
  function LineEnd(s: string, from: nat): (e: nat)
    requires from < |s| && !IsLineTerminator(s[from])
    ensures from < e <= |s|
    ensures forall k :: from <= k < e ==> !IsLineTerminator(s[k])
    ensures e < |s| ==> IsLineTerminator(s[e])
    decreases |s| - from
  {
    if from + 1 == |s| || IsLineTerminator(s[from + 1]) then from + 1 else LineEnd(s, from + 1)
  }

  /** The last position in `[lo, hi)` that is not a line terminator. */
  function LastNonTerminator(s: string, lo: nat, hi: nat): (r: Option<nat>)
    requires lo <= hi <= |s|
    ensures r.Some? ==> lo <= r.value < hi && !IsLineTerminator(s[r.value])
    ensures r.Some? ==> forall k :: r.value < k < hi ==> IsLineTerminator(s[k])
    ensures r.None? ==> forall k :: lo <= k < hi ==> IsLineTerminator(s[k])
    decreases hi - lo
  {
    if hi == lo then None
    else if !IsLineTerminator(s[hi - 1]) then Some(hi - 1)
    else LastNonTerminator(s, lo, hi - 1)
  }

  /** All captures of `/\/\/\s*(.+)/g` from `from` on. A position where the pattern
      fails is skipped by one character; a match resumes after its end. */
  function Comments(s: string, from: nat): (cs: seq<string>)
    requires from <= |s|
    ensures forall k :: 0 <= k < |cs| ==> cs[k] != []
    ensures forall k, m :: 0 <= k < |cs| && 0 <= m < |cs[k]| ==> !IsLineTerminator(cs[k][m])
    decreases |s| - from
  {
    match IndexOf(s, "//", from)
    case None => []
    case Some(i) =>
      match CommentAt(s, i)
      case None => Comments(s, i + 1)
      case Some((c, e)) => [c] + Comments(s, e)
  }

  const DefaultExplanation: string := "p5.js animation code generated based on your request."

  /** `extractExplanation` as written: the text before the first marker when that
      text is not empty (even if it is only white space), trimmed and with a
      leading "Here's" and then "This is" removed; otherwise the comments joined by
      spaces; otherwise a fixed sentence. */
  function ExtractExplanationAsWritten(reply: string): (r: string)
    ensures match FirstMarker(reply, 0)
            case Some(p) => p > 0 ==> r == StripThisIs(StripHeres(Trim(reply[..p])))
            case None => true
    ensures (FirstMarker(reply, 0).None? || FirstMarker(reply, 0) == Some(0)) ==>
              r == (if Comments(reply, 0) != [] then Join(Comments(reply, 0), " ") else DefaultExplanation)
  {
    match FirstMarker(reply, 0)
    case Some(p) =>
      if p > 0 then StripThisIs(StripHeres(Trim(reply[..p]))) else FromComments(reply)
    case None => FromComments(reply)
  }

  function FromComments(reply: string): (r: string)
    ensures r != []
  {
    var cs := Comments(reply, 0);
    if cs != [] then JoinNonEmpty(cs, " "); Join(cs, " ") else DefaultExplanation
  }

  lemma {:induction false} JoinNonEmpty(parts: seq<string>, sep: string)
    requires parts != [] && parts[0] != []
    ensures Join(parts, sep) != []
  {
    assert |Join(parts, sep)| >= |parts[0]|;
  }

  /** A reply that opens with white space and then a fence is explained by the
      empty string: the white space counts as text before the code. The intended
      reading falls back to the fixed sentence. */
  lemma {:induction false} AsWrittenBlankIntro()
    ensures ExtractExplanationAsWritten("\n```x```") == ""
    ensures ExtractExplanation("\n```x```") == DefaultExplanation
  {
    var s := "\n```x```";
    NotAtByChar(s, "```", 0, 0);
    NotAtByChar(s, "function", 0, 0);
    AtByChars(s, "```", 1);
    assert FirstMarker(s, 0) == Some(1);
    assert s[..1] == "\n";
    assert Trim("\n") == [];
    forall m | 0 <= m < |s| ensures !At(s, "//", m) {
      NotAtByChar(s, "//", m, 0);
    }
    assert Comments(s, 0) == [];
  }

  /** A reply that opens with a fence has no introduction. */
  lemma {:induction false} FencedHasNoIntro(tag: string, body: string)
    ensures !BlankIntro(Fenced(tag, body))
  {
    var s := Fenced(tag, body);
    assert s[0] == '`' && s[1] == '`' && s[2] == '`';
    AtByChars(s, "```", 0);
    assert MarkerAt(s, 0);
  }

  /** A newline and then one fenced block: the code is the block's body, trimmed,
      and the introduction before the fence is blank. */
  lemma {:induction false} BlankIntroCode(tag: string, body: string)
    requires IsTag(tag) && NoBacktick(body)
    ensures ExtractCode("\n" + Fenced(tag, body)) == Trim(body)
    ensures BlankIntro("\n" + Fenced(tag, body))
  {
    var s := "\n" + Fenced(tag, body);
    assert s[1..1 + |tag| + |body| + 7] == Fenced(tag, body);
    FencesAt(s, 1, tag, body, |s|);
    FencesAtEnd(s);
    NotAtByChar(s, "```", 0, 0);
    FencesSkip(s, 0, 1);
    NotAtByChar(s, "function", 0, 0);
    AtByChars(s, "```", 1);
    FirstMarkerIs(s, 0, 1);
    assert s[..1] == "\n";
    assert Trim("\n") == [];
  }

  /** `extractExplanation` as evidently intended: text before the first marker is
      used only when something other than white space precedes it. */
  function ExtractExplanation(reply: string): (r: string)
    ensures match FirstMarker(reply, 0)
            case Some(p) => Trim(reply[..p]) != [] ==> r == StripThisIs(StripHeres(Trim(reply[..p])))
            case None => true
  {
    match FirstMarker(reply, 0)
    case Some(p) =>
      var intro := Trim(reply[..p]);
      if intro != [] then StripThisIs(StripHeres(intro)) else FromComments(reply)
    case None => FromComments(reply)
  }

  /** After trimming, removing "Here's" or "This is" never empties the text: each
      pattern needs white space after it, and trimmed text ends with something else. */
  lemma {:induction false} StripKeepsText(t: string)
    requires t != [] && !IsSpace(t[0]) && !IsSpace(t[|t| - 1])
    ensures var u := StripHeres(t);
      u != [] && !IsSpace(u[0]) && !IsSpace(u[|u| - 1])
    ensures StripThisIs(StripHeres(t)) != []
  {
    var u := StripHeres(t);
    if |t| > 6 && ToLower(t[..6]) == "here's" && IsSpace(t[6]) {
      var k := SkipSpace(t, 6);
      assert k < |t|;
    }
    if |u| > 4 && ToLower(u[..4]) == "this" && IsSpace(u[4]) {
      var j := SkipSpace(u, 4);
      if j + 2 < |u| && ToLower(u[j..j + 2]) == "is" && IsSpace(u[j + 2]) {
        var k := SkipSpace(u, j + 2);
        assert k < |u|;
      }
    }
  }

  /** The intended explanation is never empty. */
  lemma {:induction false} ExplanationNonEmpty(reply: string)
    ensures ExtractExplanation(reply) != []
  {
    match FirstMarker(reply, 0)
    case Some(p) =>
      var intro := Trim(reply[..p]);
      if intro != [] {
        StripKeepsText(intro);
      }
    case None =>
  }

  /** The two versions differ exactly on a non-empty introduction that is all
      white space, where the version as written gives the empty string. */
  lemma {:induction false} ExplanationVersionsAgree(reply: string)
    ensures ExtractExplanation(reply) != ExtractExplanationAsWritten(reply) <==>
              BlankIntro(reply)
    ensures BlankIntro(reply) ==> ExtractExplanationAsWritten(reply) == []
  {
    ExplanationNonEmpty(reply);
    if BlankIntro(reply) {
      assert Trim(reply[..FirstMarker(reply, 0).value]) == [];
      assert StripHeres([]) == [] && StripThisIs([]) == [];
    }
  }

  /** Something precedes the first marker, and all of it is white space. */
  predicate BlankIntro(reply: string) {
    FirstMarker(reply, 0).Some? && FirstMarker(reply, 0).value > 0
    && Trim(reply[..FirstMarker(reply, 0).value]) == []
  }

  /** "Here's" in any letter case, then white space, is dropped. */
  lemma {:induction false} StripHeresOf(t: string)
    requires t != [] && !IsSpace(t[0])
    ensures StripHeres("Here's " + t) == t
    ensures StripHeres("HERE'S " + t) == t
  {
    var a := "Here's " + t;
    var b := "HERE'S " + t;
    assert a[..6] == "Here's" && b[..6] == "HERE'S";
    assert ToLower("Here's") == "here's";
    assert ToLower("HERE'S") == "here's";
    assert SkipSpace(a, 7) == 7 && SkipSpace(b, 7) == 7;
    assert a[7..] == t && b[7..] == t;
  }

  /** "This is" in any letter case, then white space, is dropped. */
  lemma {:induction false} StripThisIsOf(t: string)
    requires t != [] && !IsSpace(t[0])
    ensures StripThisIs("This is " + t) == t
    ensures StripThisIs("THIS IS " + t) == t
  {
    var a := "This is " + t;
    var b := "THIS IS " + t;
    assert a[..4] == "This" && b[..4] == "THIS";
    assert ToLower("This") == "this" && ToLower("THIS") == "this";
    assert SkipSpace(a, 5) == 5 && SkipSpace(b, 5) == 5;
    assert a[5..7] == "is" && b[5..7] == "IS";
    assert ToLower("is") == "is" && ToLower("IS") == "is";
    assert SkipSpace(a, 8) == 8 && SkipSpace(b, 8) == 8;
    assert a[8..] == t && b[8..] == t;
  }

  /** A sentence with no fence or "function" in it, then a fence: the sentence is
      the explanation. */
  lemma {:induction false} ExplainBeforeFence(intro: string, rest: string)
    requires NoBacktick(intro) && !Includes(intro, "function")
    requires Trim(intro) != []
    ensures ExtractExplanation(intro + "```" + rest) == StripThisIs(StripHeres(Trim(intro)))
  {
    var s := intro + "```" + rest;
    var n := |intro|;
    forall p | 0 <= p < n ensures !MarkerAt(s, p) {
      assert s[p] == intro[p];
      NotAtByChar(s, "```", p, 0);
      if p + 8 <= n {
        assert !At(intro, "function", p);
        assert s[p..p + 8] == intro[p..p + 8];
      } else if p + 8 <= |s| {
        assert s[n] == '`';
        NotAtByChar(s, "function", p, n - p);
      }
    }
    AtByChars(s, "```", n);
    FirstMarkerIs(s, 0, n);
    assert s[..n] == intro;
  }

  /** Without any marker, one comment line is the explanation. */
  lemma {:induction false} ExplainComment(text: string)
    requires text != [] && !IsSpace(text[0])
    requires forall k :: 0 <= k < |text| ==> !IsLineTerminator(text[k])
    requires forall p :: 0 <= p <= |"//" + text| ==> !MarkerAt("//" + text, p)
    ensures ExtractExplanation("//" + text) == text
  {
    var s := "//" + text;
    AtByChars(s, "//", 0);
    assert IndexOf(s, "//", 0) == Some(0);
    assert s[2] == text[0];
    assert SkipSpace(s, 2) == 2;
    forall k | 2 <= k < |s| ensures !IsLineTerminator(s[k]) {
      assert s[k] == text[k - 2];
    }
    LineEndToEnd(s, 2);
    assert s[2..|s|] == text;
    assert CommentAt(s, 0) == Some((text, |s|));
    assert Comments(s, |s|) == [];
    assert Comments(s, 0) == [text];
  }

  lemma {:induction false} LineEndToEnd(s: string, from: nat)
    requires from < |s|
    requires forall k :: from <= k < |s| ==> !IsLineTerminator(s[k])
    ensures LineEnd(s, from) == |s|
    decreases |s| - from
  {
    if from + 1 < |s| {
      LineEndToEnd(s, from + 1);
    }
  }
}

=== FILE: dtos.dfy ===
/** The request bodies of the AI routes and their declared validation rules: a
    JSON body is first turned into the DTO (defaults filled in, `@Transform` trims
    run) and then checked property by property. Each DTO is a standalone
    validator. */
module Dtos {
  import opened Wrappers
  import opened Text

  /** A parsed JSON value. Numbers are finite. */
  datatype Json =
    | JNull
    | JBool(b: bool)
    | JNum(n: real)
    | JStr(s: string)
    | JArr(items: seq<Json>)
    | JObj(fields: map<string, Json>)

  /** Why one property is not accepted: its validators reject it, or its
      `value.trim()` transform throws because the value is not a string. */
  datatype FieldError = Rejected | Throws

  /** The outcome of transforming then validating a body: the DTO, the properties
      that failed validation (in declaration order), or an exception thrown while
      transforming. */
  datatype Outcome<T> = Valid(dto: T) | Invalid(properties: seq<string>) | TransformThrew

  /** A string with no white space at either end: what a trim produces. */
  predicate Trimmed(s: string) {
    s != [] ==> !IsSpace(s[0]) && !IsSpace(s[|s| - 1])
  }

  /** Trimming leaves a trimmed string as it is. */
  lemma TrimFixes(s: string)
    ensures Trimmed(s) ==> Trim(s) == s
  {
    if Trimmed(s) {
      TrimOfTrimmed(s);
    }
  }

  // ---------------------------------------------------------------------------
  // Property rules
  // ---------------------------------------------------------------------------

  /** `@IsString() @Transform(({ value }) => value.trim())`: a missing property is
      not transformed and fails `IsString`; any value that is not a string (null
      included) makes `trim` throw. */
  function TrimmedString(o: map<string, Json>, key: string): (r: Result<string, FieldError>)
    ensures r.Ok? <==> key in o && o[key].JStr?
    ensures r.Ok? ==> r.value == Trim(o[key].s) && Trimmed(r.value)
    ensures r == Err(Rejected) <==> key !in o
  {
    if key !in o then Err(Rejected)
    else match o[key]
      case JStr(s) => Ok(Trim(s))
      case _ => Err(Throws)
  }

  /** What `@IsOptional() @IsNumber() @Min(lo) @Max(hi)` accepts: a missing
      property, `null`, or a number in `[lo, hi]`. */
  predicate NumberAccepted(o: map<string, Json>, key: string, lo: real, hi: real) {
    key !in o || o[key].JNull? || (o[key].JNum? && lo <= o[key].n <= hi)
  }

  /** What `@IsOptional() @IsString()` accepts. */
  predicate StringAccepted(o: map<string, Json>, key: string) {
    key !in o || o[key].JNull? || o[key].JStr?
  }

  /** The value of an optional number property once it is accepted: the initial
      value when missing, `None` for `null`, the number itself otherwise. */
  function OptionalNumber(o: map<string, Json>, key: string, lo: real, hi: real, initial: real)
    : (r: Result<Option<real>, FieldError>)
    ensures r.Ok? <==> NumberAccepted(o, key, lo, hi)
    ensures r.Ok? ==> r.value == (if key in o then AsNumber(o[key]) else Some(initial))
    ensures r.Err? ==> r.error == Rejected
  {
    if key !in o then Ok(Some(initial))
    else match o[key]
      case JNull => Ok(None)
      case JNum(n) => if lo <= n <= hi then Ok(Some(n)) else Err(Rejected)
      case _ => Err(Rejected)
  }

  /** The value of an optional string property once it is accepted. */
  function OptionalString(o: map<string, Json>, key: string): (r: Result<Option<string>, FieldError>)
    ensures r.Ok? <==> StringAccepted(o, key)
    ensures r.Ok? ==> r.value == (if key in o then AsString(o[key]) else None)
    ensures r.Err? ==> r.error == Rejected
  {
    if key !in o then Ok(None)
    else match o[key]
      case JNull => Ok(None)
      case JStr(s) => Ok(Some(s))
      case _ => Err(Rejected)
  }

  function AsNumber(j: Json): Option<real> {
    if j.JNum? then Some(j.n) else None
  }

  function AsString(j: Json): Option<string> {
    if j.JStr? then Some(j.s) else None
  }

  function NumberJson(x: Option<real>): (j: Json)
    ensures AsNumber(j) == x && (j.JNull? || j.JNum?)
  {
    match x
    case Some(n) => JNum(n)
    case None => JNull
  }

  function StringJson(x: Option<string>): (j: Json)
    ensures AsString(j) == x && (j.JNull? || j.JStr?)
  {
    match x
    case Some(s) => JStr(s)
    case None => JNull
  }

  /** The name of a property when it failed, nothing when it passed. */
  function IfFailed(ok: bool, name: string): (names: seq<string>)
    ensures ok <==> names == []
    ensures !ok ==> names == [name]
  {
    if ok then [] else [name]
  }

  // ---------------------------------------------------------------------------
  // GenerateCodeContextDto
  // ---------------------------------------------------------------------------

  const Styles: seq<string> := ["modern", "classic", "abstract", "minimalist", "colorful"]

  /** A `GenerateCodeContextDto`; `None` is a property given as `null`. */
  datatype GenerateContext = GenerateContext(
    width: Option<real>, height: Option<real>, duration: Option<real>, style: Option<string>)

  /** The initial values of the class: 400 by 300, 5 seconds, modern. */
  const DefaultContext := GenerateContext(Some(400.0), Some(300.0), Some(5.0), Some("modern"))

  /** What the `style` rules accept: missing, `null`, or one of the five styles. */
  predicate StyleAccepted(o: map<string, Json>) {
    "style" !in o || o["style"].JNull? || (o["style"].JStr? && o["style"].s in Styles)
  }

  predicate ContextAccepted(o: map<string, Json>) {
    && NumberAccepted(o, "width", 100.0, 1920.0)
    && NumberAccepted(o, "height", 100.0, 1080.0)
    && NumberAccepted(o, "duration", 1.0, 60.0)
    && StyleAccepted(o)
  }

  /** Every present property of a context lies in its declared range. */
  predicate ContextInRange(c: GenerateContext) {
    && (c.width.Some? ==> 100.0 <= c.width.value <= 1920.0)
    && (c.height.Some? ==> 100.0 <= c.height.value <= 1080.0)
    && (c.duration.Some? ==> 1.0 <= c.duration.value <= 60.0)
    && (c.style.Some? ==> c.style.value in Styles)
  }

  /** The context a `GenerateCodeContextDto` instance holds once its own rules have
      passed: the initial value for each missing property, the given value
      otherwise. */
  function ContextInstance(o: map<string, Json>): (c: GenerateContext)
    ensures "width" !in o ==> c.width == DefaultContext.width
    ensures "width" in o ==> c.width == AsNumber(o["width"])
    ensures "style" !in o ==> c.style == DefaultContext.style
    ensures "style" in o ==> c.style == AsString(o["style"])
  {
    GenerateContext(
      if "width" in o then AsNumber(o["width"]) else DefaultContext.width,
      if "height" in o then AsNumber(o["height"]) else DefaultContext.height,
      if "duration" in o then AsNumber(o["duration"]) else DefaultContext.duration,
      if "style" in o then AsString(o["style"]) else DefaultContext.style)
  }

  /** `GenerateCodeContextDto` validated on its own: accepted exactly when each
      property is, and then it is the instance with its initial values filled in. */
  function ValidateContext(o: map<string, Json>): (r: Outcome<GenerateContext>)
    ensures !r.TransformThrew?
    ensures r.Valid? <==> ContextAccepted(o)
    ensures r.Valid? ==> r.dto == ContextInstance(o) && ContextInRange(r.dto)
    ensures r.Invalid? ==> r.properties != [] && forall n :: n in r.properties ==> n in {"width", "height", "duration", "style"}
  {
    var w := OptionalNumber(o, "width", 100.0, 1920.0, 400.0);
    var h := OptionalNumber(o, "height", 100.0, 1080.0, 300.0);
    var d := OptionalNumber(o, "duration", 1.0, 60.0, 5.0);
    var st := if StyleAccepted(o) then Ok(if "style" in o then AsString(o["style"]) else Some("modern"))
              else Err(Rejected);
    if w.Ok? && h.Ok? && d.Ok? && st.Ok? then
      Valid(GenerateContext(w.value, h.value, d.value, st.value))
    else
      Invalid(IfFailed(w.Ok?, "width") + IfFailed(h.Ok?, "height") + IfFailed(d.Ok?, "duration")
              + IfFailed(st.Ok?, "style"))
  }

  /** The JSON object a context is sent as, every property written out; it is
      accepted back as the same context whenever the context is in range. */
  function ContextJson(c: GenerateContext): (o: map<string, Json>)
    ensures o.Keys == {"width", "height", "duration", "style"}
    ensures ContextInRange(c) ==> ValidateContext(o) == Valid(c)
    ensures ValidateContext(o).Valid? ==> ContextInRange(c)
  {
    map["width" := NumberJson(c.width), "height" := NumberJson(c.height),
        "duration" := NumberJson(c.duration), "style" := StringJson(c.style)]
  }

  /** An empty object gets every initial value. */
  lemma ContextDefaults()
    ensures ValidateContext(map[]) == Valid(DefaultContext)
  {
    assert ContextAccepted(map[]);
  }

  /** The four properties the context class declares. */
  const ContextKeys: set<string> := {"width", "height", "duration", "style"}

  /** The instance `@Type` builds inside a `GenerateCodeDto`: the class's initial
      values, overwritten by every property of the given object as it is (wrong
      types and undeclared properties included), since nothing validates it. */
  function NestedContext(fields: map<string, Json>): (m: map<string, Json>)
    ensures m.Keys == fields.Keys + ContextKeys
    ensures forall k :: k in fields ==> m[k] == fields[k]
    ensures forall k :: k in ContextKeys && k !in fields ==> m[k] == ContextJson(DefaultContext)[k]
  {
    ContextJson(DefaultContext) + fields
  }

  /** Filling in the initial values changes nothing the context rules see: the
      nested instance, validated on its own, gives what the object gives. */
  lemma NestedContextValidatesAlike(fields: map<string, Json>)
    ensures ValidateContext(NestedContext(fields)) == ValidateContext(fields)
  {
    var m := NestedContext(fields);
    var d := ContextJson(DefaultContext);
    assert d["width"] == JNum(400.0) && d["height"] == JNum(300.0);
    assert d["duration"] == JNum(5.0) && d["style"] == JStr("modern");
    assert NumberAccepted(m, "width", 100.0, 1920.0) == NumberAccepted(fields, "width", 100.0, 1920.0);
    assert NumberAccepted(m, "height", 100.0, 1080.0) == NumberAccepted(fields, "height", 100.0, 1080.0);
    assert NumberAccepted(m, "duration", 1.0, 60.0) == NumberAccepted(fields, "duration", 1.0, 60.0);
    assert "modern" in Styles;
    assert StyleAccepted(m) == StyleAccepted(fields);
  }

  /** Filling in the initial values twice is filling them in once. */
  lemma NestedContextIdempotent(fields: map<string, Json>)
    ensures NestedContext(NestedContext(fields)) == NestedContext(fields)
  {
  }

  // ---------------------------------------------------------------------------
  // GenerateCodeDto
  // ---------------------------------------------------------------------------

  /** A `GenerateCodeDto` after transformation. */
  datatype GenerateCode = GenerateCode(
    prompt: string,
    context: Option<map<string, Json>>,
    model: Option<string>,
    temperature: Option<real>,
    maxTokens: Option<real>)

  /** What `@IsOptional() @IsObject()` accepts: missing, `null`, or an object. */
  predicate ObjectAccepted(o: map<string, Json>, key: string) {
    key !in o || o[key].JNull? || o[key].JObj?
  }

  /** `GenerateCodeDto`: the prompt is trimmed (a present non-string throws), the
      context must be an object but its own properties are neither converted nor
      checked, the model
      a string, the temperature in `[0, 2]` (0.7 initially) and `maxTokens` in
      `[100, 4000]` (2000 initially). */
  function ValidateGenerate(o: map<string, Json>): (r: Outcome<GenerateCode>)
    ensures r.TransformThrew? <==> "prompt" in o && !o["prompt"].JStr?
    ensures r.Valid? <==>
              && "prompt" in o && o["prompt"].JStr?
              && ObjectAccepted(o, "context") && StringAccepted(o, "model")
              && NumberAccepted(o, "temperature", 0.0, 2.0)
              && NumberAccepted(o, "maxTokens", 100.0, 4000.0)
    ensures r.Valid? ==> r.dto.prompt == Trim(o["prompt"].s) && Trimmed(r.dto.prompt)
    ensures r.Valid? ==> (r.dto.context.Some? <==> "context" in o && o["context"].JObj?)
    ensures r.Valid? && r.dto.context.Some? ==> r.dto.context.value == NestedContext(o["context"].fields)
    ensures r.Valid? && "temperature" !in o ==> r.dto.temperature == Some(0.7)
    ensures r.Valid? && "maxTokens" !in o ==> r.dto.maxTokens == Some(2000.0)
    ensures r.Valid? && "model" !in o ==> r.dto.model == None
  {
    var p := TrimmedString(o, "prompt");
    if p.Err? && p.error == Throws then TransformThrew
    else
      var c := if ObjectAccepted(o, "context") then
                 Ok(if "context" in o && o["context"].JObj? then Some(NestedContext(o["context"].fields)) else None)
               else Err(Rejected);
      var m := OptionalString(o, "model");
      var t := OptionalNumber(o, "temperature", 0.0, 2.0, 0.7);
      var k := OptionalNumber(o, "maxTokens", 100.0, 4000.0, 2000.0);
      if p.Ok? && c.Ok? && m.Ok? && t.Ok? && k.Ok? then
        Valid(GenerateCode(p.value, c.value, m.value, t.value, k.value))
      else
        Invalid(IfFailed(p.Ok?, "prompt") + IfFailed(c.Ok?, "context") + IfFailed(m.Ok?, "model")
                + IfFailed(t.Ok?, "temperature") + IfFailed(k.Ok?, "maxTokens"))
  }

  /** A prompt that is only white space is accepted, as the empty prompt: no rule
      asks for a non-empty prompt. */
  lemma BlankPromptAccepted(blank: string)
    requires forall i :: 0 <= i < |blank| ==> IsSpace(blank[i])
    ensures ValidateGenerate(map["prompt" := JStr(blank)]).Valid?
    ensures ValidateGenerate(map["prompt" := JStr(blank)]).dto.prompt == []
  {
    var o := map["prompt" := JStr(blank)];
    assert "prompt" in o && o["prompt"].JStr?;
  }

  /** What a valid body's DTO is guaranteed to satisfy: its prompt is trimmed, its
      numbers lie in range, and its context carries every declared property. */
  predicate GenerateInRange(d: GenerateCode) {
    && Trimmed(d.prompt)
    && (d.context.Some? ==> ContextKeys <= d.context.value.Keys)
    && (d.temperature.Some? ==> 0.0 <= d.temperature.value <= 2.0)
    && (d.maxTokens.Some? ==> 100.0 <= d.maxTokens.value <= 4000.0)
  }

  function ContextField(c: Option<map<string, Json>>): (j: Json)
    ensures c.Some? <==> j.JObj?
    ensures c.Some? ==> j.fields == c.value
  {
    match c
    case Some(x) => JObj(x)
    case None => JNull
  }

  /** The JSON body a DTO is sent as, every property written out. */
  function GenerateJson(d: GenerateCode): (o: map<string, Json>)
    ensures o.Keys == {"prompt", "context", "model", "temperature", "maxTokens"}
    ensures o["prompt"] == JStr(d.prompt)
  {
    map["prompt" := JStr(d.prompt), "context" := ContextField(d.context), "model" := StringJson(d.model),
        "temperature" := NumberJson(d.temperature), "maxTokens" := NumberJson(d.maxTokens)]
  }

  /** A DTO is accepted back from the body it is sent as exactly when its numbers
      are in range; when it is also what a valid body yields, it comes back
      unchanged, context included (a context with every declared property needs no
      initial values). */
  lemma GenerateRoundTrip(d: GenerateCode)
    ensures ValidateGenerate(GenerateJson(d)).Valid? <==>
              (0.0 <= d.temperature.GetOr(0.0) <= 2.0 && 100.0 <= d.maxTokens.GetOr(100.0) <= 4000.0)
    ensures GenerateInRange(d) ==> ValidateGenerate(GenerateJson(d)) == Valid(d)
  {
    var o := GenerateJson(d);
    TrimFixes(d.prompt);
    assert ObjectAccepted(o, "context") && StringAccepted(o, "model");
    if d.context.Some? && GenerateInRange(d) {
      assert NestedContext(o["context"].fields) == d.context.value;
    }
  }

  /** Every valid body yields a DTO of that shape. */
  lemma GenerateValidInRange(o: map<string, Json>)
    requires ValidateGenerate(o).Valid?
    ensures GenerateInRange(ValidateGenerate(o).dto)
  {
  }

  /** A context value of the wrong type passes inside a `GenerateCodeDto` and
      reaches the DTO as it was sent, although the context rules refuse it. */
  lemma WrongTypedContextPasses(prompt: string)
    ensures ValidateContext(map["width" := JStr("abc")]).Invalid?
    ensures var r := ValidateGenerate(map["prompt" := JStr(prompt), "context" := JObj(map["width" := JStr("abc")])]);
      r.Valid? && r.dto.context.Some? && r.dto.context.value["width"] == JStr("abc")
  {
    var o := map["prompt" := JStr(prompt), "context" := JObj(map["width" := JStr("abc")])];
    assert "prompt" in o && o["prompt"].JStr? && ObjectAccepted(o, "context");
    assert "width" in NestedContext(o["context"].fields);
  }

  // ---------------------------------------------------------------------------
  // ChatDto and ChatMessageDto
  // ---------------------------------------------------------------------------

  const Roles: seq<string> := ["user", "assistant"]

  /** A `ChatMessageDto`. */
  datatype ChatMessage = ChatMessage(role: string, content: string)

  /** `ChatMessageDto` validated on its own: the role is `user` or `assistant` (so
      `system` is refused) and the content is a string. */
  function ValidateChatMessage(o: map<string, Json>): (r: Outcome<ChatMessage>)
    ensures !r.TransformThrew?
    ensures r.Valid? <==> "role" in o && o["role"].JStr? && o["role"].s in Roles
                          && "content" in o && o["content"].JStr?
    ensures r.Valid? ==> r.dto == ChatMessage(o["role"].s, o["content"].s) && r.dto.role != "system"
    ensures r.Invalid? ==> r.properties != [] && forall n :: n in r.properties ==> n in {"role", "content"}
  {
    var roleOk := "role" in o && o["role"].JStr? && o["role"].s in Roles;
    var contentOk := "content" in o && o["content"].JStr?;
    if roleOk && contentOk then Valid(ChatMessage(o["role"].s, o["content"].s))
    else
      Invalid(IfFailed(roleOk, "role") + IfFailed(contentOk, "content"))
  }

  /** A `ChatDto`: the trimmed message and the history entries, which `@Type` turns
      into message instances without checking them. */
  datatype Chat = Chat(message: string, history: Option<seq<Json>>)

  /** `ChatDto`: the message is trimmed (a present non-string throws); the history
      is optional and must be an array, whatever its entries. */
  function ValidateChat(o: map<string, Json>): (r: Outcome<Chat>)
    ensures r.TransformThrew? <==> "message" in o && !o["message"].JStr?
    ensures r.Valid? <==> "message" in o && o["message"].JStr?
                          && ("conversationHistory" !in o || o["conversationHistory"].JNull?
                              || o["conversationHistory"].JArr?)
    ensures r.Valid? ==> r.dto.message == Trim(o["message"].s) && Trimmed(r.dto.message)
    ensures r.Valid? ==> (r.dto.history.Some? <==> "conversationHistory" in o && o["conversationHistory"].JArr?)
    ensures r.Valid? && r.dto.history.Some? ==> r.dto.history.value == o["conversationHistory"].items
  {
    var m := TrimmedString(o, "message");
    if m.Err? && m.error == Throws then TransformThrew
    else
      var hOk := "conversationHistory" !in o || o["conversationHistory"].JNull? || o["conversationHistory"].JArr?;
      if m.Ok? && hOk then
        Valid(Chat(m.value, if "conversationHistory" in o && o["conversationHistory"].JArr?
                            then Some(o["conversationHistory"].items) else None))
      else Invalid(IfFailed(m.Ok?, "message") + IfFailed(hOk, "conversationHistory"))
  }

  /** A history entry with the `system` role passes inside a `ChatDto`, although it
      fails `ChatMessageDto` on its own: the entries are not validated. */
  lemma SystemEntryPassesInsideChat(text: string)
    ensures ValidateChatMessage(map["role" := JStr("system"), "content" := JStr(text)]).Invalid?
    ensures ValidateChat(map["message" := JStr(text),
                             "conversationHistory" := JArr([JObj(map["role" := JStr("system"), "content" := JStr(text)])])]).Valid?
  {
    var o := map["role" := JStr("system"), "content" := JStr(text)];
    assert o["role"].s !in Roles by {
      assert o["role"].s == "system";
      assert "system" != "user" && "system" != "assistant";
    }
  }

  // ---------------------------------------------------------------------------
  // ImproveCodeDto
  // ---------------------------------------------------------------------------

  datatype ImproveCode = ImproveCode(code: string, feedback: string)

  /** `ImproveCodeDto`: both properties required, both strings, both trimmed. */
  function ValidateImprove(o: map<string, Json>): (r: Outcome<ImproveCode>)
    ensures r.TransformThrew? <==> ("code" in o && !o["code"].JStr?) || ("feedback" in o && !o["feedback"].JStr?)
    ensures r.Valid? <==> "code" in o && o["code"].JStr? && "feedback" in o && o["feedback"].JStr?
    ensures r.Valid? ==> r.dto == ImproveCode(Trim(o["code"].s), Trim(o["feedback"].s))
    ensures r.Invalid? ==> r.properties == IfFailed("code" in o, "code") + IfFailed("feedback" in o, "feedback")
  {
    var c := TrimmedString(o, "code");
    var f := TrimmedString(o, "feedback");
    if (c.Err? && c.error == Throws) || (f.Err? && f.error == Throws) then TransformThrew
    else if c.Ok? && f.Ok? then Valid(ImproveCode(c.value, f.value))
    else Invalid(IfFailed(c.Ok?, "code") + IfFailed(f.Ok?, "feedback"))
  }

  /** Validating the body a valid DTO is sent as gives the same DTO: the trims are
      idempotent. */
  lemma ImproveRoundTrip(o: map<string, Json>)
    requires ValidateImprove(o).Valid?
    ensures var d := ValidateImprove(o).dto;
      ValidateImprove(map["code" := JStr(d.code), "feedback" := JStr(d.feedback)]) == Valid(d)
  {
    var d := ValidateImprove(o).dto;
    TrimIdempotent(o["code"].s);
    TrimIdempotent(o["feedback"].s);
  }
}

=== FILE: files_state.dfy ===
/** The editor's open files and the file being edited (`useFiles`). The dashboard copy
    and the older copy of the hook differ only in their default files, so one model
    serves both. */
module FilesState {
  import opened Wrappers
  import opened Text

  /** `CodeFile` (the optional `path` is never read or written here). */
  datatype CodeFile = CodeFile(id: string, name: string, language: string, content: string)

  /** The hook's state: the file list and the active file. */
  datatype Files = Files(files: seq<CodeFile>, active: CodeFile)

  /** The state the hook starts in: the default files, the first of them active. */
  function Initial(defaults: seq<CodeFile>): (s: Files)
    requires defaults != []
    ensures s.files == defaults && s.active == defaults[0]
  {
    Files(defaults, defaults[0])
  }

  /** A file with its content replaced and every other field kept. */
  function WithContent(f: CodeFile, content: string): (g: CodeFile)
    ensures g.content == content
    ensures g.(content := f.content) == f
  {
    f.(content := content)
  }

  /** `updateFile`: every file with the id gets the new content; the active file gets
      it too exactly when its id matches. */
  function UpdateFile(s: Files, id: string, content: string): (r: Files)
    ensures |r.files| == |s.files|
    ensures forall i :: 0 <= i < |s.files| && s.files[i].id != id ==> r.files[i] == s.files[i]
    ensures forall i :: 0 <= i < |s.files| && s.files[i].id == id ==> r.files[i] == WithContent(s.files[i], content)
    ensures r.active == (if s.active.id == id then WithContent(s.active, content) else s.active)
  {
    Files(UpdateAll(s.files, id, content),
          if s.active.id == id then WithContent(s.active, content) else s.active)
  }

  /** The `map` inside `updateFile`. */
  function UpdateAll(files: seq<CodeFile>, id: string, content: string): (r: seq<CodeFile>)
    ensures |r| == |files|
    ensures forall i :: 0 <= i < |files| ==>
              r[i] == if files[i].id == id then WithContent(files[i], content) else files[i]
  {
    seq(|files|, i requires 0 <= i < |files| =>
      if files[i].id == id then WithContent(files[i], content) else files[i])
  }

  /** Two updates of the same file: the second wins. */
  lemma UpdateFileOverwrites(s: Files, id: string, c1: string, c2: string)
    ensures UpdateFile(UpdateFile(s, id, c1), id, c2) == UpdateFile(s, id, c2)
  {
  }

  /** An update for an id no file has changes only the active file, and that only
      when it carries the id. */
  lemma UpdateMissingId(s: Files, id: string, content: string)
    requires forall i :: 0 <= i < |s.files| ==> s.files[i].id != id
    requires s.active.id != id
    ensures UpdateFile(s, id, content) == s
  {
  }

  /** `addFile`: a new file with an id made from the clock (`Date.now().toString()`)
      appended at the end; the active file is untouched. The new file is also
      returned. */
  function AddFile(s: Files, name: string, language: string, content: string, now: nat): (r: (Files, CodeFile))
    ensures r.1 == CodeFile(NatToString(now), name, language, content)
    ensures |r.0.files| == |s.files| + 1
    ensures r.0.files[..|s.files|] == s.files && r.0.files[|s.files|] == r.1
    ensures r.0.active == s.active
  {
    var f := CodeFile(NatToString(now), name, language, content);
    assert (s.files + [f])[..|s.files|] == s.files;
    (Files(s.files + [f], s.active), f)
  }

  /** Two files added in the same millisecond share an id. */
  lemma AddSameMillisecond(s: Files, f: CodeFile, g: CodeFile, now: nat)
    ensures var (s1, a) := AddFile(s, f.name, f.language, f.content, now);
            var (s2, b) := AddFile(s1, g.name, g.language, g.content, now);
            a.id == b.id && s2.files[|s.files|].id == s2.files[|s.files| + 1].id
  {
  }

  /** `files.filter(file => file.id !== fileId)`. */
  function Remaining(files: seq<CodeFile>, id: string): (r: seq<CodeFile>)
    ensures forall f :: f in r <==> f in files && f.id != id
    ensures |r| <= |files|
    decreases |files|
  {
    if files == [] then []
    else
      var rest := Remaining(files[1..], id);
      assert forall f :: f in files <==> f == files[0] || f in files[1..];
      if files[0].id != id then [files[0]] + rest else rest
  }

  /** `deleteFile`: every file with the id is removed. When the active file has that
      id and the list held more than one file, the first remaining file becomes
      active; if no file remains (all of them carried the id) the active file
      becomes `undefined`, shown as `None`. Deleting the only file leaves the active
      file pointing at the removed file. */
  function DeleteFile(s: Files, id: string): (r: Option<Files>)
    ensures r.None? <==> s.active.id == id && |s.files| > 1 && Remaining(s.files, id) == []
    ensures r.Some? ==> r.value.files == Remaining(s.files, id)
    ensures r.Some? && s.active.id == id && |s.files| > 1 ==> r.value.active == Remaining(s.files, id)[0]
    ensures r.Some? && (s.active.id != id || |s.files| <= 1) ==> r.value.active == s.active
  {
    var rest := Remaining(s.files, id);
    if s.active.id == id && |s.files| > 1 then
      if rest == [] then None else Some(Files(rest, rest[0]))
    else Some(Files(rest, s.active))
  }

  /** No two files share an id. */
  predicate DistinctIds(files: seq<CodeFile>) {
    forall i, j :: 0 <= i < j < |files| ==> files[i].id != files[j].id
  }

  /** With distinct ids and more than one file some file survives the delete, so the
      active file stays defined; and the new active file does not carry the id. */
  lemma DeleteKeepsActiveDefined(s: Files, id: string)
    requires DistinctIds(s.files) && |s.files| > 1
    ensures DeleteFile(s, id).Some?
    ensures s.active.id == id ==> DeleteFile(s, id).value.active.id != id
  {
    var k := if s.files[0].id != id then 0 else 1;
    assert s.files[k] in s.files;
    assert s.files[k] in Remaining(s.files, id);
    if s.active.id == id {
      var rest := Remaining(s.files, id);
      assert rest[0] in rest;
    }
  }

  /** Two files with the same id, one of them active: deleting that id leaves no
      active file. */
  lemma DeleteDuplicatesLosesActive(f: CodeFile, g: CodeFile)
    requires f.id == g.id
    ensures DeleteFile(Files([f, g], f), f.id) == None
  {
    assert Remaining([f, g], f.id) == [] by {
      assert [f, g][1..] == [g];
      assert Remaining([g], f.id) == [] by { assert [g][1..] == []; }
    }
  }

  /** Deleting the only file keeps it as the active file although it is gone from
      the list. */
  lemma DeleteOnlyFileKeepsActive(f: CodeFile)
    ensures DeleteFile(Files([f], f), f.id) == Some(Files([], f))
  {
    assert [f][1..] == [];
  }
}

=== FILE: message_input.dfy ===
/** The chat input boxes: the dashboard's, which also tells the chat whether the
    message is a command, and the older one, which checks the `disabled` flag in its
    handler. */
module MessageInput {
  import opened Wrappers
  import opened Text

  /** What a send attempt produces: the text left in the box and, if a message went
      out, its content and its command flag. */
  datatype Sent = Sent(content: string, isCommand: bool)
  datatype Outcome = Outcome(input: string, sent: Option<Sent>)

  /** `inputMessage.trim().startsWith('/animate') || … startsWith('/generate')`. */
  predicate IsCommand(input: string) {
    StartsWith(Trim(input), "/animate") || StartsWith(Trim(input), "/generate")
  }

  /** The dashboard's `handleSendMessage`: a blank box sends nothing and is kept as
      it is; otherwise the untrimmed text goes out with its command flag and the box
      is cleared. */
  function SendDashboard(input: string): (o: Outcome)
    ensures o.sent.Some? <==> Trim(input) != []
    ensures o.sent.Some? ==> o.sent.value.content == input && o.input == []
    ensures o.sent.Some? ==> (o.sent.value.isCommand <==> IsCommand(input))
    ensures o.sent.None? ==> o.input == input
  {
    if Trim(input) != [] then Outcome([], Some(Sent(input, IsCommand(input))))
    else Outcome(input, None)
  }

  /** The older `handleSendMessage`: nothing goes out while the input is blank or the
      box is disabled; a send clears the box. */
  function SendPlain(input: string, disabled: bool): (o: Outcome)
    ensures o.sent.Some? <==> Trim(input) != [] && !disabled
    ensures o.sent.Some? ==> o.sent.value.content == input && o.input == []
    ensures o.sent.None? ==> o.input == input
  {
    if Trim(input) == [] || disabled then Outcome(input, None)
    else Outcome([], Some(Sent(input, false)))
  }

  /** The key handlers of both boxes: Enter without Shift sends (and the newline is
      suppressed); every other key leaves the box to the browser. */
  function KeyDown(key: string, shift: bool, input: string, send: string -> Outcome): (o: Outcome)
    ensures key == "Enter" && !shift ==> o == send(input)
    ensures !(key == "Enter" && !shift) ==> o == Outcome(input, None)
  {
    if key == "Enter" && !shift then send(input) else Outcome(input, None)
  }

  /** The send button's `disabled` attribute in both boxes. */
  predicate ButtonDisabled(disabled: bool, input: string) {
    disabled || Trim(input) == []
  }

  /** Whenever the button can be clicked, a click sends, in both boxes. */
  lemma ButtonAgreesWithHandlers(disabled: bool, input: string)
    ensures !ButtonDisabled(disabled, input) ==> SendDashboard(input).sent.Some?
    ensures !ButtonDisabled(disabled, input) <==> SendPlain(input, disabled).sent.Some?
  {
  }

  /** Surrounding white space changes neither whether a message is sent nor
      whether it is a command. */
  lemma CommandIgnoresPadding(input: string)
    ensures IsCommand(Trim(input)) == IsCommand(input)
    ensures (Trim(Trim(input)) != []) == (Trim(input) != [])
  {
    TrimIdempotent(input);
  }

  /** The command test is a prefix test: "/animated", or "/animate" followed by
      anything that does not end in white space, counts as a command. */
  lemma CommandIsPrefixTest(rest: string)
    requires rest == [] || !IsSpace(rest[|rest| - 1])
    ensures IsCommand("/animate" + rest)
  {
    var s := "/animate" + rest;
    TrimOfTrimmed(s);
    assert s[0..8] == "/animate";
  }

  /** A send followed by a second send on the cleared box sends nothing more. */
  lemma SendThenBlank(input: string)
    requires Trim(input) != []
    ensures SendDashboard(SendDashboard(input).input).sent.None?
  {
    assert Trim([]) == [];
  }
}

=== FILE: panels.dfy ===
/** The resizable panels of the editor: the file explorer and the collapsible
    sidebars, which are dragged in pixels, and the two-pane layout, which is dragged
    in percent; plus the explorer's search filter and file icons. */
module Panels {
  import opened Wrappers
  import opened Text
  import opened Sequences
  import FilesState

  /** `Math.max(lo, Math.min(hi, v))`. */
  function Clamp(lo: real, hi: real, v: real): (r: real)
    ensures lo <= r
    ensures lo <= hi ==> r <= hi
    ensures lo <= v <= hi ==> r == v
    ensures v < lo ==> r == lo
    ensures lo <= hi < v ==> r == hi
  {
    var m := if hi <= v then hi else v;
    if lo >= m then lo else m
  }

  /** Clamping a value already clamped changes nothing. */
  lemma ClampIdempotent(lo: real, hi: real, v: real)
    requires lo <= hi
    ensures Clamp(lo, hi, Clamp(lo, hi, v)) == Clamp(lo, hi, v)
  {
  }

  // ---------------------------------------------------------------------------
  // FileExplorer and CollapsibleSidebar: pixel widths
  // ---------------------------------------------------------------------------

  /** Which edge the panel sits at: a left panel grows when dragged right, a right
      panel when dragged left. The file explorer behaves as a left panel. */
  datatype Side = LeftSide | RightSide

  /** A draggable panel: its width, whether a drag is under way, the pointer
      position and the width when the drag began, and whether it is collapsed. */
  datatype Panel = Panel(side: Side, minWidth: real, maxWidth: real, width: real,
                         dragging: bool, startX: real, startWidth: real, collapsed: bool)

  /** A fresh panel: default width, not dragging, not collapsed unless asked. */
  function NewPanel(side: Side, defaultWidth: real, minWidth: real, maxWidth: real, collapsed: bool): (p: Panel)
    ensures p.width == defaultWidth && !p.dragging && p.collapsed == collapsed
  {
    Panel(side, minWidth, maxWidth, defaultWidth, false, 0.0, 0.0, collapsed)
  }

  /** The explorer's defaults: 250 wide, between 200 and 400. */
  const ExplorerDefault := NewPanel(LeftSide, 250.0, 200.0, 400.0, false)

  /** The sidebar's defaults: 256 wide, between 200 and 400. */
  function SidebarDefault(side: Side): Panel {
    NewPanel(side, 256.0, 200.0, 400.0, false)
  }

  /** The pointer events a panel reacts to. */
  datatype PointerEvent = MouseDown(x: real) | MouseMove(x: real) | MouseUp | ToggleCollapse

  /** `handleMouseDown`, `handleMouseMove`, `handleMouseUp` and `toggleCollapse`. */
  function Step(p: Panel, e: PointerEvent): (r: Panel)
    ensures e.MouseMove? && !p.dragging ==> r == p
    ensures e.MouseMove? && p.dragging ==> r.(width := p.width) == p
    ensures e.MouseMove? && p.dragging && p.minWidth <= p.maxWidth ==> p.minWidth <= r.width <= p.maxWidth
    ensures e.MouseMove? && p.dragging && p.minWidth <= DraggedWidth(p, e.x) <= p.maxWidth ==>
              r.width == DraggedWidth(p, e.x)
    ensures e.MouseDown? ==> r.dragging && r.startX == e.x && r.startWidth == p.width && r.width == p.width
    ensures e.MouseDown? ==> r.(dragging := p.dragging, startX := p.startX, startWidth := p.startWidth) == p
    ensures e.MouseUp? ==> !r.dragging && r.(dragging := p.dragging) == p
    ensures e.ToggleCollapse? ==> r.collapsed != p.collapsed && r.(collapsed := p.collapsed) == p
  {
    match e
    case MouseDown(x) => p.(dragging := true, startX := x, startWidth := p.width)
    case MouseMove(x) =>
      if !p.dragging then p
      else p.(width := Clamp(p.minWidth, p.maxWidth, DraggedWidth(p, x)))
    case MouseUp => p.(dragging := false)
    case ToggleCollapse => p.(collapsed := !p.collapsed)
  }

  /** The unclamped width for the pointer at `x`: the start width plus the distance
      moved on a left panel, minus it on a right panel. */
  function DraggedWidth(p: Panel, x: real): (w: real)
    ensures p.side == LeftSide ==> w - p.startWidth == x - p.startX
    ensures p.side == RightSide ==> p.startWidth - w == x - p.startX
  {
    if p.side == LeftSide then p.startWidth + (x - p.startX) else p.startWidth - (x - p.startX)
  }

  /** A left panel dragged by `dx` ends where a right panel dragged by `-dx` does. */
  lemma SidesMirror(p: Panel, dx: real)
    requires p.side == LeftSide
    ensures DraggedWidth(p, p.startX + dx) == DraggedWidth(p.(side := RightSide), p.startX - dx)
  {
  }

  /** The width is within the bounds. */
  predicate WidthInBounds(p: Panel) {
    p.minWidth <= p.width <= p.maxWidth
  }

  function Steps(p: Panel, es: seq<PointerEvent>): Panel
    decreases |es|
  {
    if es == [] then p else Steps(Step(p, es[0]), es[1..])
  }

  /** With sensible bounds, a width that starts inside them stays inside them,
      whatever the pointer does. */
  lemma {:induction false} StepsKeepWidth(p: Panel, es: seq<PointerEvent>)
    requires p.minWidth <= p.maxWidth && WidthInBounds(p)
    ensures WidthInBounds(Steps(p, es))
    ensures Steps(p, es).minWidth == p.minWidth && Steps(p, es).maxWidth == p.maxWidth
    decreases |es|
  {
    if es != [] {
      StepsKeepWidth(Step(p, es[0]), es[1..]);
    }
  }

  /** Pressing and then moving back to where the drag began restores the width. */
  lemma DragBackRestores(p: Panel, x: real)
    requires p.minWidth <= p.maxWidth && WidthInBounds(p)
    ensures Step(Step(p, MouseDown(x)), MouseMove(x)).width == p.width
  {
  }

  /** Collapsing twice restores the panel. */
  lemma ToggleTwice(p: Panel)
    ensures Step(Step(p, ToggleCollapse), ToggleCollapse) == p
  {
  }

  // ---------------------------------------------------------------------------
  // ResizableLayout: percent widths
  // ---------------------------------------------------------------------------

  /** A width in percent, or `NaN` when the pointer sits exactly on the left edge of
      a container that has no width. */
  datatype Percent = Finite(value: real) | NotANumber

  /** The new left width for the pointer at `clientX` over a container starting at
      `left` and `width` wide: the pointer's position in percent, clamped. A
      container without width makes the division infinite (clamped to an end) or
      `NaN`. */
  function LeftPercent(clientX: real, left: real, width: real, lo: real, hi: real): (p: Percent)
    requires 0.0 <= width
    ensures width > 0.0 ==> p == Finite(Clamp(lo, hi, (clientX - left) / width * 100.0))
    ensures width == 0.0 && clientX > left ==> p == Finite(if lo >= hi then lo else hi)
    ensures width == 0.0 && clientX < left ==> p == Finite(lo)
    ensures p.NotANumber? <==> width == 0.0 && clientX == left
  {
    if width > 0.0 then Finite(Clamp(lo, hi, (clientX - left) / width * 100.0))
    else if clientX > left then Finite(if lo >= hi then lo else hi)
    else if clientX < left then Finite(lo)
    else NotANumber
  }

  /** The layout's state: the left pane's width and whether a drag is under way. */
  datatype Layout = Layout(leftWidth: Percent, dragging: bool, minWidth: real, maxWidth: real)

  /** The initial left width is taken as given, not clamped; the defaults are 50,
      20 and 80. */
  function NewLayout(initialLeftWidth: real, minWidth: real, maxWidth: real): (l: Layout)
    ensures l.leftWidth == Finite(initialLeftWidth) && !l.dragging
  {
    Layout(Finite(initialLeftWidth), false, minWidth, maxWidth)
  }

  const DefaultLayout := NewLayout(50.0, 20.0, 80.0)

  /** `handleMouseMove` of the layout: ignored unless dragging. */
  function LayoutMove(l: Layout, clientX: real, left: real, width: real): (r: Layout)
    requires 0.0 <= width
    ensures !l.dragging ==> r == l
    ensures l.dragging ==> r == l.(leftWidth := LeftPercent(clientX, left, width, l.minWidth, l.maxWidth))
  {
    if !l.dragging then l
    else l.(leftWidth := LeftPercent(clientX, left, width, l.minWidth, l.maxWidth))
  }

  /** The right pane's width: `100 - leftWidth`. */
  function RightPercent(left: Percent): (p: Percent)
    ensures left.Finite? <==> p.Finite?
    ensures left.Finite? ==> left.value + p.value == 100.0
  {
    match left
    case Finite(v) => Finite(100.0 - v)
    case NotANumber => NotANumber
  }

  /** While dragging over a container with a width the left pane stays within the
      bounds and the two panes always fill the whole width. */
  lemma LayoutMoveInBounds(l: Layout, clientX: real, left: real, width: real)
    requires l.dragging && width > 0.0 && l.minWidth <= l.maxWidth
    ensures var r := LayoutMove(l, clientX, left, width);
      && r.leftWidth.Finite?
      && l.minWidth <= r.leftWidth.value <= l.maxWidth
      && l.minWidth + RightPercent(r.leftWidth).value <= 100.0 <= l.maxWidth + RightPercent(r.leftWidth).value
  {
  }

  /** A default layout may start outside its own bounds: 90 is kept as it is. */
  lemma InitialNotClamped()
    ensures NewLayout(90.0, 20.0, 80.0).leftWidth == Finite(90.0)
  {
  }

  // ---------------------------------------------------------------------------
  // FileExplorer: search and icons
  // ---------------------------------------------------------------------------

  /** The explorer's filter: a file stays when its lower-cased name contains the
      lower-cased search term. */
  predicate Matches(f: FilesState.CodeFile, term: string) {
    Includes(ToLower(f.name), ToLower(term))
  }

  /** `filteredFiles`. */
  function FilterFiles(files: seq<FilesState.CodeFile>, term: string): (r: seq<FilesState.CodeFile>)
    ensures forall f :: f in r <==> f in files && Matches(f, term)
    ensures |r| <= |files|
    decreases |files|
  {
    if files == [] then []
    else
      var rest := FilterFiles(files[1..], term);
      assert forall f :: f in files <==> f == files[0] || f in files[1..];
      if Matches(files[0], term) then [files[0]] + rest else rest
  }

  /** The filtered list keeps the files in their order. */
  lemma {:induction false} FilterInOrder(files: seq<FilesState.CodeFile>, term: string)
    ensures IsSubsequence(FilterFiles(files, term), files)
    decreases |files|
  {
    if files != [] {
      FilterInOrder(files[1..], term);
      var r := FilterFiles(files, term);
      if Matches(files[0], term) {
        assert r[1..] == FilterFiles(files[1..], term);
      } else if r != [] {
        assert r[0] in r;
      }
    }
  }

  /** An empty search keeps every file. */
  lemma {:induction false} EmptyTermKeepsAll(files: seq<FilesState.CodeFile>)
    ensures FilterFiles(files, []) == files
    decreases |files|
  {
    if files != [] {
      assert At(ToLower(files[0].name), ToLower([]), 0);
      EmptyTermKeepsAll(files[1..]);
    }
  }

  /** One past the last dot among the first `k` characters of `name` (0 when there
      is none). */
  function DotEnd(name: string, k: nat): (r: nat)
    requires k <= |name|
    ensures r <= k
    ensures forall i :: r <= i < k ==> name[i] != '.'
    ensures r > 0 ==> name[r - 1] == '.'
    decreases k
  {
    if k == 0 then 0 else if name[k - 1] == '.' then k else DotEnd(name, k - 1)
  }

  /** `name.split('.').pop()`: the text after the last dot, or the whole name when
      there is no dot. */
  function Extension(name: string): (r: string)
    ensures '.' !in r
    ensures |r| <= |name| && r == name[|name| - |r|..]
    ensures |r| < |name| ==> name[|name| - |r| - 1] == '.'
    ensures '.' !in name ==> r == name
  {
    var k := DotEnd(name, |name|);
    assert k > 0 ==> name[k - 1] in name;
    assert forall c :: c in name[k..] ==> exists i :: k <= i < |name| && name[i] == c;
    name[k..]
  }

  /** The extension of `stem.ext` is `ext`, whatever the stem holds. */
  lemma ExtensionAfterDot(stem: string, ext: string)
    requires '.' !in ext
    ensures Extension(stem + "." + ext) == ext
  {
    var name := stem + "." + ext;
    var p := |stem| + 1;
    assert name[p - 1] == '.';
    assert forall i :: p <= i < |name| ==> name[i] == ext[i - p];
    var k := DotEnd(name, |name|);
    assert k == p;
    assert name[p..] == ext;
  }

  const TypeScriptIcon: string := "\U{1F4D8}"
  const DocumentIcon: string := "\U{1F4C4}"

  /** `getFileIcon`: the blue book for `ts` and `tsx` in any case, the page for
      everything else (the `js`, `jsx` and `txt` cases give the page too). */
  function FileIcon(name: string): (icon: string)
    ensures icon == TypeScriptIcon <==> ToLower(Extension(name)) in {"ts", "tsx"}
    ensures icon == TypeScriptIcon || icon == DocumentIcon
  {
    var ext := ToLower(Extension(name));
    if ext == "ts" || ext == "tsx" then TypeScriptIcon else DocumentIcon
  }

  /** The icon depends on the extension only. */
  lemma IconByExtension(stem: string, stem': string, ext: string)
    requires '.' !in ext
    ensures FileIcon(stem + "." + ext) == FileIcon(stem' + "." + ext)
  {
    ExtensionAfterDot(stem, ext);
    ExtensionAfterDot(stem', ext);
  }

  /** A name without a dot is its own extension, so a file called "TS" gets the
      TypeScript icon. */
  lemma DotlessName()
    ensures FileIcon("TS") == TypeScriptIcon
  {
    assert ToLower("TS") == "ts";
  }
}

=== FILE: recording.dfy ===
/** The canvas recorder: start-up validation, MIME-type fallback, chunk
    accumulation, the progress timer, and how the recording promise settles.

    The browser's callbacks (`dataavailable`, `stop`, `error`, the 100 ms timer) and
    the `stopRecording` call are input events to a transition function. Time is
    given as elapsed integer milliseconds; `MediaRecorder.isTypeSupported` is a set
    of supported types. */
module Recording {
  import opened Wrappers
  import opened Text
  import ClipStore

  type Blob = ClipStore.Blob
  type byte = ClipStore.byte

  /** Default recording length in milliseconds and frame rate. */
  const DefaultDuration: int := 5000
  const DefaultFrameRate: int := 30

  /** Candidate container types, most preferred first. */
  const MimeTypes: seq<string> :=
    ["video/webm;codecs=vp9", "video/webm;codecs=vp8", "video/webm", "video/mp4"]

  /** A JavaScript number as far as the progress value needs one. */
  datatype Num = Finite(value: real) | NaN

  /** The canvas handed to `startRecording` (`None` models a missing canvas).
      `capture` is the number of video tracks `captureStream` yields, or `None`
      when `captureStream` throws. */
  datatype Canvas = Canvas(width: int, height: int, hasContext: bool, capture: Option<nat>)

  /** `RecordingOptions`; an absent field takes its default. */
  datatype Options = Options(duration: Option<int>, frameRate: Option<int>)

  /** `MediaRecorder.state` ('paused' is never entered). */
  datatype RecorderState = Active | Inactive

  /** The recording promise. */
  datatype Settlement = Pending | Resolved(blob: Blob) | Rejected(message: string)

  /** One recording after a successful start: the hook's visible state
      (`isRecording`, `recordingProgress`), the recorder, the collected chunks,
      whether the capture tracks were stopped, whether the progress timer still
      runs, and the promise. */
  datatype Session = Session(
    mimeType: string,
    duration: int,
    chunks: seq<Blob>,
    recorder: RecorderState,
    isRecording: bool,
    progress: Num,
    tracksStopped: bool,
    timerRunning: bool,
    outcome: Settlement)

  /** What the browser and the user can do to a running session. `Failed` carries
      `event.error?.message`. */
  datatype Event =
    | DataAvailable(chunk: Blob)
    | Stopped
    | Failed(errorMessage: Option<string>)
    | Tick(elapsed: nat)
    | StopRequested

  // ---------------------------------------------------------------------------
  // Start-up
  // ---------------------------------------------------------------------------

  /** The first candidate type the browser supports, if any. */
  function SelectMimeType(supported: set<string>): (r: Option<string>)
    ensures r.Some? ==> exists i :: 0 <= i < |MimeTypes| && MimeTypes[i] == r.value
                                   && r.value in supported
                                   && forall j :: 0 <= j < i ==> MimeTypes[j] !in supported
    ensures r.None? <==> forall i :: 0 <= i < |MimeTypes| ==> MimeTypes[i] !in supported
  {
    FirstSupported(MimeTypes, supported)
  }

  function FirstSupported(candidates: seq<string>, supported: set<string>): (r: Option<string>)
    ensures r.Some? ==> exists i :: 0 <= i < |candidates| && candidates[i] == r.value
                                   && r.value in supported
                                   && forall j :: 0 <= j < i ==> candidates[j] !in supported
    ensures r.None? <==> forall i :: 0 <= i < |candidates| ==> candidates[i] !in supported
  {
    if candidates == [] then None
    else if candidates[0] in supported then Some(candidates[0])
    else
      var r := FirstSupported(candidates[1..], supported);
      FirstSupportedShift(candidates, supported, r);
      r
  }

  lemma FirstSupportedShift(candidates: seq<string>, supported: set<string>, r: Option<string>)
    requires candidates != [] && candidates[0] !in supported
    requires r.Some? ==> exists i :: 0 <= i < |candidates[1..]| && candidates[1..][i] == r.value
                                    && r.value in supported
                                    && forall j :: 0 <= j < i ==> candidates[1..][j] !in supported
    requires r.None? <==> forall i :: 0 <= i < |candidates[1..]| ==> candidates[1..][i] !in supported
    ensures r.Some? ==> exists i :: 0 <= i < |candidates| && candidates[i] == r.value
                                   && r.value in supported
                                   && forall j :: 0 <= j < i ==> candidates[j] !in supported
    ensures r.None? <==> forall i :: 0 <= i < |candidates| ==> candidates[i] !in supported
  {
    if r.Some? {
      var i :| 0 <= i < |candidates[1..]| && candidates[1..][i] == r.value
               && r.value in supported
               && forall j :: 0 <= j < i ==> candidates[1..][j] !in supported;
      assert candidates[i + 1] == r.value;
      forall j | 0 < j < i + 1 ensures candidates[j] !in supported {
        assert candidates[j] == candidates[1..][j - 1];
      }
    }
    assert forall i :: 0 < i < |candidates| ==> candidates[i] == candidates[1..][i - 1];
  }

  /** A supported preferred type always wins over every later candidate. */
  lemma PreferredTypeWins(supported: set<string>)
    requires "video/webm;codecs=vp9" in supported
    ensures SelectMimeType(supported) == Some("video/webm;codecs=vp9")
  {
  }

  /** The checks of `startRecording`, in the order it makes them. `NullCanvas` is
      the `TypeError` raised when a null canvas is logged with its dimensions before
      the validity test, so that test never sees it. */
  datatype StartError = NullCanvas | InvalidCanvas | NoContext | CaptureFailed | NoVideoTracks | NoSupportedFormat

  function StartErrorMessage(e: StartError): string {
    match e
    case NullCanvas => "Cannot read properties of null (reading 'width')"
    case InvalidCanvas => "Invalid canvas for recording"
    case NoContext => "Cannot get canvas context"
    case CaptureFailed => "Failed to capture canvas stream"
    case NoVideoTracks => "No video tracks in canvas stream"
    case NoSupportedFormat => "No supported video format found"
  }

  /** `startRecording`: validate, pick the type, and begin a session with no chunks,
      the recorder active, `isRecording` set and the timer running. The progress
      keeps its previous value until the first tick. A failed start rejects and
      clears `isRecording`. */
  function Start(canvas: Option<Canvas>, opts: Options, supported: set<string>, lastProgress: Num)
    : (r: Result<Session, StartError>)
    ensures canvas.None? <==> r == Err(NullCanvas)
    ensures (canvas.Some? && (canvas.value.width == 0 || canvas.value.height == 0))
            <==> r == Err(InvalidCanvas)
    ensures r == Err(NoContext) <==>
      canvas.Some? && canvas.value.width != 0 && canvas.value.height != 0 && !canvas.value.hasContext
    ensures r == Err(NoSupportedFormat) ==> SelectMimeType(supported).None?
    ensures r.Ok? <==>
      && canvas.Some? && canvas.value.width != 0 && canvas.value.height != 0
      && canvas.value.hasContext && canvas.value.capture.Some? && canvas.value.capture.value > 0
      && SelectMimeType(supported).Some?
    ensures r.Ok? ==>
      && r.value.mimeType == SelectMimeType(supported).value
      && r.value.duration == opts.duration.GetOr(DefaultDuration)
      && r.value.chunks == [] && r.value.recorder == Active
      && r.value.isRecording && r.value.timerRunning && !r.value.tracksStopped
      && r.value.outcome == Pending && r.value.progress == lastProgress
  {
    match canvas
    case None => Err(NullCanvas)
    case Some(c) =>
      if c.width == 0 || c.height == 0 then Err(InvalidCanvas)
      else if !c.hasContext then Err(NoContext)
      else if c.capture.None? then Err(CaptureFailed)
      else if c.capture.value == 0 then Err(NoVideoTracks)
      else match SelectMimeType(supported)
        case None => Err(NoSupportedFormat)
        case Some(mime) =>
          Ok(Session(mime, opts.duration.GetOr(DefaultDuration), [], Active, true, lastProgress,
                     false, true, Pending))
  }

  // ---------------------------------------------------------------------------
  // Events
  // ---------------------------------------------------------------------------

  /** `Math.min((elapsed / duration) * 100, 100)` with JavaScript's division: a zero
      duration gives `Infinity` (so 100) or, at zero elapsed time, `NaN`. */
  function Progress(elapsed: nat, duration: int): (p: Num)
    ensures duration > 0 ==> p.Finite? && 0.0 <= p.value <= 100.0
    ensures duration > 0 ==> (p.value == 100.0 <==> elapsed >= duration)
    ensures duration < 0 ==> p.Finite? && p.value <= 0.0
    ensures duration == 0 ==> (p.NaN? <==> elapsed == 0)
  {
    if duration == 0 then (if elapsed == 0 then NaN else Finite(100.0))
    else
      var ratio := elapsed as real / duration as real * 100.0;
      if duration > 0 && ratio > 100.0 then Finite(100.0) else Finite(ratio)
  }

  /** A positive duration's progress grows with the elapsed time. */
  lemma ProgressMonotone(e1: nat, e2: nat, duration: int)
    requires duration > 0 && e1 <= e2
    ensures Progress(e1, duration).value <= Progress(e2, duration).value
  {
    assert e1 as real / duration as real <= e2 as real / duration as real;
  }

  function TotalSize(chunks: seq<Blob>): nat {
    if chunks == [] then 0 else chunks[0].Size() + TotalSize(chunks[1..])
  }

  /** The bytes of `new Blob(chunks)`: the chunks' bytes in order. */
  function Concat(chunks: seq<Blob>): (bytes: seq<byte>)
    ensures |bytes| == TotalSize(chunks)
  {
    if chunks == [] then [] else chunks[0].bytes + Concat(chunks[1..])
  }

  /** A promise settles once: later `resolve`/`reject` calls are ignored. */
  function Settle(s: Session, o: Settlement): (r: Session)
    ensures r.outcome == (if s.outcome.Pending? then o else s.outcome)
  {
    if s.outcome.Pending? then s.(outcome := o) else s
  }

  /** `mediaRecorder.stop()`: only an active recorder becomes inactive. */
  function RequestStop(s: Session): (r: Session)
    ensures r.recorder == Inactive
    ensures s.recorder == Inactive ==> r == s
  {
    if s.recorder.Active? then s.(recorder := Inactive) else s
  }

  /** The error-path message. The `|| 'Unknown error'` alternative applies to the
      whole concatenation, which is never empty, so it is never taken. */
  function FailureMessage(errorMessage: Option<string>): (m: string)
    ensures StartsWith(m, "Recording failed: ")
    ensures errorMessage.Some? ==> m[|"Recording failed: "|..] == errorMessage.value
    ensures errorMessage.None? ==> m == "Recording failed: undefined"
  {
    var m := "Recording failed: " + errorMessage.GetOr("undefined");
    assert m[..|"Recording failed: "|] == "Recording failed: ";
    if m != [] then m else "Unknown error"
  }

  /** One transition. */
  function Step(s: Session, e: Event): Session {
    match e
    case DataAvailable(chunk) =>
      if chunk.Size() > 0 then s.(chunks := s.chunks + [chunk]) else s
    case Stopped =>
      // The browser fires `stop` after the recorder has gone inactive.
      var s := s.(recorder := Inactive);
      if s.chunks == [] then Settle(s, Rejected("No data was recorded"))
      else if TotalSize(s.chunks) == 0 then Settle(s, Rejected("Recorded data has zero size"))
      else
        var done := s.(isRecording := false, progress := Finite(0.0), tracksStopped := true);
        Settle(done, Resolved(ClipStore.Blob(Concat(s.chunks), s.mimeType)))
    case Failed(msg) =>
      var done := s.(recorder := Inactive, isRecording := false, progress := Finite(0.0),
                     tracksStopped := true);
      Settle(done, Rejected(FailureMessage(msg)))
    case Tick(elapsed) =>
      if !s.timerRunning then s
      else
        var s := s.(progress := Progress(elapsed, s.duration));
        if elapsed >= s.duration then RequestStop(s.(timerRunning := false)) else s
    case StopRequested =>
      StopRecording(s)
  }

  /** `stopRecording`: acts only while the recorder is not inactive. */
  function StopRecording(s: Session): (r: Session)
    ensures s.recorder == Inactive ==> r == s
    ensures s.recorder == Active ==> r == s.(recorder := Inactive)
  {
    RequestStop(s)
  }

  /** The session after a sequence of events. */
  function Run(s: Session, events: seq<Event>): Session
    decreases |events|
  {
    if events == [] then s else Run(Step(s, events[0]), events[1..])
  }

  // ---------------------------------------------------------------------------
  // Properties of single events
  // ---------------------------------------------------------------------------

  /** A `stop` event on a session with chunks resolves a pending promise with the
      chunks' bytes in order, typed with the selected type, and resets the visible
      state and the tracks. With no chunks it rejects and leaves `isRecording`,
      the progress and the tracks as they were. */
  lemma StopOutcome(s: Session)
    requires s.outcome.Pending?
    requires forall i :: 0 <= i < |s.chunks| ==> s.chunks[i].Size() > 0
    ensures var r := Step(s, Stopped);
      && (s.chunks == [] ==>
            && r.outcome == Rejected("No data was recorded")
            && r.isRecording == s.isRecording && r.progress == s.progress
            && r.tracksStopped == s.tracksStopped)
      && (s.chunks != [] ==>
            && r.outcome.Resolved?
            && r.outcome.blob.bytes == Concat(s.chunks)
            && r.outcome.blob.mimeType == s.mimeType
            && r.outcome.blob.Size() > 0
            && !r.isRecording && r.progress == Finite(0.0) && r.tracksStopped)
  {
    if s.chunks != [] {
      assert s.chunks[0].Size() > 0;
    }
  }

  /** The error event always rejects a pending promise with a message starting
      "Recording failed: ", resets the visible state and stops the tracks. */
  lemma FailureOutcome(s: Session, msg: Option<string>)
    requires s.outcome.Pending?
    ensures var r := Step(s, Failed(msg));
      && r.outcome.Rejected? && StartsWith(r.outcome.message, "Recording failed: ")
      && r.outcome.message != "Unknown error"
      && !r.isRecording && r.progress == Finite(0.0) && r.tracksStopped
  {
  }

  /** The first tick at or past the duration stops the timer and the recorder; an
      earlier tick only updates the progress. */
  lemma TickOutcome(s: Session, elapsed: nat)
    requires s.timerRunning && s.duration > 0
    ensures var r := Step(s, Tick(elapsed));
      && r.progress.Finite? && 0.0 <= r.progress.value <= 100.0
      && (elapsed >= s.duration ==> !r.timerRunning && r.recorder == Inactive)
      && (elapsed < s.duration ==> r.timerRunning && r.recorder == s.recorder && r.progress.value < 100.0)
  {
  }

  // ---------------------------------------------------------------------------
  // Properties of event sequences
  // ---------------------------------------------------------------------------

  /** The chunk an event adds to the session: the data of a non-empty
      `dataavailable` event, nothing otherwise. */
  function Delivered(e: Event): seq<Blob> {
    if e.DataAvailable? && e.chunk.Size() > 0 then [e.chunk] else []
  }

  /** The non-empty chunks delivered by a sequence of events, in arrival order. */
  function Arrived(events: seq<Event>): seq<Blob> {
    if events == [] then [] else Delivered(events[0]) + Arrived(events[1..])
  }

  lemma StepChunks(s: Session, e: Event)
    ensures Step(s, e).chunks == s.chunks + Delivered(e)
    ensures Step(s, e).mimeType == s.mimeType
  {
  }

  /** The collected chunks are exactly the non-empty delivered chunks, in order. */
  lemma {:induction false} RunChunks(s: Session, events: seq<Event>)
    ensures Run(s, events).chunks == s.chunks + Arrived(events)
    decreases |events|
  {
    if events != [] {
      StepChunks(s, events[0]);
      RunChunks(Step(s, events[0]), events[1..]);
      assert s.chunks + Delivered(events[0]) + Arrived(events[1..])
          == s.chunks + (Delivered(events[0]) + Arrived(events[1..]));
    }
  }

  /** The session invariant: every collected chunk is non-empty, and a resolved
      promise holds a non-empty blob of the session's type. */
  predicate Consistent(s: Session) {
    && (forall i :: 0 <= i < |s.chunks| ==> s.chunks[i].Size() > 0)
    && (s.outcome.Resolved? ==> s.outcome.blob.Size() > 0 && s.outcome.blob.mimeType == s.mimeType)
  }

  /** A started session is consistent. */
  lemma StartConsistent(canvas: Option<Canvas>, opts: Options, supported: set<string>, lastProgress: Num)
    ensures var r := Start(canvas, opts, supported, lastProgress);
      r.Ok? ==> Consistent(r.value)
  {
  }

  /** Every event preserves the invariant; in particular the "zero size" rejection
      is unreachable, since the chunks of a consistent session never sum to 0. */
  lemma StepConsistent(s: Session, e: Event)
    requires Consistent(s)
    ensures Consistent(Step(s, e))
  {
    match e
    case DataAvailable(chunk) =>
      var t := Step(s, e);
      forall i | 0 <= i < |t.chunks| ensures t.chunks[i].Size() > 0 {
        if i < |s.chunks| {
          assert t.chunks[i] == s.chunks[i];
        }
      }
    case Stopped =>
      if s.outcome.Pending? && s.chunks != [] {
        assert TotalSize(s.chunks) > 0 by {
          assert s.chunks[0].Size() > 0;
        }
      }
    case Failed(_) =>
    case Tick(_) =>
    case StopRequested =>
  }

  lemma {:induction false} RunConsistent(s: Session, events: seq<Event>)
    requires Consistent(s)
    ensures Consistent(Run(s, events))
    decreases |events|
  {
    if events != [] {
      StepConsistent(s, events[0]);
      RunConsistent(Step(s, events[0]), events[1..]);
    }
  }

  /** Once settled, the promise keeps its value whatever happens next. */
  lemma {:induction false} SettledStaysSettled(s: Session, events: seq<Event>)
    requires !s.outcome.Pending?
    ensures Run(s, events).outcome == s.outcome
    decreases |events|
  {
    if events != [] {
      assert Step(s, events[0]).outcome == s.outcome;
      SettledStaysSettled(Step(s, events[0]), events[1..]);
    }
  }

  /** Whatever the browser does, a recording that resolves resolves with a
      non-empty blob of the selected type. */
  lemma ResolvedBlobNonEmpty(canvas: Option<Canvas>, opts: Options, supported: set<string>,
                             lastProgress: Num, events: seq<Event>)
    ensures var r := Start(canvas, opts, supported, lastProgress);
      r.Ok? ==>
        var o := Run(r.value, events).outcome;
        o.Resolved? ==> o.blob.Size() > 0 && Some(o.blob.mimeType) == SelectMimeType(supported)
  {
    var r := Start(canvas, opts, supported, lastProgress);
    if r.Ok? {
      RunConsistent(r.value, events);
      RunMimeType(r.value, events);
    }
  }

  lemma {:induction false} RunMimeType(s: Session, events: seq<Event>)
    ensures Run(s, events).mimeType == s.mimeType
    decreases |events|
  {
    if events != [] {
      StepChunks(s, events[0]);
      RunMimeType(Step(s, events[0]), events[1..]);
    }
  }
}

=== FILE: sequences.dfy ===
/** Order-preserving selection from a list, the shape of every `Array.filter` in the
    editor. */
module Sequences {
  /** `a` is `b` with some elements left out and the rest in their original order. */
  predicate IsSubsequence<T(==)>(a: seq<T>, b: seq<T>)
    decreases |b|
  {
    if a == [] then true
    else if b == [] then false
    else if a[0] == b[0] then IsSubsequence(a[1..], b[1..])
    else IsSubsequence(a, b[1..])
  }

  /** A subsequence is never longer than the list it is taken from. */
  lemma {:induction false} SubsequenceShorter<T>(a: seq<T>, b: seq<T>)
    requires IsSubsequence(a, b)
    ensures |a| <= |b|
    decreases |b|
  {
    if a != [] && b != [] {
      if a[0] == b[0] {
        SubsequenceShorter(a[1..], b[1..]);
      } else {
        SubsequenceShorter(a, b[1..]);
      }
    }
  }
}

=== FILE: text.dfy ===
/** The few JavaScript string operations the modelled code relies on, written out
    over `seq<char>`: lower-casing, trimming, searching, prefix tests, first-match
    replacement, joining, number formatting and `parseInt`. */
module Text {
  import opened Wrappers

  // ---------------------------------------------------------------------------
  // Characters
  // ---------------------------------------------------------------------------

  /** JavaScript's line terminators (what `.` in a regular expression does not match). */
  predicate IsLineTerminator(c: char) {
    c == '\n' || c == '\r' || c == '\U{2028}' || c == '\U{2029}'
  }

  /** JavaScript's white space and line terminators: what `String.prototype.trim`
      removes and what `\s` matches (the fixed code points; see README). */
  predicate IsSpace(c: char) {
    || c == ' ' || c == '\t' || c == '\U{000B}' || c == '\U{000C}'
    || c == '\U{00A0}' || c == '\U{FEFF}'
    || IsLineTerminator(c)
  }

  predicate IsDigit(c: char) {
    '0' <= c <= '9'
  }

  /** Lower-casing of one character (ASCII letters; every other character is kept). */
  function Lower(c: char): (r: char)
    ensures 'A' <= c <= 'Z' ==> 'a' <= r <= 'z' && r as int - c as int == 32
    ensures !('A' <= c <= 'Z') ==> r == c
  {
    if 'A' <= c <= 'Z' then (c as int + 32) as char else c
  }

  /** `String.prototype.toLowerCase`. */
  function ToLower(s: string): (r: string)
    ensures |r| == |s|
    ensures forall i :: 0 <= i < |s| ==> r[i] == Lower(s[i])
  {
    seq(|s|, i requires 0 <= i < |s| => Lower(s[i]))
  }

  lemma ToLowerIdempotent(s: string)
    ensures ToLower(ToLower(s)) == ToLower(s)
  {
  }

  lemma ToLowerAppend(a: string, b: string)
    ensures ToLower(a + b) == ToLower(a) + ToLower(b)
  {
  }

  // ---------------------------------------------------------------------------
  // Trimming
  // ---------------------------------------------------------------------------

  /** Index of the first character that is not white space (`|s|` if there is none). */
  function SkipSpace(s: string, from: nat): (k: nat)
    requires from <= |s|
    ensures from <= k <= |s|
    ensures forall i :: from <= i < k ==> IsSpace(s[i])
    ensures k < |s| ==> !IsSpace(s[k])
    decreases |s| - from
  {
    if from < |s| && IsSpace(s[from]) then SkipSpace(s, from + 1) else from
  }

  /** One past the last character that is not white space (`lo` if there is none). */
  function TrimEndIndex(s: string, lo: nat, hi: nat): (k: nat)
    requires lo <= hi <= |s|
    ensures lo <= k <= hi
    ensures forall i :: k <= i < hi ==> IsSpace(s[i])
    ensures lo < k ==> !IsSpace(s[k - 1])
    decreases hi - lo
  {
    if lo < hi && IsSpace(s[hi - 1]) then TrimEndIndex(s, lo, hi - 1) else hi
  }

  /** `String.prototype.trimStart`. */
  function TrimStart(s: string): (r: string)
    ensures r == s[SkipSpace(s, 0)..]
  {
    s[SkipSpace(s, 0)..]
  }

  /** `String.prototype.trim`: the slice of `s` that is left once the white space at
      both ends is removed. */
  function Trim(s: string): (r: string)
    ensures exists i, j :: 0 <= i <= j <= |s| && r == s[i..j]
                           && (forall k :: 0 <= k < i ==> IsSpace(s[k]))
                           && (forall k :: j <= k < |s| ==> IsSpace(s[k]))
    ensures r != [] ==> !IsSpace(r[0]) && !IsSpace(r[|r| - 1])
    ensures r == [] <==> forall k :: 0 <= k < |s| ==> IsSpace(s[k])
  {
    var i := SkipSpace(s, 0);
    var j := TrimEndIndex(s, i, |s|);
    assert j == i ==> forall k :: 0 <= k < |s| ==> IsSpace(s[k]) by {
      if j == i {
        forall k | 0 <= k < |s| ensures IsSpace(s[k]) {
          if k >= i { assert i <= k < |s|; }
        }
      }
    }
    s[i..j]
  }

  /** Trimming a string that already has no white space at its ends changes nothing,
      so `Trim` is idempotent. */
  lemma TrimOfTrimmed(s: string)
    requires s != [] ==> !IsSpace(s[0]) && !IsSpace(s[|s| - 1])
    ensures Trim(s) == s
  {
    var i := SkipSpace(s, 0);
    if s != [] {
      assert i == 0;
      var j := TrimEndIndex(s, i, |s|);
      assert j == |s|;
    }
  }

  lemma TrimIdempotent(s: string)
    ensures Trim(Trim(s)) == Trim(s)
  {
    TrimOfTrimmed(Trim(s));
  }

  // ---------------------------------------------------------------------------
  // Searching
  // ---------------------------------------------------------------------------

  /** `pat` occurs in `s` starting at index `k`. */
  predicate At(s: string, pat: string, k: int) {
    0 <= k && k + |pat| <= |s| && s[k..k + |pat|] == pat
  }

  /** The first index at or after `from` where `pat` occurs (`indexOf(pat, from)`). */
  function IndexOf(s: string, pat: string, from: nat): (r: Option<nat>)
    ensures r.Some? ==> from <= r.value && At(s, pat, r.value)
    decreases |s| - from
  {
    if from + |pat| > |s| then None
    else if At(s, pat, from) then Some(from)
    else IndexOf(s, pat, from + 1)
  }

  /** The occurrence `IndexOf` finds is the first one at or after `from`, and when
      it finds none there is none. */
  lemma {:induction false} IndexOfFirst(s: string, pat: string, from: nat)
    ensures var r := IndexOf(s, pat, from);
      && (r.Some? ==> forall k :: from <= k < r.value ==> !At(s, pat, k))
      && (r.None? ==> forall k :: from <= k ==> !At(s, pat, k))
    decreases |s| - from
  {
    if from + |pat| > |s| {
    } else if At(s, pat, from) {
    } else {
      IndexOfFirst(s, pat, from + 1);
    }
  }

  /** An occurrence at `k` with none between `from` and `k` is the one found. */
  lemma {:induction false} IndexOfAt(s: string, pat: string, from: nat, k: nat)
    requires from <= k && At(s, pat, k)
    requires forall m :: from <= m < k ==> !At(s, pat, m)
    ensures IndexOf(s, pat, from) == Some(k)
    decreases k - from
  {
    if from < k {
      IndexOfAt(s, pat, from + 1, k);
    }
  }

  /** `String.prototype.includes`. */
  predicate Includes(s: string, sub: string)
    ensures Includes(s, sub) <==> exists k :: At(s, sub, k)
  {
    IndexOfFirst(s, sub, 0);
    IndexOf(s, sub, 0).Some?
  }

  /** `String.prototype.startsWith`. */
  predicate StartsWith(s: string, prefix: string) {
    At(s, prefix, 0)
  }

  lemma AtShift(a: string, b: string, pat: string, k: int)
    requires At(b, pat, k)
    ensures At(a + b, pat, |a| + k)
  {
    assert (a + b)[|a| + k..|a| + k + |pat|] == b[k..k + |pat|];
  }

  lemma AtPrefix(a: string, b: string, pat: string, k: int)
    requires At(a, pat, k)
    ensures At(a + b, pat, k)
  {
    assert (a + b)[k..k + |pat|] == a[k..k + |pat|];
  }

  /** `pat` occurs at `m` when it matches there character by character. */
  lemma AtByChars(s: string, pat: string, m: int)
    requires 0 <= m && m + |pat| <= |s|
    requires forall t :: 0 <= t < |pat| ==> s[m + t] == pat[t]
    ensures At(s, pat, m)
  {
    assert s[m..m + |pat|] == pat;
  }

  /** One differing character rules an occurrence out. */
  lemma NotAtByChar(s: string, pat: string, m: int, t: int)
    requires 0 <= t < |pat| && 0 <= m && m + t < |s| && s[m + t] != pat[t]
    ensures !At(s, pat, m)
  {
    if m + |pat| <= |s| {
      assert s[m..m + |pat|][t] == s[m + t];
    }
  }

  /** An occurrence inside a slice is an occurrence in the whole text. */
  lemma AtSlice(s: string, pat: string, lo: nat, hi: nat, m: int)
    requires lo <= hi <= |s| && At(s[lo..hi], pat, m)
    ensures At(s, pat, lo + m)
  {
    forall t | 0 <= t < |pat| ensures s[lo + m + t] == pat[t] {
      assert s[lo..hi][m..m + |pat|][t] == pat[t];
    }
    AtByChars(s, pat, lo + m);
  }

  /** Searching from `from` or from `p` finds the same occurrence when there is none
      in between. */
  lemma IndexOfSkip(s: string, pat: string, from: nat, p: nat)
    requires from <= p
    requires forall m :: from <= m < p ==> !At(s, pat, m)
    ensures IndexOf(s, pat, from) == IndexOf(s, pat, p)
  {
    IndexOfFirst(s, pat, from);
    IndexOfFirst(s, pat, p);
    var a := IndexOf(s, pat, from);
    var b := IndexOf(s, pat, p);
    if a.Some? {
      assert a.value >= p;
      assert b.Some?;
      assert !(b.value < a.value) && !(a.value < b.value);
    } else {
      assert b.None?;
    }
  }

  /** `s.replace(pat, rep)` with a string pattern: only the first occurrence is
      replaced. */
  function ReplaceFirst(s: string, pat: string, rep: string): (r: string)
  {
    match IndexOf(s, pat, 0)
    case None => s
    case Some(k) => s[..k] + rep + s[k + |pat|..]
  }

  /** Replacing the first occurrence: a string with no earlier occurrence of `pat`
      followed by `pat` loses exactly that occurrence; a string without `pat` is kept. */
  lemma ReplaceFirstSplit(a: string, pat: string, b: string, rep: string)
    requires forall k :: !At(a + pat, pat, k) || k == |a|
    ensures ReplaceFirst(a + pat + b, pat, rep) == a + rep + b
  {
    var s := a + pat + b;
    assert At(s, pat, |a|) by {
      assert s[|a|..|a| + |pat|] == pat;
    }
    forall k | 0 <= k < |a| ensures !At(s, pat, k) {
      if At(s, pat, k) {
        assert At(a + pat, pat, k) by {
          assert (a + pat)[k..k + |pat|] == s[k..k + |pat|];
        }
      }
    }
    IndexOfAt(s, pat, 0, |a|);
    assert s[..|a|] == a;
    assert s[|a| + |pat|..] == b;
  }

  lemma ReplaceFirstAbsent(s: string, pat: string, rep: string)
    requires !Includes(s, pat)
    ensures ReplaceFirst(s, pat, rep) == s
  {
  }

  /** `Array.prototype.join(sep)`. */
  function Join(parts: seq<string>, sep: string): (r: string)
    ensures |parts| == 1 ==> r == parts[0]
    ensures parts == [] ==> r == []
  {
    if |parts| == 0 then []
    else if |parts| == 1 then parts[0]
    else parts[0] + sep + Join(parts[1..], sep)
  }

  // ---------------------------------------------------------------------------
  // Numbers to strings and back
  // ---------------------------------------------------------------------------

  function DigitChar(d: nat): (c: char)
    requires d < 10
    ensures IsDigit(c)
  {
    ('0' as int + d) as char
  }

  /** Decimal rendering of a natural number (`n.toString()`). */
  function NatToString(n: nat): (r: string)
    ensures |r| >= 1
    ensures forall i :: 0 <= i < |r| ==> IsDigit(r[i])
    ensures n < 10 <==> |r| == 1
    ensures |r| > 1 ==> r[0] != '0'
  {
    if n < 10 then [DigitChar(n)] else NatToString(n / 10) + [DigitChar(n % 10)]
  }

  /** Decimal rendering of an integer, with a leading `-` when negative. */
  function IntToString(n: int): (r: string)
    ensures n >= 0 ==> r == NatToString(n)
    ensures n < 0 ==> r == "-" + NatToString(-n)
  {
    if n >= 0 then NatToString(n) else "-" + NatToString(-n)
  }

  /** `s.padStart(2, '0')`. */
  function PadStart2(s: string): (r: string)
    ensures |s| >= 2 ==> r == s
    ensures |s| < 2 ==> |r| == 2 && r[2 - |s|..] == s
    ensures forall i :: 0 <= i < 2 - |s| ==> r[i] == '0'
  {
    if |s| >= 2 then s else seq(2 - |s|, _ => '0') + s
  }

  /** Value of digit `c` in radix 10 or 16, or -1 if it is not such a digit. */
  function DigitValue(c: char, radix: nat): (v: int)
    requires radix == 10 || radix == 16
    ensures -1 <= v < radix
  {
    if '0' <= c <= '9' then c as int - '0' as int
    else if radix == 16 && 'a' <= c <= 'f' then c as int - 'a' as int + 10
    else if radix == 16 && 'A' <= c <= 'F' then c as int - 'A' as int + 10
    else -1
  }

  /** Length of the longest prefix of `s` made of radix digits. */
  function DigitRun(s: string, radix: nat): (k: nat)
    requires radix == 10 || radix == 16
    ensures k <= |s|
    ensures forall i :: 0 <= i < k ==> DigitValue(s[i], radix) >= 0
    ensures k < |s| ==> DigitValue(s[k], radix) < 0
  {
    if |s| > 0 && DigitValue(s[0], radix) >= 0 then 1 + DigitRun(s[1..], radix) else 0
  }

  /** The number that a run of radix digits denotes, most significant first. */
  function DigitsValue(ds: string, radix: nat): (v: nat)
    requires radix == 10 || radix == 16
    requires forall i :: 0 <= i < |ds| ==> DigitValue(ds[i], radix) >= 0
  {
    if ds == [] then 0
    else DigitsValue(ds[..|ds| - 1], radix) * radix + DigitValue(ds[|ds| - 1], radix)
  }

  /** `parseInt(s)` with no radix: leading white space is skipped, one optional sign
      is read, a `0x`/`0X` prefix selects radix 16, and the longest run of digits
      is read. `None` stands for `NaN` (no digit at all); `-0` is reported as `0`. */
  function ParseInt(s: string): (r: Option<int>)
  {
    var t := TrimStart(s);
    var negative := |t| > 0 && t[0] == '-';
    var u := if |t| > 0 && (t[0] == '-' || t[0] == '+') then t[1..] else t;
    var hex := |u| >= 2 && u[0] == '0' && (u[1] == 'x' || u[1] == 'X');
    var radix := if hex then 16 else 10;
    var body := if hex then u[2..] else u;
    var k := DigitRun(body, radix);
    if k == 0 then None
    else
      var v: int := DigitsValue(body[..k], radix);
      Some(if negative then -v else v)
  }

  lemma {:induction false} NatToStringValue(n: nat)
    ensures DigitsValue(NatToString(n), 10) == n
  {
    var r := NatToString(n);
    if n >= 10 {
      NatToStringValue(n / 10);
      assert r[..|r| - 1] == NatToString(n / 10);
    }
  }

  /** A string of decimal digits not starting with `0x` parses to the value its
      digits denote. */
  lemma ParseDigits(ds: string)
    requires ds != [] && !IsSpace(ds[0])
    requires forall i :: 0 <= i < |ds| ==> DigitValue(ds[i], 10) >= 0
    ensures ParseInt(ds) == Some(DigitsValue(ds, 10))
  {
    assert SkipSpace(ds, 0) == 0;
    assert TrimStart(ds) == ds;
    assert ds[0] != '-' && ds[0] != '+';
    assert !(|ds| >= 2 && ds[0] == '0' && (ds[1] == 'x' || ds[1] == 'X'));
    var k := DigitRun(ds, 10);
    assert k == |ds|;
    assert ds[..k] == ds;
  }

  /** `parseInt(String(n)) === n`: decimal rendering and parsing are inverse. */
  lemma ParseNatToString(n: nat)
    ensures ParseInt(NatToString(n)) == Some(n)
  {
    var ds := NatToString(n);
    assert forall i :: 0 <= i < |ds| ==> IsDigit(ds[i]) && DigitValue(ds[i], 10) >= 0;
    ParseDigits(ds);
    NatToStringValue(n);
  }
}

=== FILE: timeline_ids.dfy ===
/** The dashboard video editor's two id lists (the selected clips and the clips on
    the timeline) and the timeline's resolution of those ids against the clip
    store. */
module TimelineIds {
  import opened Wrappers
  import opened Clock
  import opened ClipStore

  /** `prev.filter(id => id !== clipId)`: every occurrence of `x` removed, the other
      ids kept in order. */
  function Without(ids: seq<string>, x: string): (r: seq<string>)
    ensures x !in r
    ensures forall y :: y != x ==> multiset(r)[y] == multiset(ids)[y]
    ensures forall y :: y in r <==> y in ids && y != x
    ensures |r| <= |ids|
  {
    if ids == [] then []
    else
      var rest := Without(ids[1..], x);
      assert ids == [ids[0]] + ids[1..];
      if ids[0] == x then rest else [ids[0]] + rest
  }

  /** No id occurs twice. */
  predicate NoDuplicates(ids: seq<string>) {
    forall i, j :: 0 <= i < j < |ids| ==> ids[i] != ids[j]
  }

  /** Removing an id that is not there changes nothing. */
  lemma {:induction false} WithoutAbsent(ids: seq<string>, x: string)
    requires x !in ids
    ensures Without(ids, x) == ids
  {
    if ids != [] {
      WithoutAbsent(ids[1..], x);
    }
  }

  /** Removing distributes over concatenation. */
  lemma {:induction false} WithoutAppend(a: seq<string>, b: seq<string>, x: string)
    ensures Without(a + b, x) == Without(a, x) + Without(b, x)
  {
    if a == [] {
      assert a + b == b;
    } else {
      assert (a + b)[1..] == a[1..] + b;
      WithoutAppend(a[1..], b, x);
    }
  }

  /** Removing keeps a list free of duplicates. */
  lemma {:induction false} WithoutKeepsNoDuplicates(ids: seq<string>, x: string)
    requires NoDuplicates(ids)
    ensures NoDuplicates(Without(ids, x))
  {
    var r := Without(ids, x);
    forall i, j | 0 <= i < j < |r| ensures r[i] != r[j] {
      if r[i] == r[j] {
        assert multiset(r)[r[i]] >= 2 by {
          assert multiset([r[i], r[j]]) <= multiset(r) by {
            assert r == r[..i] + [r[i]] + r[i + 1..j] + [r[j]] + r[j + 1..];
          }
        }
        DistinctCount(ids, r[i]);
      }
    }
  }

  /** In a list without duplicates every id occurs at most once. */
  lemma {:induction false} DistinctCount(ids: seq<string>, y: string)
    requires NoDuplicates(ids)
    ensures multiset(ids)[y] <= 1
  {
    if ids != [] {
      assert ids == [ids[0]] + ids[1..];
      DistinctCount(ids[1..], y);
      if ids[0] == y {
        assert y !in ids[1..];
      }
    }
  }

  // ---------------------------------------------------------------------------
  // handleSelectClip, handleAddToTimeline, onRemoveClip
  // ---------------------------------------------------------------------------

  /** `handleSelectClip`: a selected id is deselected (every occurrence), any other
      id is appended. */
  function Toggle(selected: seq<string>, id: string): (r: seq<string>)
    ensures id in selected ==> id !in r && forall y :: y != id ==> multiset(r)[y] == multiset(selected)[y]
    ensures id !in selected ==> r == selected + [id]
  {
    if id in selected then Without(selected, id) else selected + [id]
  }

  /** Toggling an id that was not selected twice gives back the selection. */
  lemma ToggleTwiceAbsent(selected: seq<string>, id: string)
    requires id !in selected
    ensures Toggle(Toggle(selected, id), id) == selected
  {
    WithoutAppend(selected, [id], id);
    WithoutAbsent(selected, id);
    assert Without([id], id) == [];
  }

  /** Toggling a selected id twice does not restore the selection: the id moves to
      the end. */
  lemma ToggleTwicePresent(selected: seq<string>, id: string)
    requires id in selected
    ensures Toggle(Toggle(selected, id), id) == Without(selected, id) + [id]
  {
  }

  /** `handleAddToTimeline`: an id already on the timeline is ignored, any other is
      appended. */
  function Add(timeline: seq<string>, id: string): (r: seq<string>)
    ensures id in r
    ensures |r| >= |timeline| && r[..|timeline|] == timeline
    ensures id in timeline ==> r == timeline
    ensures id !in timeline ==> |r| == |timeline| + 1 && r[|timeline|] == id
  {
    if id in timeline then timeline else timeline + [id]
  }

  /** Adding never creates a duplicate. */
  lemma AddKeepsNoDuplicates(timeline: seq<string>, id: string)
    requires NoDuplicates(timeline)
    ensures NoDuplicates(Add(timeline, id))
  {
  }

  /** Adding twice is adding once. */
  lemma AddIdempotent(timeline: seq<string>, id: string)
    ensures Add(Add(timeline, id), id) == Add(timeline, id)
  {
  }

  /** The timeline's remove button. */
  function Remove(timeline: seq<string>, id: string): (r: seq<string>)
    ensures id !in r
    ensures forall y :: y != id ==> multiset(r)[y] == multiset(timeline)[y]
  {
    Without(timeline, id)
  }

  /** Removing what was just added restores a timeline that did not hold it. */
  lemma RemoveUndoesAdd(timeline: seq<string>, id: string)
    requires id !in timeline
    ensures Remove(Add(timeline, id), id) == timeline
  {
    WithoutAppend(timeline, [id], id);
    WithoutAbsent(timeline, id);
    assert Without([id], id) == [];
  }

  /** One click on the add or the remove button. */
  datatype Edit = AddEdit(id: string) | RemoveEdit(id: string)

  /** The timeline after the clicks, in order. */
  function ApplyEdits(timeline: seq<string>, edits: seq<Edit>): seq<string>
    decreases |edits|
  {
    if edits == [] then timeline
    else
      var next := match edits[0]
                  case AddEdit(id) => Add(timeline, id)
                  case RemoveEdit(id) => Remove(timeline, id);
      ApplyEdits(next, edits[1..])
  }

  /** Any sequence of adds and removes keeps the timeline free of duplicates, so a
      timeline built from the empty one never holds an id twice. */
  lemma {:induction false} EditsKeepNoDuplicates(timeline: seq<string>, edits: seq<Edit>)
    requires NoDuplicates(timeline)
    ensures NoDuplicates(ApplyEdits(timeline, edits))
    decreases |edits|
  {
    if edits != [] {
      match edits[0]
      case AddEdit(id) =>
        AddKeepsNoDuplicates(timeline, id);
        EditsKeepNoDuplicates(Add(timeline, id), edits[1..]);
      case RemoveEdit(id) =>
        WithoutKeepsNoDuplicates(timeline, id);
        EditsKeepNoDuplicates(Remove(timeline, id), edits[1..]);
    }
  }

  // ---------------------------------------------------------------------------
  // loadClipData and the total duration
  // ---------------------------------------------------------------------------

  /** The metadata `getClip` gives for each id, in id order, with the ids it finds
      nothing for dropped. `failing` holds the ids whose reads fail. */
  function Resolve(s: Store, ids: seq<string>, failing: set<string>): (r: seq<StoredClip>)
    ensures |r| <= |ids|
    ensures forall c :: c in r ==> c.id in ids && c.id in s.blobs && GetClip(s, c.id, c.id in failing) == Some(ClipRecord(c, s.blobs[c.id]))
  {
    if ids == [] then []
    else
      var rest := Resolve(s, ids[1..], failing);
      match GetClip(s, ids[0], ids[0] in failing)
      case Some(rec) => [rec.metadata] + rest
      case None => rest
  }

  /** Ids that all resolve give one record per id, in the same order. */
  lemma {:induction false} ResolveAll(s: Store, ids: seq<string>, failing: set<string>)
    requires forall id :: id in ids ==> GetClip(s, id, id in failing).Some?
    ensures |Resolve(s, ids, failing)| == |ids|
    ensures forall i :: 0 <= i < |ids| ==> Resolve(s, ids, failing)[i].id == ids[i]
  {
    if ids != [] {
      ResolveAll(s, ids[1..], failing);
    }
  }

  /** A single id gives its metadata when `getClip` finds it, and nothing
      otherwise. */
  lemma ResolveOne(s: Store, id: string, failing: set<string>)
    ensures Resolve(s, [id], failing) ==
              (if GetClip(s, id, id in failing).Some? then [s.clips[id]] else [])
  {
    assert [id][1..] == [];
  }

  /** Resolving splits over concatenation: the found ids' metadata keeps the id
      order. With `ResolveOne` this fixes the result for every id list. */
  lemma {:induction false} ResolveAppend(s: Store, a: seq<string>, b: seq<string>, failing: set<string>)
    ensures Resolve(s, a + b, failing) == Resolve(s, a, failing) + Resolve(s, b, failing)
    decreases |a|
  {
    if a == [] {
      assert a + b == b;
    } else {
      assert (a + b)[1..] == a[1..] + b;
      ResolveAppend(s, a[1..], b, failing);
    }
  }

  /** Ids that resolve to nothing contribute nothing. */
  lemma {:induction false} ResolveNone(s: Store, ids: seq<string>, failing: set<string>)
    requires forall id :: id in ids ==> GetClip(s, id, id in failing).None?
    ensures Resolve(s, ids, failing) == []
  {
    if ids != [] {
      ResolveNone(s, ids[1..], failing);
    }
  }

  /** `loadClipData`: nothing for an empty id list (no lookup is made); nothing
      when the database cannot be opened (every lookup rejects and the catch
      clears the list); otherwise the resolved metadata. */
  function LoadClipData(s: Store, ids: seq<string>, openFails: bool, failing: set<string>): (r: seq<StoredClip>)
    ensures ids == [] || openFails ==> r == []
    ensures !openFails ==> r == Resolve(s, ids, failing)
  {
    if ids == [] then []
    else if openFails then []
    else Resolve(s, ids, failing)
  }

  /** Sum of the durations (`reduce` from 0). */
  function SumDuration(clips: seq<StoredClip>): real {
    if clips == [] then 0.0 else clips[0].duration + SumDuration(clips[1..])
  }

  lemma {:induction false} SumDurationAppend(a: seq<StoredClip>, b: seq<StoredClip>)
    ensures SumDuration(a + b) == SumDuration(a) + SumDuration(b)
  {
    if a == [] {
      assert a + b == b;
    } else {
      assert (a + b)[1..] == a[1..] + b;
      SumDurationAppend(a[1..], b);
    }
  }

  /** The footer's total: the sum of the resolved clips' durations, rounded. */
  function TotalSeconds(clips: seq<StoredClip>): (t: int)
    ensures SumDuration(clips) - 0.5 < t as real <= SumDuration(clips) + 0.5
  {
    Round(SumDuration(clips))
  }

  /** Ids that resolve to nothing add nothing to the total. */
  lemma {:induction false} UnresolvedAddNothing(s: Store, ids: seq<string>, more: seq<string>, failing: set<string>)
    requires forall id :: id in more ==> GetClip(s, id, id in failing).None?
    ensures Resolve(s, ids + more, failing) == Resolve(s, ids, failing)
  {
    if ids == [] {
      assert ids + more == more;
      ResolveNone(s, more, failing);
    } else {
      assert (ids + more)[1..] == ids[1..] + more;
      UnresolvedAddNothing(s, ids[1..], more, failing);
    }
  }
}

=== FILE: track_packing.dfy ===
/** The standalone timeline: clips packed greedily into tracks so that no two clips
    of a track overlap, the time marks of the ruler, and the conversion of a click
    into a time. */
module TrackPacking {
  import opened Wrappers
  import opened Clock
  import opened VideoClips

  // ---------------------------------------------------------------------------
  // Track packing
  // ---------------------------------------------------------------------------

  /** The overlap test: two clips overlap unless one ends no later than the other
      starts, so clips that only touch do not overlap. */
  predicate Overlaps(a: VideoClip, b: VideoClip) {
    !(a.endTime <= b.startTime || a.startTime >= b.endTime)
  }

  lemma OverlapsSymmetric(a: VideoClip, b: VideoClip)
    ensures Overlaps(a, b) <==> Overlaps(b, a)
  {
  }

  /** A track is a list of positions in the clip list; the clip at position `k` fits
      a track when it overlaps none of the track's clips. */
  predicate Fits(clips: seq<VideoClip>, track: seq<nat>, k: nat)
    requires k < |clips| && forall j :: 0 <= j < |track| ==> track[j] < |clips|
  {
    forall j :: 0 <= j < |track| ==> !Overlaps(clips[k], clips[track[j]])
  }

  predicate WellIndexed(clips: seq<VideoClip>, tracks: seq<seq<nat>>, bound: nat) {
    forall t, j :: 0 <= t < |tracks| && 0 <= j < |tracks[t]| ==> tracks[t][j] < bound <= |clips|
  }

  /** The lowest-index track the clip fits, if any. */
  function FirstFit(clips: seq<VideoClip>, tracks: seq<seq<nat>>, k: nat, from: nat): (r: Option<nat>)
    requires k < |clips| && WellIndexed(clips, tracks, |clips|) && from <= |tracks|
    ensures r.Some? ==> from <= r.value < |tracks| && Fits(clips, tracks[r.value], k)
    ensures r.Some? ==> forall t :: from <= t < r.value ==> !Fits(clips, tracks[t], k)
    ensures r.None? ==> forall t :: from <= t < |tracks| ==> !Fits(clips, tracks[t], k)
    decreases |tracks| - from
  {
    if from == |tracks| then None
    else if Fits(clips, tracks[from], k) then Some(from)
    else FirstFit(clips, tracks, k, from + 1)
  }

  /** The step of `clips.forEach`: the clip at position `k` is appended to the first
      track it fits, or opens a new track when it fits none. */
  function Place(clips: seq<VideoClip>, tracks: seq<seq<nat>>, k: nat): (r: seq<seq<nat>>)
    requires k < |clips| && WellIndexed(clips, tracks, |clips|)
    ensures WellIndexed(clips, r, |clips|)
    ensures match FirstFit(clips, tracks, k, 0)
            case Some(t) => r == tracks[t := tracks[t] + [k]]
            case None => r == tracks + [[k]]
  {
    match FirstFit(clips, tracks, k, 0)
    case Some(t) => tracks[t := tracks[t] + [k]]
    case None => tracks + [[k]]
  }

  /** The tracks after placing the clips at positions `k` onwards. */
  function PackFrom(clips: seq<VideoClip>, tracks: seq<seq<nat>>, k: nat): (r: seq<seq<nat>>)
    requires k <= |clips| && WellIndexed(clips, tracks, |clips|)
    ensures WellIndexed(clips, r, |clips|)
    decreases |clips| - k
  {
    if k == |clips| then tracks else PackFrom(clips, Place(clips, tracks, k), k + 1)
  }

  /** The tracks of the timeline, each a list of clip positions. */
  function Pack(clips: seq<VideoClip>): (r: seq<seq<nat>>)
    ensures WellIndexed(clips, r, |clips|)
  {
    PackFrom(clips, [], 0)
  }

  /** The tracks as clips, the way they are rendered. */
  function TrackClips(clips: seq<VideoClip>, track: seq<nat>): (r: seq<VideoClip>)
    requires forall j :: 0 <= j < |track| ==> track[j] < |clips|
    ensures |r| == |track| && forall j :: 0 <= j < |track| ==> r[j] == clips[track[j]]
  {
    seq(|track|, j requires 0 <= j < |track| => clips[track[j]])
  }

  /** The positions of all tracks, track after track. */
  function Flatten(tracks: seq<seq<nat>>): seq<nat> {
    if tracks == [] then [] else tracks[0] + Flatten(tracks[1..])
  }

  function Range(lo: nat, hi: nat): (r: seq<nat>)
    requires lo <= hi
    ensures |r| == hi - lo && forall j :: 0 <= j < |r| ==> r[j] == lo + j
    decreases hi - lo
  {
    if lo == hi then [] else [lo] + Range(lo + 1, hi)
  }

  lemma {:induction false} FlattenUpdate(tracks: seq<seq<nat>>, t: nat, k: nat)
    requires t < |tracks|
    ensures multiset(Flatten(tracks[t := tracks[t] + [k]])) == multiset(Flatten(tracks)) + multiset{k}
  {
    if t == 0 {
      assert tracks[t := tracks[t] + [k]][1..] == tracks[1..];
    } else {
      FlattenUpdate(tracks[1..], t - 1, k);
      assert tracks[t := tracks[t] + [k]][1..] == tracks[1..][t - 1 := tracks[1..][t - 1] + [k]];
    }
  }

  lemma {:induction false} FlattenAppend(tracks: seq<seq<nat>>, k: nat)
    ensures multiset(Flatten(tracks + [[k]])) == multiset(Flatten(tracks)) + multiset{k}
  {
    if tracks == [] {
      assert Flatten([[k]]) == [k] + Flatten([]);
    } else {
      assert (tracks + [[k]])[1..] == tracks[1..] + [[k]];
      FlattenAppend(tracks[1..], k);
    }
  }

  lemma RangeStep(lo: nat, hi: nat)
    requires lo <= hi
    ensures multiset(Range(lo, hi + 1)) == multiset(Range(lo, hi)) + multiset{hi}
  {
    assert Range(lo, hi + 1) == Range(lo, hi) + [hi];
  }

  /** What the packing keeps true after each clip:
      every clip placed so far is in exactly one track, exactly once; the positions
      in a track increase (so a track lists its clips in input order); and no two
      clips of a track overlap. */
  predicate Packed(clips: seq<VideoClip>, tracks: seq<seq<nat>>, k: nat)
    requires k <= |clips|
  {
    && WellIndexed(clips, tracks, k)
    && multiset(Flatten(tracks)) == multiset(Range(0, k))
    && (forall t, i, j :: 0 <= t < |tracks| && 0 <= i < j < |tracks[t]| ==> tracks[t][i] < tracks[t][j])
    && (forall t, i, j :: 0 <= t < |tracks| && 0 <= i < j < |tracks[t]| ==>
          !Overlaps(clips[tracks[t][i]], clips[tracks[t][j]]))
  }

  lemma PlaceKeepsPacked(clips: seq<VideoClip>, tracks: seq<seq<nat>>, k: nat)
    requires k < |clips| && Packed(clips, tracks, k)
    ensures Packed(clips, Place(clips, tracks, k), k + 1)
  {
    match FirstFit(clips, tracks, k, 0)
    case Some(t) =>
      PlaceInTrack(clips, tracks, t, k);
    case None =>
      PlaceInNewTrack(clips, tracks, k);
  }

  lemma PlaceInTrack(clips: seq<VideoClip>, tracks: seq<seq<nat>>, t: nat, k: nat)
    requires k < |clips| && t < |tracks| && Packed(clips, tracks, k)
    requires Fits(clips, tracks[t], k)
    ensures Packed(clips, tracks[t := tracks[t] + [k]], k + 1)
  {
    RangeStep(0, k);
    FlattenUpdate(tracks, t, k);
    AppendKeepsIndexed(clips, tracks, t, k);
    AppendKeepsOrder(clips, tracks, t, k);
    AppendKeepsApart(clips, tracks, t, k);
  }

  lemma PlaceInNewTrack(clips: seq<VideoClip>, tracks: seq<seq<nat>>, k: nat)
    requires k < |clips| && Packed(clips, tracks, k)
    ensures Packed(clips, tracks + [[k]], k + 1)
  {
    RangeStep(0, k);
    FlattenAppend(tracks, k);
    NewTrackKeepsShape(clips, tracks, k);
  }

  lemma NewTrackKeepsShape(clips: seq<VideoClip>, tracks: seq<seq<nat>>, k: nat)
    requires k < |clips| && Packed(clips, tracks, k)
    ensures var r := tracks + [[k]];
      && WellIndexed(clips, r, k + 1)
      && (forall t, i, j :: 0 <= t < |r| && 0 <= i < j < |r[t]| ==> r[t][i] < r[t][j])
      && (forall t, i, j :: 0 <= t < |r| && 0 <= i < j < |r[t]| ==> !Overlaps(clips[r[t][i]], clips[r[t][j]]))
  {
    var r := tracks + [[k]];
    forall t | 0 <= t < |r| ensures r[t] == if t < |tracks| then tracks[t] else [k] {
    }
  }

  lemma AppendKeepsIndexed(clips: seq<VideoClip>, tracks: seq<seq<nat>>, t: nat, k: nat)
    requires k < |clips| && t < |tracks| && WellIndexed(clips, tracks, k)
    ensures WellIndexed(clips, tracks[t := tracks[t] + [k]], k + 1)
  {
  }

  lemma AppendKeepsOrder(clips: seq<VideoClip>, tracks: seq<seq<nat>>, t: nat, k: nat)
    requires k < |clips| && t < |tracks| && Packed(clips, tracks, k)
    ensures var r := tracks[t := tracks[t] + [k]];
      forall u, i, j :: 0 <= u < |r| && 0 <= i < j < |r[u]| ==> r[u][i] < r[u][j]
  {
  }

  lemma AppendKeepsApart(clips: seq<VideoClip>, tracks: seq<seq<nat>>, t: nat, k: nat)
    requires k < |clips| && t < |tracks| && Packed(clips, tracks, k)
    requires Fits(clips, tracks[t], k)
    ensures var r := tracks[t := tracks[t] + [k]];
      forall u, i, j :: 0 <= u < |r| && 0 <= i < j < |r[u]| ==> !Overlaps(clips[r[u][i]], clips[r[u][j]])
  {
    var r := tracks[t := tracks[t] + [k]];
    forall u, i, j | 0 <= u < |r| && 0 <= i < j < |r[u]|
      ensures !Overlaps(clips[r[u][i]], clips[r[u][j]])
    {
      if u == t && j == |tracks[t]| {
        assert r[u][j] == k && r[u][i] == tracks[t][i];
        assert !Overlaps(clips[k], clips[tracks[t][i]]);
      } else {
        assert r[u][i] == tracks[u][i] && r[u][j] == tracks[u][j];
      }
    }
  }

  lemma {:induction false} PackFromPacked(clips: seq<VideoClip>, tracks: seq<seq<nat>>, k: nat)
    requires k <= |clips| && Packed(clips, tracks, k)
    ensures Packed(clips, PackFrom(clips, tracks, k), |clips|)
    decreases |clips| - k
  {
    if k < |clips| {
      PlaceKeepsPacked(clips, tracks, k);
      PackFromPacked(clips, Place(clips, tracks, k), k + 1);
    }
  }

  /** The packing of a clip list: every clip lands in exactly one track, once;
      each track keeps input order; no two clips of a track overlap. */
  lemma PackIsPacking(clips: seq<VideoClip>)
    ensures Packed(clips, Pack(clips), |clips|)
    ensures |Flatten(Pack(clips))| == |clips|
  {
    assert Flatten([]) == [];
    PackFromPacked(clips, [], 0);
    assert |multiset(Flatten(Pack(clips)))| == |multiset(Range(0, |clips|))|;
  }

  /** Two clips where one ends exactly when the other starts share the first track. */
  lemma TouchingClipsShareTrack(a: VideoClip, b: VideoClip)
    requires a.endTime == b.startTime && a.startTime < a.endTime < b.endTime
    ensures Pack([a, b]) == [[0, 1]]
  {
    var clips := [a, b];
    assert FirstFit(clips, [], 0, 0) == None;
    assert Place(clips, [], 0) == [[0]];
    assert Fits(clips, [0], 1);
    assert FirstFit(clips, [[0]], 1, 0) == Some(0);
    assert [0] + [1] == [0, 1];
    assert [[0]][0 := [0] + [1]] == [[0, 1]];
    assert Place(clips, [[0]], 1) == [[0, 1]];
    assert PackFrom(clips, [], 0) == PackFrom(clips, [[0]], 1);
    assert PackFrom(clips, [[0]], 1) == PackFrom(clips, [[0, 1]], 2);
    assert PackFrom(clips, [[0, 1]], 2) == [[0, 1]];
  }

  /** Two clips at the same time go to different tracks. */
  lemma OverlappingClipsSplit(a: VideoClip, b: VideoClip)
    requires Overlaps(a, b)
    ensures Pack([a, b]) == [[0], [1]]
  {
    var clips := [a, b];
    assert FirstFit(clips, [], 0, 0) == None;
    assert Place(clips, [], 0) == [[0]];
    OverlapsSymmetric(a, b);
    assert Overlaps(clips[1], clips[[0][0]]);
    assert !Fits(clips, [0], 1);
    assert FirstFit(clips, [[0]], 1, 0) == None;
    assert Place(clips, [[0]], 1) == [[0], [1]];
    assert PackFrom(clips, [], 0) == PackFrom(clips, [[0]], 1);
    assert PackFrom(clips, [[0]], 1) == PackFrom(clips, [[0], [1]], 2);
    assert PackFrom(clips, [[0], [1]], 2) == [[0], [1]];
  }

  // ---------------------------------------------------------------------------
  // The ruler and clicks
  // ---------------------------------------------------------------------------

  /** The ruler covers 60 seconds. */
  const RulerSeconds: nat := 60

  /** Seconds between marks: 1 when zoomed in past 2, 5 past 1, 10 otherwise. */
  function MarkInterval(zoom: real): (i: nat)
    ensures i in {1, 5, 10} && RulerSeconds % i == 0
    ensures zoom > 2.0 <==> i == 1
    ensures i == 10 <==> zoom <= 1.0
  {
    if zoom > 2.0 then 1 else if zoom > 1.0 then 5 else 10
  }

  /** The marks at a zoom: `for (let i = 0; i <= 60; i += interval)`, so every
      multiple of the interval from 0 to 60, both included. */
  function Marks(zoom: real): (ms: seq<nat>)
    ensures |ms| == RulerSeconds / MarkInterval(zoom) + 1
    ensures forall j :: 0 <= j < |ms| ==> ms[j] == j * MarkInterval(zoom) <= RulerSeconds
    ensures ms[0] == 0 && ms[|ms| - 1] == RulerSeconds
  {
    var interval := MarkInterval(zoom);
    seq(RulerSeconds / interval + 1, j requires 0 <= j <= RulerSeconds / interval => j * interval)
  }

  /** The loop stops after 60: one more step would pass the end of the ruler. */
  lemma MarksStopAtEnd(zoom: real)
    ensures |Marks(zoom)| * MarkInterval(zoom) > RulerSeconds
  {
  }

  /** The label under the mark at second `i`: none at 0 (`i > 0 && …`), and the
      `m:ss` rendering the controls use for every later mark. */
  function MarkLabel(i: nat): (r: Option<string>)
    ensures r.None? <==> i == 0
    ensures r.Some? ==> r.value == FormatMinSec(i as real)
  {
    if i > 0 then Some(FormatMinSec(i as real)) else None
  }

  /** `handleTimelineClick`: the click's offset into the clip area, past the 80
      pixel track labels, divided by 50 pixels a second at the current zoom; never
      negative. */
  function ClickTime(clientX: real, left: real, zoom: real): (t: real)
    requires zoom > 0.0
    ensures t >= 0.0
    ensures clientX - left - 80.0 >= 0.0 ==> t * (50.0 * zoom) == clientX - left - 80.0
    ensures clientX - left - 80.0 <= 0.0 ==> t == 0.0
  {
    var x := clientX - left - 80.0;
    var time := x / (50.0 * zoom);
    if time >= 0.0 then time else 0.0
  }

  /** Clicking where a time is drawn gives back that time: the playhead at time
      `t >= 0` sits at `80 + t * 50 * zoom`. */
  lemma ClickAtDrawnTime(left: real, zoom: real, t: real)
    requires zoom > 0.0 && t >= 0.0
    ensures ClickTime(left + 80.0 + t * (50.0 * zoom), left, zoom) == t
  {
  }
}

=== FILE: video_clip.dfy ===
/** `VideoClip`: one clip of the video editor, placed on the timeline between its
    start and end times (seconds). */
module VideoClips {
  import opened Wrappers

  datatype ClipKind = Animation | Audio | TextClip

  datatype VideoClip = VideoClip(
    id: string,
    name: string,
    duration: real,
    startTime: real,
    endTime: real,
    kind: ClipKind,
    content: string,
    thumbnail: Option<string>)

  /** The clip's end time is its start time plus its duration. */
  predicate EndMatches(c: VideoClip) {
    c.endTime == c.startTime + c.duration
  }
}

=== FILE: video_editor.dfy ===
/** The video editor's playback state, its control bar (zoom buttons and percentage)
    and the preview's choice of what to draw at the current time. */
module VideoEditor {
  import opened Wrappers
  import opened Clock
  import opened Sequences
  import opened VideoClips

  // ---------------------------------------------------------------------------
  // VideoEditor: total duration, time updates, play/pause, selection
  // ---------------------------------------------------------------------------

  /** The editor's own state. */
  datatype Editor = Editor(isPlaying: bool, currentTime: real, selected: Option<VideoClip>, zoom: real)

  /** The state the editor mounts with. */
  const InitialEditor := Editor(false, 0.0, None, 1.0)

  /** The timeline never shows less than this many seconds. */
  const MinTotalDuration: real := 30.0

  function Max(a: real, b: real): real { if a >= b then a else b }
  function Min(a: real, b: real): real { if a <= b then a else b }

  /** `clips.reduce((acc, clip) => Math.max(acc, clip.endTime), acc)`. */
  function LatestEnd(acc: real, clips: seq<VideoClip>): (r: real)
    ensures acc <= r
    ensures forall i :: 0 <= i < |clips| ==> clips[i].endTime <= r
    ensures r == acc || exists i :: 0 <= i < |clips| && clips[i].endTime == r
    decreases |clips|
  {
    if clips == [] then acc
    else
      var r := LatestEnd(Max(acc, clips[0].endTime), clips[1..]);
      assert forall i :: 1 <= i < |clips| ==> clips[i] == clips[1..][i - 1];
      assert r != Max(acc, clips[0].endTime) ==> exists i :: 1 <= i < |clips| && clips[i].endTime == r;
      r
  }

  /** `totalDuration`: the latest end time, but at least 30 seconds. */
  function TotalDuration(clips: seq<VideoClip>): (r: real)
    ensures MinTotalDuration <= r
    ensures forall i :: 0 <= i < |clips| ==> clips[i].endTime <= r
    ensures r == MinTotalDuration || exists i :: 0 <= i < |clips| && clips[i].endTime == r
  {
    LatestEnd(MinTotalDuration, clips)
  }

  /** Clips that all end within 30 seconds leave the total at 30. */
  lemma ShortClipsGiveMinimum(clips: seq<VideoClip>)
    requires forall i :: 0 <= i < |clips| ==> clips[i].endTime <= MinTotalDuration
    ensures TotalDuration(clips) == MinTotalDuration
  {
  }

  /** `Math.max(0, Math.min(total, time))`. */
  function ClampTime(total: real, time: real): (r: real)
    requires 0.0 <= total
    ensures 0.0 <= r <= total
    ensures r == time <==> 0.0 <= time <= total
    ensures time < 0.0 ==> r == 0.0
    ensures total < time ==> r == total
  {
    Max(0.0, Min(total, time))
  }

  /** `handleTimeUpdate`: only the current time moves, to the requested time clamped
      into the clips' total duration. */
  function TimeUpdate(e: Editor, clips: seq<VideoClip>, time: real): (r: Editor)
    ensures 0.0 <= r.currentTime <= TotalDuration(clips)
    ensures r.currentTime == time <==> 0.0 <= time <= TotalDuration(clips)
    ensures time < 0.0 ==> r.currentTime == 0.0
    ensures TotalDuration(clips) < time ==> r.currentTime == TotalDuration(clips)
    ensures r.(currentTime := e.currentTime) == e
  {
    e.(currentTime := ClampTime(TotalDuration(clips), time))
  }

  /** Seeking to where the editor already is changes nothing, and a second seek to
      the same time adds nothing to the first. */
  lemma TimeUpdateIdempotent(e: Editor, clips: seq<VideoClip>, time: real)
    ensures TimeUpdate(TimeUpdate(e, clips, time), clips, time) == TimeUpdate(e, clips, time)
    ensures 0.0 <= e.currentTime <= TotalDuration(clips) ==> TimeUpdate(e, clips, e.currentTime) == e
  {
  }

  /** `handlePlayPause`. */
  function PlayPause(e: Editor): (r: Editor)
    ensures r.isPlaying != e.isPlaying
    ensures r.(isPlaying := e.isPlaying) == e
  {
    e.(isPlaying := !e.isPlaying)
  }

  lemma PlayPauseTwice(e: Editor)
    ensures PlayPause(PlayPause(e)) == e
  {
  }

  /** `handleClipSelect`: the clip is remembered as selected and the same clip is
      passed on to the parent's `onClipSelect`. */
  function ClipSelect(e: Editor, clip: VideoClip): (r: (Editor, VideoClip))
    ensures r.0.selected == Some(clip) && r.1 == clip
    ensures r.0.(selected := e.selected) == e
  {
    (e.(selected := Some(clip)), clip)
  }

  // ---------------------------------------------------------------------------
  // VideoControls: zoom buttons and percentage
  // ---------------------------------------------------------------------------

  const MinZoom: real := 0.25
  const MaxZoom: real := 4.0
  const ZoomStep: real := 0.25

  /** The zoom-out button: `Math.max(0.25, zoom - 0.25)`. */
  function ZoomOut(zoom: real): (r: real)
    ensures MinZoom <= r
    ensures r <= zoom || zoom < MinZoom
    ensures MinZoom + ZoomStep <= zoom ==> r == zoom - ZoomStep
    ensures zoom < MinZoom + ZoomStep ==> r == MinZoom
  {
    Max(MinZoom, zoom - ZoomStep)
  }

  /** The zoom-in button: `Math.min(4, zoom + 0.25)`. */
  function ZoomIn(zoom: real): (r: real)
    ensures r <= MaxZoom
    ensures zoom <= r || MaxZoom < zoom
    ensures zoom <= MaxZoom - ZoomStep ==> r == zoom + ZoomStep
    ensures MaxZoom - ZoomStep < zoom ==> r == MaxZoom
  {
    Min(MaxZoom, zoom + ZoomStep)
  }

  predicate ZoomInRange(zoom: real) {
    MinZoom <= zoom <= MaxZoom
  }

  /** A run of clicks on the two buttons, `true` for zoom in. */
  function Zooms(zoom: real, clicks: seq<bool>): real
    decreases |clicks|
  {
    if clicks == [] then zoom
    else Zooms(if clicks[0] then ZoomIn(zoom) else ZoomOut(zoom), clicks[1..])
  }

  /** From a zoom inside [0.25, 4] no run of clicks leaves that range. */
  lemma {:induction false} ZoomsStayInRange(zoom: real, clicks: seq<bool>)
    requires ZoomInRange(zoom)
    ensures ZoomInRange(Zooms(zoom, clicks))
    decreases |clicks|
  {
    if clicks != [] {
      ZoomsStayInRange(if clicks[0] then ZoomIn(zoom) else ZoomOut(zoom), clicks[1..]);
    }
  }

  /** Zooming in and then out again returns to the same zoom, below the top step. */
  lemma ZoomOutUndoesZoomIn(zoom: real)
    requires MinZoom <= zoom <= MaxZoom - ZoomStep
    ensures ZoomOut(ZoomIn(zoom)) == zoom
  {
  }

  /** The label between the buttons: `Math.round(zoom * 100)` percent. */
  function ZoomPercent(zoom: real): (p: int)
    ensures zoom * 100.0 - 0.5 < p as real <= zoom * 100.0 + 0.5
    ensures ZoomInRange(zoom) ==> 25 <= p <= 400
  {
    Round(zoom * 100.0)
  }

  // ---------------------------------------------------------------------------
  // VideoPreview: active clips and what is drawn
  // ---------------------------------------------------------------------------

  /** A clip is showing at `t` from its start time to its end time, both ends
      included. */
  predicate IsActive(c: VideoClip, t: real) {
    c.startTime <= t <= c.endTime
  }

  /** `activeClips`: the clips showing at `t`, in list order. */
  function ActiveClips(clips: seq<VideoClip>, t: real): (r: seq<VideoClip>)
    ensures forall c :: c in r <==> c in clips && IsActive(c, t)
    ensures |r| <= |clips|
    decreases |clips|
  {
    if clips == [] then []
    else
      var rest := ActiveClips(clips[1..], t);
      assert forall c :: c in clips <==> c == clips[0] || c in clips[1..];
      if IsActive(clips[0], t) then [clips[0]] + rest else rest
  }

  /** The active clips keep the order of the clip list. */
  lemma {:induction false} ActiveClipsInOrder(clips: seq<VideoClip>, t: real)
    ensures IsSubsequence(ActiveClips(clips, t), clips)
    decreases |clips|
  {
    if clips != [] {
      ActiveClipsInOrder(clips[1..], t);
      var r := ActiveClips(clips, t);
      if IsActive(clips[0], t) {
        assert r[1..] == ActiveClips(clips[1..], t);
      } else if r != [] {
        assert r[0] in r;
      }
    }
  }

  /** The time a clip's renderer is given: `currentTime - clip.startTime`. */
  function LocalTime(c: VideoClip, t: real): (r: real)
    ensures IsActive(c, t) ==> 0.0 <= r <= c.endTime - c.startTime
    ensures c.startTime + r == t
  {
    t - c.startTime
  }

  /** What one active clip puts on the canvas, with its position in the active list
      (`index`, which offsets the animation's box). */
  datatype Drawing =
    | AnimationBox(index: nat, name: string, localTime: real)
    | TextCaption(index: nat, content: string)

  /** The canvas at `t`: the placeholder with the time when nothing is active,
      otherwise the drawings of the active clips. */
  datatype Frame = Placeholder(time: real) | Scene(drawings: seq<Drawing>)

  /** The drawing for the active clip at position `index`: animations and text
      clips are drawn, audio clips produce nothing. */
  function Draw(c: VideoClip, t: real, index: nat): (d: Option<Drawing>)
    ensures d.None? <==> c.kind == Audio
    ensures d.Some? ==> d.value.index == index
    ensures c.kind == Animation ==> d == Some(AnimationBox(index, c.name, LocalTime(c, t)))
    ensures c.kind == TextClip ==> d == Some(TextCaption(index, c.content))
  {
    match c.kind
    case Animation => Some(AnimationBox(index, c.name, LocalTime(c, t)))
    case TextClip => Some(TextCaption(index, c.content))
    case Audio => None
  }

  /** The `forEach` over the active clips, the first of them at position `from`. */
  function DrawAll(active: seq<VideoClip>, t: real, from: nat): (r: seq<Drawing>)
    ensures |r| <= |active|
    ensures forall k :: 0 <= k < |r| ==> from <= r[k].index < from + |active|
    ensures forall k :: 0 <= k < |r| ==> Draw(active[r[k].index - from], t, r[k].index) == Some(r[k])
    decreases |active|
  {
    if active == [] then []
    else
      var rest := DrawAll(active[1..], t, from + 1);
      match Draw(active[0], t, from)
      case Some(d) => [d] + rest
      case None => rest
  }

  /** Every drawn clip is drawn once, and the drawings come in list order. */
  lemma {:induction false} DrawAllOrdered(active: seq<VideoClip>, t: real, from: nat)
    ensures forall k, l :: 0 <= k < l < |DrawAll(active, t, from)| ==>
              DrawAll(active, t, from)[k].index < DrawAll(active, t, from)[l].index
    decreases |active|
  {
    if active != [] {
      DrawAllOrdered(active[1..], t, from + 1);
    }
  }

  /** Every animation and text clip among the active ones is drawn. */
  lemma {:induction false} DrawAllComplete(active: seq<VideoClip>, t: real, from: nat, j: nat)
    requires j < |active| && active[j].kind != Audio
    ensures Draw(active[j], t, from + j).value in DrawAll(active, t, from)
    decreases |active|
  {
    if j > 0 {
      DrawAllComplete(active[1..], t, from + 1, j - 1);
    }
  }

  /** The canvas the preview paints at `t`. */
  function Render(clips: seq<VideoClip>, t: real): (f: Frame)
    ensures f.Placeholder? <==> ActiveClips(clips, t) == []
    ensures f.Placeholder? ==> f.time == t
    ensures f.Scene? ==> f.drawings == DrawAll(ActiveClips(clips, t), t, 0)
  {
    var active := ActiveClips(clips, t);
    if active == [] then Placeholder(t) else Scene(DrawAll(active, t, 0))
  }

  /** When the only clips showing are audio clips the canvas is left black: no
      placeholder and nothing drawn. */
  lemma {:induction false} AudioOnlyIsBlank(active: seq<VideoClip>, t: real, from: nat)
    requires forall i :: 0 <= i < |active| ==> active[i].kind == Audio
    ensures DrawAll(active, t, from) == []
    decreases |active|
  {
    if active != [] {
      AudioOnlyIsBlank(active[1..], t, from + 1);
    }
  }
}

=== FILE: wrappers.dfy ===
/** Failure-carrying values shared by every module of the model. */
module Wrappers {

  /** A value that may be absent: JavaScript's `undefined` / `null` on the one
      side, a present value on the other. */
  datatype Option<+T> = None | Some(value: T) {

    /** The value, or `default` when absent (the `??` operator). */
    function GetOr(default: T): T {
      match this
      case Some(v) => v
      case None => default
    }
  }

  /** The outcome of an operation that either yields a value or fails with an error
      (a resolved or a rejected promise, a returned value or a thrown exception). */
  datatype Result<+T, +E> = Ok(value: T) | Err(error: E)
}
